=== FILE: README.md ===
# Truck Manager, modelled in Dafny

Truck Manager is a fleet-operations app for truck owners. Owners record trips and the payments received against them, fuel and maintenance expenses, drivers and their pay, and download PDF and Excel reports. This project models the parts of the app that compute something. Each part becomes a Dafny module named after the page or file it models.

- **The REST server** (`server.dfy`, module `Server`). This covers:
  - the derived settlement status of a trip: 'received' once its payments cover its order value;
  - trip creation, including the eager cash payment for a trip saved as received;
  - the ownership checks on trips and payments;
  - the mapping of a driver's mobile numbers onto two columns;
  - the UPDATE builders for drivers, the profile and trips, with their running `$k` placeholder counter.

  The database is a value holding sequences of rows. Every route is a function from the database and the request to the reply and the new database. The UPDATE builders are methods that mirror the route's `push` steps.
- **The dashboard and the reports** (`dashboard.dfy`, `reports.dfy`). This covers:
  - the truck and date filters;
  - the headline figures, the weekly earnings chart and the expense breakdown;
  - the six PDF tables and the vertical cursor that lays them out. The PDF document is a class whose `AddTable` method moves the cursor;
  - the six Excel sheets. The workbook is a class whose `AppendSheet` method adds a sheet.
- **The forms.** These are the add-trip, add-fuel, add-expense, add-payment, add-driver, edit-profile, truck-setup and code-entry pages. Each form's model covers its defaults, its change handlers and its save checks and payload. The keystroke handlers that work step by step are methods:
  - the add-trip form's clamping and its derived order value and expense;
  - the mobile and code slots;
  - the truck-setup entries, which are objects edited in place.
- **The list pages.** These are the trips, payments, fuel and expense lists and a driver's ledger. Their models cover filters, tabs, totals, badges and captions.
- **The session and the guards** (`auth.dfy`, `protectedroute.dfy`, `subscriptionguard.dfy`). These cover the authentication provider's state, kept in a class, and the decision order of the route guard and the paywall.
- **The small widgets.** These are the date picker and the dropdown select, and the initials and phone captions of the sidebar, the settings page and the driver list.
- **JavaScript value semantics** (`js.dfy`, module `Js`). This models what the code relies on:
  - dynamically typed values and truthiness;
  - `Number` and `parseFloat`, including NaN;
  - `+` on text and `undefined`;
  - `split`; `trim` with the full ECMAScript white-space set; case mapping of Basic Latin and Latin-1 letters;
  - the `filter` and `reduce` folds.

  Its members are helpers and have no rows below.

## Model

| member | source | states |
|---|---|---|
| Auth.IsTrialExpired | src/hooks/useAuth.jsx:107-111 | never expired without a user; always expired when the user has no `trial_expires_at`; otherwise expired exactly when the expiry instant is before now |
| Auth.TrialExpiryMonotone | src/hooks/useAuth.jsx:107-111 | a trial that has expired at one instant is expired at every later instant |
| Auth.Failure | src/hooks/useAuth.jsx:54 | a failed reply raises an error whose message is `data.message` when that is truthy, else the fallback text, with no email and no status |
| Auth.AuthProvider.constructor | src/hooks/useAuth.jsx:7-8 | a mounted provider has no user, is loading, and holds the stored token |
| Auth.AuthProvider.InitAuth | src/hooks/useAuth.jsx:11-33 | no token leaves no user; a token with a fetched profile signs that profile in; a refused or failed fetch removes the token and leaves no user; loading always ends |
| Auth.AuthProvider.Login | src/hooks/useAuth.jsx:38-60 | a refused 403 reply with an email throws an error carrying the email and status 403; any other refusal throws with `data.message` or 'Login failed' and changes nothing; success stores the token and signs the returned user in |
| Auth.AuthProvider.VerifyOtp | src/hooks/useAuth.jsx:85-97 | a refusal throws with the server's message or 'Verification failed' and changes nothing; success stores the token and signs the returned user in |
| Auth.AuthProvider.Logout | src/hooks/useAuth.jsx:99-102 | the token is removed and the user becomes null |
| Auth.IsAdmin | src/hooks/useAuth.jsx:104 | `user?.role === 'admin'` |
| Auth.IsBlocked | src/hooks/useAuth.jsx:105 | `user?.is_blocked === true` |
| Auth.IsVerified | src/hooks/useAuth.jsx:106 | `user?.is_verified === true` |
| Auth.SignedOutPredicates | src/hooks/useAuth.jsx:104-111 | with no user, admin, blocked and verified are all false and the trial is not expired |
| Auth.OnlyTrueCounts | src/hooks/useAuth.jsx:105-106 | only the boolean `true` blocks or verifies: the text 'true' or the number 1 does not |
| Dashboard.ScopeToTruck | frontend/src/pages/Dashboard/Dashboard.jsx:79-89 | 'all' keeps every record; any other selection keeps exactly the records whose `String(truck_id)` equals `String(selection)`, in their order (`Filter` by that test) |
| Dashboard.ScopeToTruckSubsequence | frontend/src/pages/Dashboard/Dashboard.jsx:79-89 | the truck scope keeps records in their order (a subsequence of the input) |
| Dashboard.CurrentStats | frontend/src/pages/Dashboard/Dashboard.jsx:92-101 | trips counted is the scoped trip count; earnings are the scoped Σ paid amount and pending the scoped Σ (amount − paid), so together they are the scoped Σ amount; fuel cost is the scoped Σ fuel amount; non-numbers count as 0 |
| Dashboard.EarningsPlusPending | frontend/src/pages/Dashboard/Dashboard.jsx:94-99 | Σ paid + Σ (amount − paid) = Σ amount over any list of trips |
| Dashboard.PendingCanBeNegative | frontend/src/pages/Dashboard/Dashboard.jsx:95-99 | pending is not clamped: a trip of 100 paid 150 gives −50 |
| Dashboard.FilterByTruck | frontend/src/pages/Dashboard/Dashboard.jsx:128-130 | the truck step keeps exactly the records the truck test accepts, in order (equal to `Filter` by that test) |
| Dashboard.FilterByDate | frontend/src/pages/Dashboard/Dashboard.jsx:133-148 | the date step keeps exactly the records the date test of the chosen mode accepts, in order |
| Dashboard.ApplyDataFilters | frontend/src/pages/Dashboard/Dashboard.jsx:124-150 | the result is the truck filter (unless 'all') followed by the date filter (unless 'yearly'; custom only with both bounds) |
| Dashboard.ScopedSubsequence | frontend/src/pages/Dashboard/Dashboard.jsx:124-150 | a report's records are a subsequence of the input |
| Dashboard.ScopedIdempotent | frontend/src/pages/Dashboard/Dashboard.jsx:124-150 | applying the report filters twice equals applying them once |
| Dashboard.ScopedEverything | frontend/src/pages/Dashboard/Dashboard.jsx:128-133 | with truck 'all' and range 'yearly' nothing is filtered out |
| Dashboard.CustomWithoutBounds | frontend/src/pages/Dashboard/Dashboard.jsx:140-147 | a custom range missing either bound keeps every record |
| Dashboard.BuildReportData | frontend/src/pages/Dashboard/Dashboard.jsx:152-159 | trips are scoped by `truck_id`/`trip_date`, fuel and expenses by `truck_id`/`expense_date`, payments by `trip_id`/`created_at`; drivers and suppliers pass through (together: `ScopedReport`) |
| Dashboard.HandleDownloadReport | frontend/src/pages/Dashboard/Dashboard.jsx:112-173 | no format opens the filter drawer and nothing else; 'pdf' and 'excel' generate that report from exactly the scoped data of `ScopedReport` (every list scoped, drivers and suppliers whole); any other format generates nothing |
| Dashboard.WeeklyEarnings | frontend/src/pages/Dashboard/Dashboard.jsx:194-226 | exactly seven labels and seven bars, for today−6 … today in order, each bar the Σ amount of the scoped trips on that local day |
| Dashboard.UndatedTripCountsNowhere | frontend/src/pages/Dashboard/Dashboard.jsx:214 | a trip without `trip_date` adds to no bar |
| Dashboard.ExpenseBreakdown | frontend/src/pages/Dashboard/Dashboard.jsx:257-280 | the result is `[fuel, maintenance, salary, misc]`: Σ fuel amounts, Σ over exactly 'Tyre'/'Repair'/'Service', Σ over 'Salary', Σ over everything else |
| Dashboard.BreakdownTotal | frontend/src/pages/Dashboard/Dashboard.jsx:267-277 | maintenance + salary + misc = Σ of all expense amounts, so the four buckets add up to fuel plus expenses |
| Dashboard.UnlistedCategoryIsMisc | frontend/src/pages/Dashboard/Dashboard.jsx:269-276 | a category other than the exact capitalised names (such as 'repair') lands wholly in misc |
| DatePicker.MonthLength | frontend/src/components/ui/DatePicker.jsx:28-30 | a Gregorian month has 28 to 31 days, and February has 29 exactly in leap years |
| DatePicker.DaysBeforeNextMonth | frontend/src/components/ui/DatePicker.jsx:28-30 | the days before month m+1 are the days before month m plus the length of month m |
| DatePicker.YearLength | frontend/src/components/ui/DatePicker.jsx:28-30 | the month lengths add up to 366 days in a leap year and 365 otherwise |
| DatePicker.LeapsStep | frontend/src/components/ui/DatePicker.jsx:28-33 | the count of leap years before y+1 grows by one exactly when y is a leap year |
| DatePicker.Weekday | frontend/src/components/ui/DatePicker.jsx:32-34 | `getDay()` of a day number lies in 0..6 |
| DatePicker.FirstOfNextMonth | frontend/src/components/ui/DatePicker.jsx:28-34 | the first of the following month (across a year end too) is the day after the last day of this month |
| DatePicker.FullYear | frontend/src/components/ui/DatePicker.jsx:29 | `new Date(year, ...)` reads a year 0..99 as 1900..1999 and any other year as itself |
| DatePicker.DaysInMonth | frontend/src/components/ui/DatePicker.jsx:28-30 | `getDaysInMonth` is the Gregorian length of that month of that (full) year |
| DatePicker.FirstDayOfMonth | frontend/src/components/ui/DatePicker.jsx:32-34 | `getFirstDayOfMonth` is the weekday (0..6, Sunday first) of the first of the month |
| DatePicker.NextGridContinues | frontend/src/components/ui/DatePicker.jsx:28-55 | the grid of the next month starts on the weekday right after this month's last day |
| DatePicker.Shift | frontend/src/components/ui/DatePicker.jsx:43-55 | the new month is always 0..11: past December gives (0, year+1), before January gives (11, year−1), otherwise the year is unchanged |
| DatePicker.ShiftRoundTrip | frontend/src/components/ui/DatePicker.jsx:43-55 | one month forward then one back (and back then forward) returns to the month and year shown before |
| DatePicker.PadStart | frontend/src/components/ui/DatePicker.jsx:38 | `padStart` yields the longer of the text and the width |
| DatePicker.Pad2Value | frontend/src/components/ui/DatePicker.jsx:38 | a number below 100 pads to exactly two digits that read back as the number |
| DatePicker.FormatDate | frontend/src/components/ui/DatePicker.jsx:36-41 | the emitted text is the year, a hyphen, two digits, a hyphen, two digits |
| DatePicker.ParseDate | frontend/src/components/ui/DatePicker.jsx:38 | a text it reads has hyphens three and six characters from the end |
| DatePicker.FormatParses | frontend/src/components/ui/DatePicker.jsx:36-41 | reading back a clicked day's text gives the year, the 1-based month and the day (a round trip) |
| DatePicker.IsoExtendedForm | frontend/src/components/ui/DatePicker.jsx:38 | for a four-digit year the text is the ISO 8601:2004 complete extended calendar date (section 4.1.2.2): ten characters, hyphens at 4 and 7, digits elsewhere |
| DatePicker.DayDeterminesText | frontend/src/components/ui/DatePicker.jsx:69-70 | two days of one month never share a text |
| DatePicker.SelectedUnique | frontend/src/components/ui/DatePicker.jsx:68-71 | in a grid of consecutive days of one month at most one cell is selected |
| DatePicker.CellOf | frontend/src/components/ui/DatePicker.jsx:69-71 | a day cell is selected iff `value` equals its text, and marked today iff day, month and year are today's |
| DatePicker.LayOut | frontend/src/components/ui/DatePicker.jsx:60-97 | `first` blank slots, then one cell per day 1..n in order, at most one of them selected |
| DatePicker.Shown | frontend/src/components/ui/DatePicker.jsx:140 | the closed picker shows the value when truthy, else the placeholder |
| DatePicker.Picker.constructor | frontend/src/components/ui/DatePicker.jsx:4-10 | a new picker is closed and shows today's month and year |
| DatePicker.Picker.Toggle | frontend/src/components/ui/DatePicker.jsx:124 | the field button flips open/closed and keeps the month shown |
| DatePicker.Picker.MouseDown | frontend/src/components/ui/DatePicker.jsx:13-21 | a mouse-down outside closes the picker; one inside changes nothing |
| DatePicker.Picker.ChangeMonth | frontend/src/components/ui/DatePicker.jsx:43-55 | the month and year become `Shift` of the old ones; open/closed is kept |
| DatePicker.Picker.HandleDateClick | frontend/src/components/ui/DatePicker.jsx:36-41 | a day click emits that day's `YYYY-MM-DD` text under the field's name and closes |
| DatePicker.Picker.Clear | frontend/src/components/ui/DatePicker.jsx:179 | Clear emits the empty text and closes |
| DatePicker.Picker.PickToday | frontend/src/components/ui/DatePicker.jsx:185-190 | Today emits today's text and closes; the month shown stays |
| DatePicker.Picker.RenderCalendar | frontend/src/components/ui/DatePicker.jsx:57-98 | `getFirstDayOfMonth` blank slots, then the days 1..`getDaysInMonth` in order, at most one selected |
| DriverForm.InitialForm | frontend/src/pages/Drivers/AddDriver.jsx:16-26 | a new form has exactly one empty mobile slot, empty text entries and no pictures |
| DriverForm.ContactNumbers | frontend/src/pages/Drivers/AddDriver.jsx:52-57 | a non-empty `mobiles` array is used as is; otherwise the truthy ones of [`mobile_primary`, `mobile_secondary`], in that order |
| DriverForm.Prefill | frontend/src/pages/Drivers/AddDriver.jsx:59-69 | the edit form has at least one slot: the driver's numbers, or `['']` when there are none; each entry is the driver's value or ''; the pictures fall back from `photo_url` to `photo` to null (and likewise for the Aadhaar picture) |
| DriverForm.LoadDriver | frontend/src/pages/Drivers/AddDriver.jsx:45-79 | a fetched driver replaces the form with its prefill; no driver leaves the form as it was |
| DriverForm.HandleChange | frontend/src/pages/Drivers/AddDriver.jsx:81-98 | a file over 5 MB is refused and the form kept; otherwise only the named entry changes, to the file's data URL or the typed value |
| DriverForm.HandleMobileChange | frontend/src/pages/Drivers/AddDriver.jsx:100-104 | slot i takes the value; the number of slots, the other slots and the other entries are unchanged |
| DriverForm.AddMobileField | frontend/src/pages/Drivers/AddDriver.jsx:106-108 | one empty slot is appended at the end; the existing slots are kept |
| DriverForm.NumberOrNull | frontend/src/pages/Drivers/AddDriver.jsx:118-119 | a falsy entry is sent as null, a numeric one as its number, and any other as NaN |
| DriverForm.Payload | frontend/src/pages/Drivers/AddDriver.jsx:113-123 | the sent numbers are exactly the slots that are non-blank after trimming, in slot order (`Filter` by that test); salary and advance are numbers or null; an empty truck becomes null; the pictures go as `photo_url`/`aadhar_url`; the other entries pass through |
| DriverForm.SubmittedInOrder | frontend/src/pages/Drivers/AddDriver.jsx:116 | the sent numbers keep the slots' order (a subsequence) |
| DriverForm.FirstFilledIsPrimary | frontend/src/pages/Drivers/AddDriver.jsx:116 | with the server's mapping, the first filled slot becomes the driver's primary number |
| DriverForm.BlankMobilesRejected | frontend/src/pages/Drivers/AddDriver.jsx:116 | a form whose slots are all blank is refused by the server with 400 and nothing is stored |
| DriverForm.UntouchedFormSendsNoNumbers | frontend/src/pages/Drivers/AddDriver.jsx:16-26 | a new form submitted untouched sends an empty `mobiles` list |
| DriverLedger.BlankPaymentForm | frontend/src/pages/Drivers/DriverDetails.jsx:19-24 | the payment form starts with amount '', type 'salary', remark '' and today's date |
| DriverLedger.HandleAddPayment | frontend/src/pages/Drivers/DriverDetails.jsx:45-70 | a body is sent iff the amount is non-empty and is not a number ≤ 0 (the sign decided on the exact decimal, so "0.5" passes and "-0.5" is refused); it carries the parsed amount and the other fields as they are; an accepted payment closes the dialog and resets the form, otherwise the form is kept |
| DriverLedger.NaNAmountPasses | frontend/src/pages/Drivers/DriverDetails.jsx:47 | an amount that is not a number passes the check and is sent as NaN |
| DriverLedger.FractionalAmountPasses | frontend/src/pages/Drivers/DriverDetails.jsx:47-51 | an amount of "0.5" passes the `<= 0` check and is sent, as its whole part |
| DriverLedger.TotalPaidIsSum | frontend/src/pages/Drivers/DriverDetails.jsx:72 | the total is a number exactly when every amount parses, and is then the sum of the amounts (no zero-guard) |
| DriverLedger.TypeLabel | frontend/src/pages/Drivers/DriverDetails.jsx:245 | salary, advance and bonus get their own labels; any other type is labelled 'other' |
| DriverList.GetInitials | frontend/src/pages/Drivers/DriverList.jsx:35-42 | 'D' for a missing or empty name; a one-word name shows its first character; a name whose first two pieces are words shows the corrected initials |
| DriverList.SpacedNameShowsUndefined | frontend/src/pages/Drivers/DriverList.jsx:37-41 | the name "John " shows "Jundefined" where the corrected initials are "J" |
| DriverList.AvatarColor | frontend/src/pages/Drivers/DriverList.jsx:45-48 | the colour is one of the six palette colours |
| DriverList.AvatarColorsCycle | frontend/src/pages/Drivers/DriverList.jsx:45-48 | the colours repeat with period six and no two of six consecutive cards share a colour |
| EditProfile.Loaded | src/pages/Settings/EditProfile.jsx:44-50 | each of the five fields is the profile's value when truthy, else ''; a missing country code becomes '+91' |
| EditProfile.HandleImageChange | src/pages/Settings/EditProfile.jsx:70-83 | no file does nothing; a picture over 2 MB is refused and the form kept; otherwise only `profile_picture` changes, to the picture's data URL |
| EditProfile.SaveOutcome | src/pages/Settings/EditProfile.jsx:85-105 | refused iff the name or the mobile is empty; aborted iff the password section is open with a new password that differs from its confirmation; otherwise the form is sent, with the current and new passwords added exactly when a confirmed change is asked for |
| EditProfile.HandleSave | src/pages/Settings/EditProfile.jsx:85-105 | the imperative save (copy the form, then assign the password fields) decides exactly what `SaveOutcome` states |
| EditProfile.SentUpdateHasFields | src/pages/Settings/EditProfile.jsx:86-93 | every update the page sends names at least one column, so the server's "No fields to update" never answers it |
| EditProfile.PasswordStepOnlyWhenAsked | src/pages/Settings/EditProfile.jsx:96-102 | the server runs its password step for a sent update exactly when the page asked for a confirmed password change |
| ExpenseForm.InitialForm | src/pages/Management/Expenses.jsx:18-24 | a new expense has category 'Repair' (capitalised), today's date, and an empty truck, amount and description |
| ExpenseForm.WithTrucks | src/pages/Management/Expenses.jsx:31-33 | once trucks load the first one is selected (none: the form is unchanged); nothing else changes |
| ExpenseForm.PickCategory | src/pages/Management/Expenses.jsx:104 | a button stores its name as the category and changes nothing else |
| ExpenseForm.DefaultHighlightsRepair | src/pages/Management/Expenses.jsx:105 | the default 'Repair' highlights the 'repair' button and no other, as the comparison is on the lowercased value |
| ExpenseForm.PickedButtonAlone | src/pages/Management/Expenses.jsx:101-105 | after a button is pressed exactly that button is highlighted |
| ExpenseForm.ButtonsDistinct | src/pages/Management/Expenses.jsx:101 | no two buttons store the same category |
| ExpenseForm.ButtonsAreLowerCase | src/pages/Management/Expenses.jsx:101 | each button's name is already lower case |
| ExpenseForm.HandleSave | src/pages/Management/Expenses.jsx:46-57 | refused iff the truck or the amount is empty; otherwise the amount is sent parsed and every other field as it is |
| ExpenseForm.ButtonCategoriesLandInMisc | src/pages/Management/Expenses.jsx:101-104 | an expense saved with any button's lowercase category counts wholly in the dashboard's misc share, never in maintenance |
| ExpenseForm.DefaultCategoryIsMaintenance | src/pages/Management/Expenses.jsx:20 | an expense saved with the untouched default category counts wholly as maintenance |
| ExpenseList.TotalExpenses | src/pages/Management/ExpenseList.jsx:28-30 | the total is 0 for an empty list and equals the dashboard's maintenance + salary + misc split of the same expenses |
| ExpenseList.CategoryIcon | src/pages/Management/ExpenseList.jsx:139-141 | lowercased 'repair', 'tyre' and 'service' get their own icons; anything else, a missing category included, the default icon |
| ExpenseList.IconIgnoresCase | src/pages/Management/ExpenseList.jsx:139-141 | the icon is the same for a category and its lowercase form |
| ExpenseList.View | src/pages/Management/ExpenseList.jsx:117 | the empty state shows iff the list is empty; otherwise every expense gets its card, in order |
| ExpenseList.NullReplyIsEmpty | src/pages/Management/ExpenseList.jsx:18 | a null reply becomes the empty list: empty state and total 0 |
| FuelExpenseList.TotalFuelSpend | src/pages/Fuel/FuelExpenseList.jsx:42-44 | the total is 0 for an empty list and equals the dashboard's fuel cost of the same logs (Σ `Number(amount)`, non-numbers as 0) |
| FuelExpenseList.HandleDelete | src/pages/Fuel/FuelExpenseList.jsx:30-40 | a declined confirm or a failed delete leaves the list as it was; a successful one keeps exactly the logs whose id differs, in order (`Filter` by `id !== id`) |
| FuelExpenseList.DeleteLowersTotal | src/pages/Fuel/FuelExpenseList.jsx:34-44 | a delete lowers the total by exactly the amounts of the logs it removes |
| FuelExpenseList.PumpCaption | src/pages/Fuel/FuelExpenseList.jsx:179 | the pump's name when present, else the 'local' message |
| FuelExpenseList.FilledByCaption | src/pages/Fuel/FuelExpenseList.jsx:183 | the driver's name when present, else the 'self' message |
| FuelForm.InitialForm | frontend/src/pages/Fuel/AddFuelExpense.jsx:21-30 | a new log has `filled_by` 'Self', today's date and every other field empty |
| FuelForm.WithFetched | frontend/src/pages/Fuel/AddFuelExpense.jsx:44-45 | the first truck is selected when there is one, a driver only when there is exactly one; nothing else changes |
| FuelForm.HandleChange | frontend/src/pages/Fuel/AddFuelExpense.jsx:53-67 | 'new_pump' and 'new_driver' leave for their pages and keep the form; any other change sets only the named field |
| FuelForm.HandleSave | frontend/src/pages/Fuel/AddFuelExpense.jsx:80-94 | refused iff the truck, the amount or the litres is empty; otherwise amount and litres are parsed, an empty pump becomes null, the driver is sent only when filled by 'Driver', and the rest passes through |
| FuelForm.UntouchedFormRefused | frontend/src/pages/Fuel/AddFuelExpense.jsx:21-45 | the untouched form cannot be saved, whatever was preselected |
| FuelForm.SelfFilledSendsNoDriver | frontend/src/pages/Fuel/AddFuelExpense.jsx:93 | fuel filled by 'Self' is sent with a null driver, even with a sole driver preselected |
| FuelForm.TypedNumbersSent | frontend/src/pages/Fuel/AddFuelExpense.jsx:90-91 | typed whole amounts and litres are sent as those numbers |
| Identity.TwoWordInitials | frontend/src/pages/Drivers/DriverList.jsx:35-42 | the fallback for a falsy name; a name that splits into one non-empty piece shows its first character (the driver list and the sidebar share this computation) |
| Identity.OneWordInitial | src/components/layout/Sidebar.jsx:36-43 | a name without spaces shows its first character |
| Identity.Words | frontend/src/pages/Settings/Settings.jsx:36 | the words of a name are non-empty pieces between spaces |
| Identity.WordsWithin | frontend/src/pages/Settings/Settings.jsx:36 | words hold no space and only characters of the name |
| Identity.CorrectedInitials | frontend/src/pages/Drivers/DriverList.jsx:35-42 | the corrected initials: the fallback for a falsy or blank name; otherwise one or two characters, the first word's first character first, two exactly when there are two words |
| Identity.CorrectedInitialsFromName | src/components/layout/Sidebar.jsx:36-43 | the corrected initials show only characters of the name and never a space |
| Identity.WellSpacedNamesAgree | src/components/layout/Sidebar.jsx:38-42 | when the first two pieces are words, the initials as written equal the corrected ones |
| Identity.TrailingSpaceShowsUndefined | src/components/layout/Sidebar.jsx:38-42 | "John " shows "Jundefined" where "J" was meant |
| Identity.TrailingSpacePieces | src/components/layout/Sidebar.jsx:38 | "John " splits into "John" and an empty piece, and has one word |
| Identity.WordThenSpace | src/components/layout/Sidebar.jsx:38 | a word followed by one space splits into the word and an empty piece |
| Identity.BlankNameShowsNaN | src/components/layout/Sidebar.jsx:38-42 | a name of one space shows "NaN" where the fallback was meant |
| Identity.PhoneText | src/components/layout/Sidebar.jsx:48-49 | the country code ('+91' when missing), one space, then the mobile number |
| Settings.FirstLetter | frontend/src/pages/Settings/Settings.jsx:36 | `n[0]` as `join('')` writes it has at most one character |
| Settings.GetInitials | frontend/src/pages/Settings/Settings.jsx:34-37 | 'U' for a missing or empty name; otherwise the upper-cased corrected initials (Basic Latin and Latin-1 letters upper-cased) (the first letters of the first two words), so never more than two characters; '' for a blank name |
| Settings.InitialsOfWords | frontend/src/pages/Settings/Settings.jsx:36 | the joined first letters, upper-cased and cut to two, are the upper-cased first letters of the first two words |
| Settings.JoinSkipsBlanks | frontend/src/pages/Settings/Settings.jsx:36 | empty pieces add nothing to the joined first letters |
| Settings.LeadingLetters | frontend/src/pages/Settings/Settings.jsx:36 | the joined first letters of words begin with the first letters of the first two words |
| Settings.UpperTake | frontend/src/pages/Settings/Settings.jsx:36 | upper-casing and cutting to two commute |
| Settings.AccentedInitial | frontend/src/pages/Settings/Settings.jsx:34-37 | an accented initial is upper-cased: "émile" shows "É" |
| Settings.NameCaption | frontend/src/pages/Settings/Settings.jsx:99 | the 'loading' message while loading, then the full name, or the 'user' message without one |
| Settings.MobileCaption | frontend/src/pages/Settings/Settings.jsx:102 | '...' while loading, then the phone text, or the 'no mobile' message without a mobile |
| Sidebar.UserInitials | src/components/layout/Sidebar.jsx:36-43 | 'U' without a full name; a name whose first two pieces are words shows the corrected initials |
| Sidebar.SpacedNameShowsUndefined | src/components/layout/Sidebar.jsx:38-42 | a user named "John " sees "Jundefined" where the corrected initials are "J" |
| Sidebar.InitialsMatchSettings | src/components/layout/Sidebar.jsx:36-43 | for a well-spaced name the sidebar's initials, upper-cased, are the settings page's |
| Sidebar.FormattedPhone | src/components/layout/Sidebar.jsx:46-50 | '' exactly when there is no mobile, otherwise the phone text |
| Sidebar.Subtitle | src/components/layout/Sidebar.jsx:115 | the phone text when there is a mobile, else the email |
| Sidebar.DisplayName | src/components/layout/Sidebar.jsx:113 | never empty: the full name, or 'User' without one |
| Sidebar.SamePhoneAsSettings | src/components/layout/Sidebar.jsx:46-50 | the sidebar and the settings page show the same phone text for a profile with a mobile, and neither shows one without |
| PaymentForm.InitialForm | frontend/src/pages/Payments/AddPayment.jsx:20-26 | a new payment has mode 'Cash', an empty reminder, today's date, and no trip or amount |
| PaymentForm.PrefilledClient | frontend/src/pages/Payments/AddPayment.jsx:18 | the client named in the navigation state, '' without one |
| PaymentForm.Prefill | frontend/src/pages/Payments/AddPayment.jsx:37-48 | a prefilled trip id wins, with the prefilled amount or else the amount already there; otherwise the first trip is selected; with neither the form is kept; other fields never change |
| PaymentForm.ChooseMode | frontend/src/pages/Payments/AddPayment.jsx:138 | a mode button sets only the mode |
| PaymentForm.ChosenModeAlone | frontend/src/pages/Payments/AddPayment.jsx:131-139 | after a mode button is pressed exactly that button is highlighted |
| PaymentForm.HandleSave | frontend/src/pages/Payments/AddPayment.jsx:60-73 | refused iff the trip or the amount is empty; a date that is not a date fails; otherwise exactly the trip, the parsed amount, the date's ISO timestamp and status 'paid' are sent (no mode, no reminder) |
| PaymentForm.ModeNeverStored | frontend/src/pages/Payments/AddPayment.jsx:68-73 | whatever mode was chosen, the payment the server records from this form has no mode |
| PaymentForm.ReceivedActionPrefills | src/pages/Payments/PaymentList.jsx:154-160 | opened from the list's "received" action, the form selects the payment's id as the trip, proposes its amount, and names its client |
| PaymentList.TabPayments | src/pages/Payments/PaymentList.jsx:45-49 | the tab's list never exceeds the payments |
| PaymentList.TabContents | src/pages/Payments/PaymentList.jsx:45-49 | Pending lists exactly the 'pending' and 'overdue' payments, Received exactly the 'received' ones, and Drafts nothing |
| PaymentList.SectionsPartitionTab | src/pages/Payments/PaymentList.jsx:51 | the overdue section and the main list together hold each payment of the tab exactly once (multisets and lengths add up) |
| PaymentList.ReceivedTabHasNoOverdue | src/pages/Payments/PaymentList.jsx:45-51 | the Received tab has no overdue section; its main list is the whole tab |
| PaymentList.TotalPending | src/pages/Payments/PaymentList.jsx:52-54 | the pending total over all payments is 0 when none is pending or overdue |
| PaymentList.TotalPendingIsPendingTab | src/pages/Payments/PaymentList.jsx:52-54 | the pending total is the sum of `Number(amount) \|\| 0` over what the Pending tab lists, whichever tab is active |
| PaymentList.TotalPendingIgnoresReceived | src/pages/Payments/PaymentList.jsx:52-54 | a received payment does not change the pending total |
| PaymentList.DraftsShowEmptyState | src/pages/Payments/PaymentList.jsx:370 | the Drafts tab always shows the empty-list message |
| PaymentList.ReceivedAction | src/pages/Payments/PaymentList.jsx:144-160 | the "received" action is offered iff the status is not 'received', and passes the payment's id, amount and client |
| ProtectedRoute.Decide | src/components/auth/ProtectedRoute.jsx:9-67 | loading first; no user redirects to /login with the current location; a blocked user gets the blocked screen; an expired non-admin the expired screen; children render iff not loading, signed in, not blocked, and not expired or admin |
| ProtectedRoute.BlockedAdminStopped | src/components/auth/ProtectedRoute.jsx:30-48 | a blocked admin still gets the blocked screen |
| ProtectedRoute.NoExpiryNeedsAdmin | src/components/auth/ProtectedRoute.jsx:48-67 | a user without an expiry date is a lapsed trial: only an admin passes |
| SubscriptionGuard.Guard | frontend/src/components/auth/SubscriptionGuard.jsx:11-87 | nothing while loading; the paywall iff a profile exists and its trial has expired (no admin exemption); the page without a profile |
| SubscriptionGuard.AdminLapsedTrial | frontend/src/components/auth/SubscriptionGuard.jsx:13 | an admin on a lapsed trial passes the route guard but meets the paywall |
| SubscriptionGuard.PaywallCoversExpiredScreen | frontend/src/components/auth/SubscriptionGuard.jsx:13 | whenever the route guard shows the expired screen, the paywall shows too |
| Select.FindChoice | src/components/ui/Select.jsx:26 | the position of the first option whose value is strictly equal, or none exactly when no option matches |
| Select.Placeholder | src/components/ui/Select.jsx:3 | the placeholder defaults to 'Select' when not given |
| Select.SelectedLabel | src/components/ui/Select.jsx:25-28 | the label of the first option whose value is strictly equal to the value; the placeholder when none is |
| Select.HandleSelect | src/components/ui/Select.jsx:18-22 | a choice emits `{name, value}` with the option's value and closes the menu |
| Select.PickedLabelShows | src/components/ui/Select.jsx:18-28 | once the picked value is stored, the select shows that option's label (values distinct, not NaN) |
| Select.MenuRows | src/components/ui/Select.jsx:96-116 | closed: no rows; open and empty: a lone 'No options' row; otherwise one row per option, in order, highlighted iff its value is strictly equal to the value |
| Select.NoOptionsIffEmpty | src/components/ui/Select.jsx:114-116 | the 'No options' row shows iff the options list is empty |
| Select.LabelOfFirstHighlighted | src/components/ui/Select.jsx:25-28 | the closed select shows the label of the first highlighted row |
| Reports.Rupees | frontend/src/utils/reportUtils.js:90-91 | a missing amount prints as "Rs.0" |
| Reports.Balance | frontend/src/utils/reportUtils.js:92 | `(amount \|\| 0) − (paid_amount \|\| 0)` is a number exactly when both read as numbers (numeric text, decimals included, reads by its whole part), and then is their difference; NaN otherwise |
| Reports.BalanceIsOutstanding | frontend/src/utils/reportUtils.js:92 | for numeric amounts the report's balance is the dashboard's outstanding amount, amount − paid |
| Reports.DecimalTextBalance | frontend/src/utils/reportUtils.js:92 | amounts stored as DECIMAL text such as "250.00" still subtract: the balance is amount − paid, the dashboard's outstanding amount |
| Reports.PaymentDateOf | frontend/src/utils/reportUtils.js:122 | a payment is dated by `payment_date`, falling back to `created_at` |
| Reports.TripPdfRow | frontend/src/utils/reportUtils.js:85-93 | seven cells, one per header; a missing truck or material reads 'N/A', a missing amount "Rs.0"; the last cell is the balance |
| Reports.FuelPdfRow | frontend/src/utils/reportUtils.js:98-105 | six cells; a missing pump reads 'Local', missing litres 0 |
| Reports.ExpensePdfRow | frontend/src/utils/reportUtils.js:110-116 | five cells; a missing category reads 'Other', a missing description 'N/A' |
| Reports.PaymentPdfRow | frontend/src/utils/reportUtils.js:121-127 | five cells; dated by `payment_date` or `created_at`; no truck or driver reads 'N/A'; a missing type reads 'Generic' |
| Reports.DriverPdfRow | frontend/src/utils/reportUtils.js:132-138 | five cells; a missing name reads 'N/A'; a missing salary "Rs.0/mo" |
| Reports.SupplierPdfRow | frontend/src/utils/reportUtils.js:143-148 | four cells; a missing address reads 'N/A'; every supplier is 'Active' |
| Reports.PdfRow | frontend/src/utils/reportUtils.js:84-148 | every PDF row has as many cells as its table's header |
| Reports.Table.Body | frontend/src/utils/reportUtils.js:84-148 | one row per record, in input order, each with as many cells as the header |
| Reports.PdfTables | frontend/src/utils/reportUtils.js:83-149 | the report offers exactly six tables |
| Reports.FilterKeepsOrder | frontend/src/utils/reportUtils.js:43 | skipping the tables without rows keeps the report order |
| Reports.DrawnInOrder | frontend/src/utils/reportUtils.js:83-149 | the PDF draws Trips, Fuel Expenses, General Expenses, Payments History, Driver Directory, Suppliers List in that order, each with all of its records, and draws a dataset's table exactly when it has records |
| Reports.FileName | frontend/src/utils/reportUtils.js:151 | the saved file's name starts with `TruckManager_Report_` and ends with a dot and the format's extension (`pdf`, `xlsx`) |
| Reports.NextY | frontend/src/utils/reportUtils.js:74-80 | when 15 below the table's end is past the bottom margin the cursor restarts at 20 on a new page; the cursor is always 20 or no lower than the margin |
| Reports.TablesOf | frontend/src/utils/reportUtils.js:42-81 | one table per drawn section |
| Reports.LaidChain | frontend/src/utils/reportUtils.js:39-80 | the first heading sits at 85 and each later heading where the previous table sent the cursor |
| Reports.LaidAppend | frontend/src/utils/reportUtils.js:45-80 | drawing a table at the cursor (heading at y, table at y+5, cursor to `NextY`) keeps the layout rule and appends that table |
| Reports.PdfReport.constructor | frontend/src/utils/reportUtils.js:5-39 | a new document shows "REPORT: " and the range in capitals, the business name or 'Business Report', the truck filter or 'All Trucks', has one page, no tables, and the cursor at 85 |
| Reports.PdfReport.AddTable | frontend/src/utils/reportUtils.js:42-81 | a table without rows changes nothing; otherwise its heading goes at the old cursor, the cursor moves to `NextY` of where the table ends, a page is added exactly when that crosses the bottom margin, and the layout rule still holds |
| Reports.FilterPrefixStep | frontend/src/utils/reportUtils.js:43 | considering one more table adds it to the drawn ones exactly when it has rows |
| Reports.GeneratePdf | frontend/src/utils/reportUtils.js:5-150 | the new document has drawn exactly the tables with rows, in the order the report lists them, laid out by the cursor rule |
| Reports.DrawTables | frontend/src/utils/reportUtils.js:94-149 | the six `addTable` calls draw exactly the tables with rows, in order |
| Reports.DrawThree | frontend/src/utils/reportUtils.js:94-149 | three consecutive `addTable` calls append exactly those of the three tables that have rows |
| Reports.DrawNext | frontend/src/utils/reportUtils.js:42-81 | one `addTable` call appends the table exactly when it has rows |
| Reports.Named | frontend/src/utils/reportUtils.js:158-221 | a sheet row names each cell with its column, in column order |
| Reports.SheetCells | frontend/src/utils/reportUtils.js:158-221 | one cell per column; a trip's Balance column is the same balance as the PDF's; a payment's date uses `payment_date` or `created_at` |
| Reports.Sheet.Rows | frontend/src/utils/reportUtils.js:158-221 | one row object per record, in input order |
| Reports.BalanceAgrees | frontend/src/utils/reportUtils.js:92-166 | a trip's balance reads the same in the PDF and the workbook, and so does a payment's date |
| Reports.Workbook.constructor | frontend/src/utils/reportUtils.js:155 | a new workbook has no sheets |
| Reports.Workbook.AppendSheet | frontend/src/utils/reportUtils.js:169 | appending adds the sheet at the end and keeps the others |
| Reports.WorkbookSheets | frontend/src/utils/reportUtils.js:157-223 | six sheets, each named after its dataset and listing all of its records |
| Reports.GenerateExcel | frontend/src/utils/reportUtils.js:154-224 | the new workbook holds exactly the six sheets of `WorkbookSheets`, appended in order, one per dataset with all of its records |
| Reports.WorkbookAlwaysSix | frontend/src/utils/reportUtils.js:169-223 | any two reports have six sheets with the same names, even when datasets are empty |
| Reports.EmptyReportDrawsNothing | frontend/src/utils/reportUtils.js:43 | a report without records draws no table in the PDF |
| Server.OrderValue | backend/server.js:499 | `COALESCE(total_order_value, amount, 0)`: the order value when stored, else the legacy amount, else 0 |
| Server.AmountPaid | backend/server.js:501 | `COALESCE(SUM(p.amount), 0)` is 0 for a trip without payments and never negative when no payment is |
| Server.DerivedStatus | backend/server.js:502-505 | a trip is 'received' exactly when the payments recorded against it add up to at least its order value, and 'pending' otherwise |
| Server.PaidAmountNoPayments | backend/server.js:501 | a trip with no payment rows has paid 0 (`COALESCE(SUM(p.amount), 0)` over an empty join) |
| Server.PaidAmountAppend | backend/server.js:501 | recording one more payment raises a trip's paid amount by that payment's amount exactly when it is for that trip |
| Server.TruckOf | backend/server.js:507 | the joined truck is one of the stored trucks with the trip's truck id; no truck is found only when none has that id |
| Server.TripRow | backend/server.js:493-512 | a GET /api/trips row carries the trip's id and date, its order value as `amount`, the sum of its payments as `paid_amount`, and 'received' exactly when that sum reaches the order value |
| Server.PaymentRow | backend/server.js:592-612 | a GET /api/payments row has the trip's date as `date`, the same amount, paid amount and derived status, and no `trip_id`, `created_at` or `truck_id` |
| Server.TripListing | backend/server.js:493-519 | GET /api/trips lists one row per trip of the caller's trucks, in table order, each with the trip's id, its paid amount and 'received' exactly when that reaches the order value |
| Server.PaymentListing | backend/server.js:592-619 | GET /api/payments lists the same trips, each with its id, its date as `date`, its paid amount and the same derived status |
| Server.ListingsAgree | backend/server.js:493-612 | the trip listing and the payment listing have the same length and agree row by row on id, date, amount, paid amount and status |
| Server.TripListingScope | backend/server.js:506-509 | a trip is listed exactly when it is stored and its truck belongs to the caller |
| Server.PaymentListingKeys | backend/server.js:596-600 | no payment-listing row carries `trip_id`, `created_at` or `truck_id` |
| Server.NewTripRow | backend/server.js:527-530 | the inserted row has the new id, the body's truck and date, and status 'received' exactly when `payment_status === 'received'` ('pending' otherwise); the insert fails exactly when a numeric column gets a value that is not a number |
| Server.InsertedTrip | backend/server.js:527-530 | the row built from the cast columns has the new id, the body's truck and date, and the received-or-pending status |
| Server.CreateTrip | backend/server.js:521-546 | 403 and nothing stored exactly when the truck is not the caller's; 500 and nothing stored when a numeric column cannot be cast; otherwise the trip is appended; a failed payment insert still leaves the trip stored (500, no payment); 201 returns the inserted row |
| Server.CreateTripForeignTruck | backend/server.js:524-525 | a truck that is not the caller's gets 403 and nothing is stored |
| Server.CreateTripReceived | backend/server.js:527-539 | a trip saved as received is appended together with one cash payment of its order value on the trip's date, so its derived status is 'received' |
| Server.CreateTripPending | backend/server.js:527-541 | any other payment status appends a pending trip and no payment; its derived status is 'received' only when its order value is 0 or less |
| Server.OwnedTripById | backend/server.js:624-629 | the ownership check finds a stored trip with that id whose truck is the caller's, or finds none only when no such trip exists |
| Server.FirstOwned | backend/server.js:624-629 | the first trip in the list with that id that the caller owns, or none only when there is none |
| Server.RecordPayment | backend/server.js:621-642 | for a trip id that is UUID text: 403 exactly when the trip is not the caller's, 500 exactly when the amount cannot be cast or the date is missing; any refusal stores nothing; 201 appends one payment with the body's trip, amount and mode and changes no other table |
| Server.RecordPaymentForeignTrip | backend/server.js:624-630 | a payment for a trip the caller does not own gets 403 and nothing is stored |
| Server.RecordPaymentSettles | backend/server.js:632-636 | a recorded payment leaves the trips as they were and raises exactly its own trip's paid amount by its amount; a non-negative payment never turns a received trip back to pending |
| Server.BindsPlaceholders | backend/server.js:1017-1043 | in the built UPDATE every `col = $n` placeholder is numbered within the values and is bound to that column's value, and the WHERE placeholders come after them bound to the id and the owner |
| Server.StepExtends | backend/server.js:1019-1032 | adding one more not-yet-used column keeps the assigned columns distinct |
| Server.PushColumn | backend/server.js:1019 | one `if (x !== undefined) { updates.push(...); values.push(x) }` step keeps every placeholder bound to its value and appends the column exactly when it is supplied |
| Server.Finish | backend/server.js:1038-1043 | pushing the id and the owner after the SET values gives an UPDATE whose placeholders are all bound as above |
| Server.PushPersonal | backend/server.js:1019-1022 | the name, licence, photo and Aadhaar steps append exactly the supplied ones, in that order |
| Server.PushMobiles | backend/server.js:1023-1028 | the mobile steps append the primary and secondary numbers the `mobiles` array supplies, and set the secondary to null when exactly one number is sent |
| Server.PushEmployment | backend/server.js:1029-1032 | the blood group, salary, advance and truck steps append exactly the supplied ones, in that order |
| Server.BuildDriverUpdate | backend/server.js:1014-1043 | the request is refused with 400 exactly when it supplies no column; otherwise the UPDATE sets exactly the supplied columns, in source order, each bound to its value, and is restricted to the driver's id and owner |
| Server.AppendDistinct | backend/server.js:1019-1032 | two groups of columns drawn from disjoint sets concatenate without a repeated column |
| Server.PersonalDistinct | backend/server.js:1019-1022 | the personal columns are distinct and among name, license_number, photo_url and aadhar_url |
| Server.EmploymentDistinct | backend/server.js:1029-1032 | the employment columns are distinct and among blood_group, salary, advance and assigned_truck_id |
| Server.DriverFieldsDistinct | backend/server.js:1019-1032 | no driver column is set twice in one UPDATE |
| Server.SingleMobileClearsSecondary | backend/server.js:1023-1028 | a `mobiles` array with one number clears the secondary number and, when that number is not null, sets the primary one |
| Server.FindDriver | backend/server.js:1042 | the UPDATE matches a stored driver with that id and owner, or none only when no driver has both |
| Server.ApplyGet | backend/server.js:1042 | after applying distinct assignments a column holds its assigned value, and a column that is not assigned keeps its old value |
| Server.PatchDriver | backend/server.js:1001-1052 | 400 exactly when no column is supplied; for an id that is UUID text and values the columns accept, 404 exactly when no driver of the caller has that id; neither changes anything; 200 replaces only that driver's row with the row after the supplied columns are set, and returns it |
| Server.CreateDriver | backend/server.js:977-999 | 400 and nothing stored exactly when the first mobile is missing or falsy; otherwise, for values the columns accept, 201 appends one driver with the new id and the caller as owner, no other table changes |
| Server.PatchDriverEffect | backend/server.js:1001-1047 | a successful patch changes only the matched driver: each supplied column takes its value, every other column and every other row stays as it was |
| Server.CreateDriverMobiles | backend/server.js:977-994 | creating a driver is refused with 400 and stores nothing exactly when the first mobile is missing or falsy; otherwise the new driver is appended with the first number as primary and the second, or null, as secondary |
| Server.PushProfileColumns | backend/server.js:269-288 | the profile steps append exactly the supplied profile columns, in source order, each bound to its value |
| Server.PasswordStep | backend/server.js:291-308 | no step without a new password; a rejection exactly when a hash is stored and the current password is missing or does not match; otherwise one assignment of the new hash |
| Server.BuildProfileUpdate | backend/server.js:262-316 | a rejected password step is the reply; otherwise the request is refused with 400 exactly when no column is supplied, and the UPDATE sets the supplied profile columns, then the new hash when the password step allows it, restricted to the caller's id |
| Server.PasswordCheckOnlyWithHash | backend/server.js:291-307 | a new password is always considered; without a stored hash it is set outright, with one only when the current password is sent and matches |
| Server.IndexOf | backend/server.js:551 | finds where a key sits in an object, or reports that it is absent |
| Server.DeleteProp | backend/server.js:553 | `delete` removes exactly the entries with that key and keeps all others |
| Server.TripUpdate | backend/server.js:555-562 | the PATCH statement binds each body key to `$i` in insertion order, then the id and the owner |
| Server.TripPatchRename | backend/server.js:550-554 | a defined `actual_income` becomes `total_order_value` with the same value and disappears; every other entry is kept; without it the body is sent unchanged |
| Server.FindOwnedTrip | backend/server.js:558-562 | the UPDATE matches a stored trip with that id whose truck is the caller's, or none only when there is no such trip |
| Server.PatchTrip | backend/server.js:548-571 | 500 exactly for an empty body; for an id that is UUID text and keys and values the trip columns accept, 404 exactly when no trip of the caller has that id; neither changes anything; 200 replaces only that trip's row with the row after every key of the renamed body is set, and returns it |
| Server.PatchTripEffect | backend/server.js:555-567 | a successful patch changes only the matched trip: each key of the renamed body takes its value, every other column and every other row stays as it was |
| Server.PatchTripRefused | backend/server.js:555-569 | an empty body (an UPDATE with nothing to SET, which the database rejects) gets 500, a trip the caller does not own gets 404, and neither changes anything |
| TripForm.InitialForm | frontend/src/pages/Trips/AddTrip.jsx:17-31 | a new trip form has exactly the thirteen trip fields: count '1', status 'pending', today's date, no truck, and every other field blank |
| TripForm.WithTrucks | frontend/src/pages/Trips/AddTrip.jsx:49-51 | once trucks load the first one is selected; with none the form is unchanged; no other field changes |
| TripForm.HandleChange | frontend/src/pages/Trips/AddTrip.jsx:59-94 | 'new_supplier' and 'new_material' leave for their pages and nothing else does; otherwise the typed value is stored, a negative number in a numeric field (the sign decided on the exact decimal, so "-0.5" too, but not "-0") as '0'; a changed count or price keeps order value = count × price; every change keeps expense = order value − profit; no other field changes |
| TripForm.NegativeFractionClamped | frontend/src/pages/Trips/AddTrip.jsx:62-65 | "-0.5" counts as negative although its whole part is 0; "-0" and "0.5" do not |
| TripForm.DerivedReadsBack | frontend/src/pages/Trips/AddTrip.jsx:81-90 | read back as numbers, the stored order value is count × price and the stored expense is order value − profit |
| TripForm.UpdateForm | frontend/src/pages/Trips/AddTrip.jsx:77-93 | the state update stores the value, derives the order value for a count or price change and the expense always, and leaves the other fields alone |
| TripForm.StoreCountOrPrice | frontend/src/pages/Trips/AddTrip.jsx:78-85 | storing a count or price sets the order value to count × price, reading the new value and the other old one with `parseFloat(x) \|\| 0` |
| TripForm.RecomputeExpense | frontend/src/pages/Trips/AddTrip.jsx:88-90 | the expense becomes order value − profit, reading the value just typed when it is one of them, and nothing else changes |
| TripForm.CountOr1 | frontend/src/pages/Trips/AddTrip.jsx:106 | `parseInt(count) \|\| 1` is never 0, and is the typed number when that is a non-zero number |
| TripForm.HandleSave | frontend/src/pages/Trips/AddTrip.jsx:96-111 | saving is refused exactly when no truck or no order value is set; otherwise the form is sent with the count and the money fields as numbers and every other field as typed |
| TripForm.ZeroCountSavedAsOne | frontend/src/pages/Trips/AddTrip.jsx:106 | a count typed as '0' is saved as 1 |
| TripList.InitialFilters | src/pages/Trips/TripList.jsx:17-25 | the list starts on every truck, client and supplier, the weekly range and no format or dates |
| TripList.ChooseTruck | src/pages/Trips/TripList.jsx:111 | the truck select changes the truck filter only |
| TripList.FilteredTrips | src/pages/Trips/TripList.jsx:46-48 | 'all' shows every trip; any other choice shows exactly the trips whose truck id is strictly equal to it |
| TripList.FilteredTripsShape | src/pages/Trips/TripList.jsx:46-48 | the shown trips keep the fetched order, and filtering them again changes nothing |
| TripList.ShownTripsOnDashboard | src/pages/Trips/TripList.jsx:46-48 | every trip shown for a truck is one the dashboard counts for that truck |
| TripList.NumericIdHiddenHere | src/pages/Trips/TripList.jsx:48 | the converse fails: a trip whose truck id is the number 3 is counted by the dashboard under '3' but not shown here, because `===` does not convert |
| TripList.TruckOptions | src/pages/Trips/TripList.jsx:112-115 | the options are 'all' (labelled 'all_trucks') followed by one per truck, its id as value and its number as label, in order |
| TripList.PickingTruckShowsItsTrips | src/pages/Trips/TripList.jsx:108-116 | picking the first option shows every trip; picking a truck shows exactly the trips of that truck's id |
| TripList.StatusBadge | src/pages/Trips/TripList.jsx:137-139 | the badge is 'received' exactly when the status is 'received', 'pending' otherwise |
| TripList.Shown | src/pages/Trips/TripList.jsx:175 | `Number(x) \|\| 0` is the number when x reads as one (numeric text, decimals included, by its whole part), else 0 |
| Js.DecimalTextReads | src/pages/Trips/TripList.jsx:175 | `Number("250.00") \|\| 0` is 250; " -12.5 " reads as −12; "." and "1.2.3" are not numbers; `parseFloat` reads ".5" as 0 and "12.5kg" as 12 |
| Js.ParseFloatSign | frontend/src/pages/Trips/AddTrip.jsx:64 | the sign of the exact number `parseFloat` reads, defined exactly when it reads one; it agrees with the whole part whenever that is not 0 |
| Js.FractionSigns | frontend/src/pages/Drivers/DriverDetails.jsx:47 | "-0.5" and "0.5" both read as 0, yet the first is below zero and the second above it; "-0" is zero |
| TripList.CardMoney | src/pages/Trips/TripList.jsx:174-179 | a card shows the trip's profit and expense each read with `Number(x) \|\| 0` |
| TripList.SavedMoneyShows | src/pages/Trips/TripList.jsx:174-179 | a trip saved with numeric profit and expense shows exactly those amounts |
| TripList.DecimalMoneyShows | src/pages/Trips/TripList.jsx:174-179 | a trip whose profit and expense come back as DECIMAL text such as "250.00" shows those amounts |
| TruckSetup.TruckEntry.constructor | src/pages/Auth/TruckSetup.jsx:22-26 | an entry starts with its index as id, no name and type 'Diesel' |
| TruckSetup.EntryCount | src/pages/Auth/TruckSetup.jsx:17 | `truckCount \|\| 1`: at least one entry, and the requested count when one is given |
| TruckSetup.TruckSetupPage.constructor | src/pages/Auth/TruckSetup.jsx:21-27 | the page starts with `EntryCount` distinct blank diesel entries numbered 0, 1, … |
| TruckSetup.TruckSetupPage.Snapshot | src/pages/Auth/TruckSetup.jsx:21-27 | one draft per entry, holding its id, name and type |
| TruckSetup.TruckSetupPage.HandleChange | src/pages/Auth/TruckSetup.jsx:34-38 | the edit writes the chosen field of entry `index` only; the list, its other field and every other entry keep their contents |
| TruckSetup.Request | src/pages/Auth/TruckSetup.jsx:51-54 | each truck is sent as exactly `truck_number` (its name) and `model` (its type) |
| TruckSetup.HandleSave | src/pages/Auth/TruckSetup.jsx:40-61 | nothing is sent exactly when every name is blank after trimming; otherwise one request per named entry, in list order, and on success the page moves to '/edit-profile' when opened from settings and to '/dashboard' otherwise |
| TruckSetup.BlankNameUnnamed | src/pages/Auth/TruckSetup.jsx:41 | a name made only of white space, no-break spaces included, is blank after trimming and is not sent |
| TruckSetup.SentNames | src/pages/Auth/TruckSetup.jsx:41-55 | a request is sent exactly when some entry with a non-blank name asks for it |
| TruckSetup.BlankListSavesNothing | src/pages/Auth/TruckSetup.jsx:41-45 | a list left as it started saves nothing |
| VerifyOtp.InitialSlots | frontend/src/pages/Auth/VerifyOTP.jsx:18 | six empty slots |
| VerifyOtp.HandleChange | frontend/src/pages/Auth/VerifyOTP.jsx:40-45 | a value `isNaN` refuses leaves the slots alone; otherwise slot `index` takes it and the others are kept |
| VerifyOtp.DigitsAndBlanksAccepted | frontend/src/pages/Auth/VerifyOTP.jsx:41 | a letter is refused; a digit and a blank are taken |
| VerifyOtp.HandleVerify | frontend/src/pages/Auth/VerifyOTP.jsx:53-67 | the code is sent exactly when the joined slots are six characters long, and then it is that text with the page's email |
| VerifyOtp.JoinLength | frontend/src/pages/Auth/VerifyOTP.jsx:54 | the joined code is as long as the slots together |
| VerifyOtp.FullWhenNoneEmpty | frontend/src/pages/Auth/VerifyOTP.jsx:54-55 | slots of at most one character join to at most their number, and to exactly that when none is empty |
| VerifyOtp.SixFilledSlots | frontend/src/pages/Auth/VerifyOTP.jsx:53-55 | with one character at most per slot the code is sent exactly when all six slots are filled |
| VerifyOtp.Email | frontend/src/pages/Auth/VerifyOTP.jsx:15 | the navigation state's email when set, else the `email` query parameter |
| VerifyOtp.DirectVerify | frontend/src/pages/Auth/VerifyOTP.jsx:22-31 | a code in the address is verified at once exactly when both it and the email are present |
| VerifyOtp.PageScreen | frontend/src/pages/Auth/VerifyOTP.jsx:70-79 | without an email the page shows the invalid-request screen, and only then |

## Left out

- SQL execution itself is not modelled. Routes are functions over an in-memory database, and database-generated ids are parameters that are assumed fresh.
- The SQL details omitted are `created_at` stamps and `ORDER BY trip_date DESC` (listings keep table order). Only these database errors are modelled: a value a numeric trip or payment column cannot cast and a NOT NULL payment column left empty (500 in Server.CreateTrip and Server.RecordPayment), and the empty-SET update (500 in Server.PatchTrip). The others listed below, and failures such as a lost connection, are not modelled.
- The server's trip insert and the follow-up payment insert are two statements with no transaction. The model does not capture a failure between them.
- The registration, send-code, sign-in and password-change routes are not modelled. They consist of bcrypt hashing and comparison, JWT signing, mail delivery and random code generation, which are foreign calls or randomness. The model receives a password comparison as a boolean and a new hash as a parameter.
- Floating point is not modelled: amounts are integers. `Number` and `parseFloat` read an optional sign, digits and an optional decimal fraction, and the fraction is truncated toward zero, so "12.5" reads as 12 and "-12.5" as -12. The database's DECIMAL(10,2) columns arrive as text such as "250.00" and read as their whole part. Exponents, hexadecimal and `Infinity` are not modelled, and sums of fractions may differ from the model by the dropped fractions.
- Ids are taken to be UUID text. Every id column is a UUID (backend/init_db.js:47, 67). An id that is not UUID text, such as "abc" or a number, makes the statement fail, and the route answers 500.
- Server.CreateTrip answers 403 for a `truck_id` that is not UUID text, where the route answers 500.
- Server.RecordPayment answers 403 for a `trip_id` that is not UUID text, where the route answers 500.
- Server.PatchDriver answers 404 for an `:id` that is not UUID text, where the route answers 500. It also answers 200 where the database refuses the update with a 500: a `name` set to null on an existing driver (NOT NULL), a `salary` or `advance` that is not a number, and an `assigned_truck_id` that is not the id of a truck.
- Server.CreateDriver answers 201 where the database refuses the insert with a 500: a missing `name` (NOT NULL), a `salary` or `advance` that is not a number, and an `assigned_truck_id` that is not the id of a truck.
- Server.PatchTrip answers 404 for an `:id` that is not UUID text, where the route answers 500. It also answers 200 where the database refuses the update with a 500: a body key that is not a trip column, and a value the column cannot cast.
- Server.TripListing and Server.PaymentListing deliver the order value and the paid amount as whole numbers. The database returns its DECIMAL sums as text such as "250.00", which the pages print as that text; the pages' reading of such text is stated separately (Js.DecimalTextReads, TripList.DecimalMoneyShows).
- DriverLedger.HandleAddPayment sends the whole part of a fractional amount: "0.5" is accepted, as on the page, but is sent as 0 rather than 0.5.
- TripForm.HandleChange derives the order value and the expense from whole parts: a count of 2 and a price of "2.5" give an order value of 4, not 5. Its sign test for the clamp is exact.
- Server.DerivedStatus compares whole amounts: a trip with an order value of 99.75 and a payment of 99.50 reads as received, where the database compares the decimals and answers pending.
- Settings.GetInitials upper-cases Basic Latin and Latin-1 letters only. "ß" stays "ß" where `toUpperCase` gives the two characters "SS"; "ÿ" and "µ" stay as they are; letters of other scripts keep their case.
- DriverList.GetInitials, Sidebar.UserInitials and Settings.GetInitials index a name by Unicode code points, where JavaScript's `name[0]` reads a UTF-16 code unit. For a name that starts with a character outside the Basic Multilingual Plane, such as an emoji, the page shows half a surrogate pair and the model the whole character.
- The clock is a parameter: "now", today's date and the dashboard's cutoffs are inputs.
- A local calendar day is derived from a fixed time-zone offset. Daylight saving is not modelled.
- `toLocaleDateString`, `toLocaleString` and `toISOString` are not modelled. A locale-formatted date is an opaque cell.
- The PDF and spreadsheet libraries are not modelled. A table's end position is the `tableEnd` parameter, and the page height is an input. Drawing, fonts and file output are out.
- `FileReader` is not modelled. A chosen picture is its size plus the data URL the reader would produce.
- `localStorage` is not modelled beyond the session token the authentication provider keeps.
- Network services are not modelled. A service call's outcome is a parameter: accepted or rejected, with its reply.
- Toasts and navigation are returned as values, and toast texts are message keys. Translation is not modelled.
- Input focus movement on the code-entry page is not modelled.
- The WhatsApp share on the trip list is not modelled.
- The one-key change handlers of the edit-profile page are not modelled. They copy the form and set one field.
- The receipt upload of the add-fuel page (`handleFileChange`) is not modelled.
- The `|| []` fallback on the fuel list's fetched data is not modelled. Fetched lists are sequences.
- `Promise.all`, the report delay and `toast.promise` are not modelled. Their effects are applied in order.
- DatePicker.NextGridContinues requires a year of 100 or more. Below that, `new Date(y, m, 1)` maps two-digit years onto 1900-1999.
- Identity.TwoWordInitials, DriverList.GetInitials, Sidebar.UserInitials and Settings.GetInitials require a name that is text or falsy. A truthy non-text name makes `split` throw, and that case is not modelled.
- DriverList.GetInitials states the falsy, one-word and well-spaced two-word cases in its own contract. A name with an empty piece is covered only by the finding below (DriverList.SpacedNameShowsUndefined).
- Sidebar.UserInitials states the missing-name and well-spaced cases in its own contract. A name with an empty piece is covered only by the finding below (Sidebar.SpacedNameShowsUndefined).
- Reports.PdfTables states only that there are six tables. Their order and contents are stated by Reports.DrawnInOrder and Reports.Table.Body.
- TripList.FilteredTrips states which trips are kept. Their order is stated by TripList.FilteredTripsShape.

## Findings

| source | as written | input that shows it | evidently intended | confidence | as-written member | corrected member |
|---|---|---|---|---|---|---|
| frontend/src/pages/Drivers/DriverList.jsx:37-41 | `names[0][0] + names[1][0]` after `split(' ')`; an empty piece's `[0]` is `undefined`, which `+` renders as text | the driver name "John " shows "Jundefined"; a name of one space shows "NaN" | the initials of the non-empty words ("J"), or the fallback for a blank name | not executed | DriverList.SpacedNameShowsUndefined | Identity.CorrectedInitials |
| src/components/layout/Sidebar.jsx:38-42 | the same two-piece indexing for the signed-in user's name | the full name "John " shows "Jundefined"; " " shows "NaN" (Identity.BlankNameShowsNaN) | the initials of the non-empty words, or 'U' for a blank name | not executed | Sidebar.SpacedNameShowsUndefined | Identity.CorrectedInitials |

Identity.CorrectedInitials keeps only the non-empty words. Identity.CorrectedInitialsFromName proves that it shows only the name's own non-space characters, never "undefined" or "NaN". Identity.WellSpacedNamesAgree proves that it agrees with the code as written whenever the first two pieces are words. The settings page's avatar, Settings.GetInitials, is specified through it. The driver-list and sidebar members keep the code as written, so the model shows what those pages actually display.

=== FILE: auth.dfy ===
/** The session kept by the authentication provider: the signed-in user and
    the stored token, what start-up, login, code verification and logout do
    to them, and the account predicates the guards consult. */
module Auth {
  import opened Js

  /** The signed-in user's profile record; None is `null` / `undefined`. */
  type User = Option<JsObject>

  /** `user?.role === 'admin'` */
  predicate IsAdmin(user: User) {
    user.Some? && Get(user.value, Role) == Str("admin")
  }

  /** `user?.is_blocked === true` */
  predicate IsBlocked(user: User) {
    user.Some? && Get(user.value, Key.IsBlocked) == Bool(true)
  }

  /** `user?.is_verified === true` */
  predicate IsVerified(user: User) {
    user.Some? && Get(user.value, Key.IsVerified) == Bool(true)
  }

  /** `isTrialExpired()` at instant `now`: never without a user, always
      without an expiry, else the expiry lies before now (an unreadable
      expiry compares false). */
  function IsTrialExpired(user: User, now: int): (expired: bool)
    ensures user.None? ==> !expired
    ensures user.Some? && !Truthy(Get(user.value, TrialExpiresAt)) ==> expired
    ensures user.Some? && Truthy(Get(user.value, TrialExpiresAt)) ==>
      (expired <==> ToInstant(Get(user.value, TrialExpiresAt)).Some? && ToInstant(Get(user.value, TrialExpiresAt)).value < now)
  {
    if user.None? then false
    else if !Truthy(Get(user.value, TrialExpiresAt)) then true
    else
      var expiry := ToInstant(Get(user.value, TrialExpiresAt));
      expiry.Some? && expiry.value < now
  }

  /** A trial that has expired stays expired. */
  lemma TrialExpiryMonotone(user: User, earlier: int, later: int)
    requires earlier <= later && IsTrialExpired(user, earlier)
    ensures IsTrialExpired(user, later)
  {
  }

  /** The body of a reply from the server's auth routes. */
  datatype Data = Data(message: JsValue, email: JsValue, token: JsValue, user: User)

  /** A reply: `response.ok`, `response.status` and the parsed body. */
  datatype Response = Response(ok: bool, status: int, data: Data)

  /** A thrown error: its message and, for an unverified account, the email
      and the status 403. */
  datatype AuthError = AuthError(message: string, email: Option<JsValue>, status: Option<int>)

  datatype Outcome = Signed(user: User) | Thrown(error: AuthError)

  /** `new Error(x)`: the message is `String(x)`, '' for undefined. */
  function ErrorText(v: JsValue): string {
    if v == Undefined then "" else JsString(v)
  }

  /** The error a failed reply raises: `data.message || fallback`. */
  function Failure(data: Data, fallback: string): (e: AuthError)
    ensures e.email.None? && e.status.None?
    ensures Truthy(data.message) ==> e.message == JsString(data.message)
    ensures !Truthy(data.message) ==> e.message == fallback
  {
    AuthError(if Truthy(data.message) then JsString(data.message) else fallback, None, None)
  }

  /** The outcome of start-up's profile request. */
  datatype ProfileFetch = Fetched(profile: JsObject) | Refused | Unreachable

  /** `localStorage` holds the token as text. */
  predicate HasToken(token: Option<string>) {
    token.Some? && token.value != ""
  }

  class AuthProvider {
    var user: User
    var loading: bool
    /** The stored `truck_manager_token`. */
    var token: Option<string>

    /** Mounted: no user yet, loading, and whatever token was stored. */
    constructor(stored: Option<string>)
      ensures user.None? && loading && token == stored
    {
      user := None;
      loading := true;
      token := stored;
    }

    /** `initAuth`: without a token there is no user; with one the profile
        request decides: a profile signs in, a refusal or a failure drops
        the token. Loading ends in every case. */
    method InitAuth(fetch: ProfileFetch)
      modifies this
      ensures !loading
      ensures !HasToken(old(token)) ==> user.None? && token == old(token)
      ensures HasToken(old(token)) && fetch.Fetched? ==> user == Some(fetch.profile) && token == old(token)
      ensures HasToken(old(token)) && !fetch.Fetched? ==> user.None? && token.None?
    {
      if HasToken(token) {
        if fetch.Fetched? {
          user := Some(fetch.profile);
        } else {
          token := None;
          user := None;
        }
      } else {
        user := None;
      }
      loading := false;
    }

    /** `login`: a refused login throws, carrying the email and 403 when the
        server says the account is unverified; a success stores the token
        and signs the user in. A throw changes nothing. */
    method Login(r: Response) returns (o: Outcome)
      modifies this
      ensures !r.ok && r.status == 403 && Truthy(r.data.email) ==>
        o == Thrown(AuthError(ErrorText(r.data.message), Some(r.data.email), Some(403)))
      ensures !r.ok && !(r.status == 403 && Truthy(r.data.email)) ==> o == Thrown(Failure(r.data, "Login failed"))
      ensures !r.ok ==> user == old(user) && token == old(token)
      ensures r.ok ==> o == Signed(r.data.user) && user == r.data.user && token == Some(JsString(r.data.token))
      ensures loading == old(loading)
    {
      if !r.ok {
        if r.status == 403 && Truthy(r.data.email) {
          return Thrown(AuthError(ErrorText(r.data.message), Some(r.data.email), Some(403)));
        }
        return Thrown(Failure(r.data, "Login failed"));
      }
      token := Some(JsString(r.data.token));
      user := r.data.user;
      o := Signed(user);
    }

    /** `verifyOTP`: a refusal throws with the server's message; a success
        stores the token and signs the user in. */
    method VerifyOtp(r: Response) returns (o: Outcome)
      modifies this
      ensures !r.ok ==> o == Thrown(Failure(r.data, "Verification failed")) && user == old(user) && token == old(token)
      ensures r.ok ==> o == Signed(r.data.user) && user == r.data.user && token == Some(JsString(r.data.token))
      ensures loading == old(loading)
    {
      if !r.ok {
        return Thrown(Failure(r.data, "Verification failed"));
      }
      token := Some(JsString(r.data.token));
      user := r.data.user;
      o := Signed(user);
    }

    /** `logout`: forgets the token and the user. */
    method Logout()
      modifies this
      ensures user.None? && token.None? && loading == old(loading)
    {
      token := None;
      user := None;
    }
  }

  /** After logout no predicate holds and the trial counts as running. */
  lemma SignedOutPredicates(now: int)
    ensures !IsAdmin(None) && !IsBlocked(None) && !IsVerified(None) && !IsTrialExpired(None, now)
  {
  }

  /** Only the value `true` blocks or verifies: the text 'true' does not. */
  lemma OnlyTrueCounts(u: JsObject)
    requires Get(u, Key.IsBlocked) == Str("true") && Get(u, Key.IsVerified) == Num(1)
    ensures !IsBlocked(Some(u)) && !IsVerified(Some(u))
  {
  }
}

=== FILE: dashboard.dfy ===
/** The dashboard page: the truck scope of the loaded trips, expenses and fuel
    logs, the four headline figures, the report's truck and date filters, the
    week's earnings chart and the expense breakdown. */
module Dashboard {
  import opened Js

  type Row = JsObject

  const DayMs: int := 86400000

  // ---------------------------------------------------------------------
  // Truck scope and headline figures

  /** `String(item[key]) === String(selection)` */
  predicate OnTruck(item: Row, key: Key, selection: JsValue) {
    JsString(Get(item, key)) == JsString(selection)
  }

  /** The records of the selected truck: all of them for 'all', otherwise
      those whose `truck_id` reads as the selection, in order. */
  function ScopeToTruck(records: seq<Row>, selection: JsValue): (r: seq<Row>)
    ensures selection == Str("all") ==> r == records
    ensures selection != Str("all") ==> forall x :: x in r <==> x in records && OnTruck(x, TruckId, selection)
    ensures selection != Str("all") ==> r == Filter(records, x => OnTruck(x, TruckId, selection))
  {
    if selection == Str("all") then records
    else
      FilterMembers(records, x => OnTruck(x, TruckId, selection));
      Filter(records, x => OnTruck(x, TruckId, selection))
  }

  lemma ScopeToTruckSubsequence(records: seq<Row>, selection: JsValue)
    ensures IsSubsequence(ScopeToTruck(records, selection), records)
  {
    if selection != Str("all") {
      FilterSubsequence(records, x => OnTruck(x, TruckId, selection));
    } else {
      FilterAll(records, x => true);
      FilterSubsequence(records, x => true);
    }
  }

  /** `Number(t.amount) || 0` */
  function AmountOf(r: Row): int {
    NumberOr0(Get(r, Amount))
  }

  /** `Number(t.paid_amount) || 0` */
  function PaidOf(t: Row): int {
    NumberOr0(Get(t, PaidAmount))
  }

  /** What is still owed on a trip; negative when it was overpaid. */
  function Outstanding(t: Row): int {
    AmountOf(t) - PaidOf(t)
  }

  datatype Stats = Stats(totalTrips: nat, totalEarnings: int, pending: int, fuelCost: int)

  /** `currentStats`: the number of trips in scope, what was received on them,
      what is still owed on them and the fuel spend in scope. */
  function CurrentStats(trips: seq<Row>, fuel: seq<Row>, selection: JsValue): (s: Stats)
    ensures s.totalTrips == |ScopeToTruck(trips, selection)|
    ensures s.totalEarnings == Sum(ScopeToTruck(trips, selection), PaidOf)
    ensures s.pending == Sum(ScopeToTruck(trips, selection), Outstanding)
    ensures s.totalEarnings + s.pending == Sum(ScopeToTruck(trips, selection), AmountOf)
    ensures s.fuelCost == Sum(ScopeToTruck(fuel, selection), AmountOf)
  {
    var scoped := ScopeToTruck(trips, selection);
    EarningsPlusPending(scoped);
    Stats(|scoped|, Sum(scoped, PaidOf), Sum(scoped, Outstanding), Sum(ScopeToTruck(fuel, selection), AmountOf))
  }

  /** Received plus outstanding is the order total of the trips. */
  lemma {:induction false} EarningsPlusPending(trips: seq<Row>)
    ensures Sum(trips, PaidOf) + Sum(trips, Outstanding) == Sum(trips, AmountOf)
  {
    if trips != [] {
      EarningsPlusPending(trips[..|trips| - 1]);
    }
  }

  /** Pending is not clamped: an overpaid trip makes it negative. */
  lemma PendingCanBeNegative(t: Row)
    requires Get(t, Amount) == Num(100) && Get(t, PaidAmount) == Num(150)
    ensures CurrentStats([t], [], Str("all")).pending == -50
  {
    assert [t][..0] == [];
    assert Sum([t], Outstanding) == Outstanding(t);
  }

  // ---------------------------------------------------------------------
  // Report filters

  /** The filter drawer's choices: the report format, the date range mode
      ('today', 'weekly', 'monthly', 'yearly' or 'custom'), the truck, and the
      custom range's bounds. */
  datatype ReportFilters = ReportFilters(format: string, dateRange: string, truck: JsValue,
                                         startDate: JsValue, endDate: JsValue)

  /** The clock the filters read: the current instant, the local time zone's
      offset, and the instant one calendar month ago. */
  datatype Clock = Clock(now: int, tzOffset: int, monthAgo: int)

  /** The local calendar day (days since 1970-01-01) of an instant. */
  function LocalDay(ms: int, tzOffset: int): int {
    (ms + tzOffset) / DayMs
  }

  /** The instant from which a non-custom range keeps records: seven days
      back, a month back, local midnight today, or now for any other mode. */
  function Cutoff(dateRange: string, clock: Clock): int {
    if dateRange == "weekly" then clock.now - 7 * DayMs
    else if dateRange == "monthly" then clock.monthAgo
    else if dateRange == "today" then LocalDay(clock.now, clock.tzOffset) * DayMs - clock.tzOffset
    else clock.now
  }

  /** `new Date(item[dateKey] || item.created_at)`; None is an Invalid Date. */
  function ItemInstant(item: Row, dateKey: Key): Option<int> {
    ToInstant(Or(Get(item, dateKey), Get(item, CreatedAt)))
  }

  /** The date test alone. An Invalid Date compares false with everything. */
  predicate DateKeeps(item: Row, f: ReportFilters, clock: Clock, dateKey: Key) {
    var d := ItemInstant(item, dateKey);
    if f.dateRange == "yearly" then true
    else if f.dateRange != "custom" then d.Some? && d.value >= Cutoff(f.dateRange, clock)
    else if Truthy(f.startDate) && Truthy(f.endDate) then
      var lo := ToInstant(f.startDate);
      var hi := ToInstant(f.endDate);
      d.Some? && lo.Some? && hi.Some? && lo.value <= d.value <= hi.value
    else true
  }

  /** The truck test alone: every record for 'all'. */
  predicate TruckKeeps(item: Row, truck: JsValue, truckKey: Key) {
    truck == Str("all") || OnTruck(item, truckKey, truck)
  }

  /** The records a report includes: those of the truck, then those in the
      date range. */
  function Scoped(data: seq<Row>, f: ReportFilters, clock: Clock, truckKey: Key, dateKey: Key): seq<Row> {
    Filter(Filter(data, x => TruckKeeps(x, f.truck, truckKey)), x => DateKeeps(x, f, clock, dateKey))
  }

  /** The truck step of `applyDataFilters`. */
  method FilterByTruck(data: seq<Row>, truck: JsValue, truckKey: Key) returns (filtered: seq<Row>)
    ensures filtered == Filter(data, x => TruckKeeps(x, truck, truckKey))
  {
    filtered := data;
    if truck != Str("all") {
      filtered := Filter(filtered, x => OnTruck(x, truckKey, truck));
      FilterCongruent(data, x => OnTruck(x, truckKey, truck), x => TruckKeeps(x, truck, truckKey));
    } else {
      FilterAll(data, x => TruckKeeps(x, truck, truckKey));
    }
  }

  /** The date step of `applyDataFilters`. */
  method FilterByDate(data: seq<Row>, f: ReportFilters, clock: Clock, dateKey: Key) returns (filtered: seq<Row>)
    ensures filtered == Filter(data, x => DateKeeps(x, f, clock, dateKey))
  {
    filtered := data;
    if f.dateRange != "yearly" {
      if f.dateRange != "custom" {
        var cutoff := Cutoff(f.dateRange, clock);
        filtered := Filter(filtered, x => ItemInstant(x, dateKey).Some? && ItemInstant(x, dateKey).value >= cutoff);
        FilterCongruent(data, x => ItemInstant(x, dateKey).Some? && ItemInstant(x, dateKey).value >= cutoff,
                        x => DateKeeps(x, f, clock, dateKey));
      } else if Truthy(f.startDate) && Truthy(f.endDate) {
        filtered := Filter(filtered, x => DateKeeps(x, f, clock, dateKey));
      } else {
        FilterAll(data, x => DateKeeps(x, f, clock, dateKey));
      }
    } else {
      FilterAll(data, x => DateKeeps(x, f, clock, dateKey));
    }
  }

  /** `applyDataFilters`: the truck filter unless 'all', then the date filter
      unless 'yearly' (or 'custom' without both bounds). */
  method ApplyDataFilters(data: seq<Row>, f: ReportFilters, clock: Clock, truckKey: Key, dateKey: Key)
    returns (filtered: seq<Row>)
    ensures filtered == Scoped(data, f, clock, truckKey, dateKey)
  {
    filtered := FilterByTruck(data, f.truck, truckKey);
    filtered := FilterByDate(filtered, f, clock, dateKey);
  }

  /** A report keeps records in their order and drops the rest. */
  lemma ScopedSubsequence(data: seq<Row>, f: ReportFilters, clock: Clock, truckKey: Key, dateKey: Key)
    ensures IsSubsequence(Scoped(data, f, clock, truckKey, dateKey), data)
  {
    var byTruck := Filter(data, x => TruckKeeps(x, f.truck, truckKey));
    FilterSubsequence(data, x => TruckKeeps(x, f.truck, truckKey));
    FilterSubsequence(byTruck, x => DateKeeps(x, f, clock, dateKey));
    SubsequenceTransitive(Scoped(data, f, clock, truckKey, dateKey), byTruck, data);
  }

  /** Filtering a report's records again changes nothing. */
  lemma ScopedIdempotent(data: seq<Row>, f: ReportFilters, clock: Clock, truckKey: Key, dateKey: Key)
    ensures Scoped(Scoped(data, f, clock, truckKey, dateKey), f, clock, truckKey, dateKey) == Scoped(data, f, clock, truckKey, dateKey)
  {
    FilterTwiceIdempotent(data, x => TruckKeeps(x, f.truck, truckKey), x => DateKeeps(x, f, clock, dateKey));
  }

  /** With every truck and the yearly range nothing is filtered out. */
  lemma ScopedEverything(data: seq<Row>, f: ReportFilters, clock: Clock, truckKey: Key, dateKey: Key)
    requires f.truck == Str("all") && f.dateRange == "yearly"
    ensures Scoped(data, f, clock, truckKey, dateKey) == data
  {
    FilterAll(data, x => TruckKeeps(x, f.truck, truckKey));
    FilterAll(data, x => DateKeeps(x, f, clock, dateKey));
  }

  /** A custom range missing either bound applies no date filter. */
  lemma CustomWithoutBounds(item: Row, f: ReportFilters, clock: Clock, dateKey: Key)
    requires f.dateRange == "custom" && !(Truthy(f.startDate) && Truthy(f.endDate))
    ensures DateKeeps(item, f, clock, dateKey)
  {
  }

  /** The data handed to a report generator. */
  datatype ReportData = ReportData(trips: seq<Row>, fuelExpenses: seq<Row>, expenses: seq<Row>,
                                   payments: seq<Row>, drivers: seq<Row>, suppliers: seq<Row>)

  /** The report data for the filters: every list scoped as `reportData`
      scopes it. */
  function ScopedReport(f: ReportFilters, clock: Clock, all: ReportData): ReportData {
    ReportData(Scoped(all.trips, f, clock, TruckId, TripDate),
               Scoped(all.fuelExpenses, f, clock, TruckId, ExpenseDate),
               Scoped(all.expenses, f, clock, TruckId, ExpenseDate),
               Scoped(all.payments, f, clock, TripId, CreatedAt),
               all.drivers, all.suppliers)
  }

  /** `reportData`: trips by `trip_date`, fuel logs and expenses by
      `expense_date`, payments by `trip_id` as the truck and `created_at` as
      the date; drivers and suppliers are never filtered. */
  method BuildReportData(f: ReportFilters, clock: Clock, all: ReportData) returns (d: ReportData)
    ensures d.trips == Scoped(all.trips, f, clock, TruckId, TripDate)
    ensures d.fuelExpenses == Scoped(all.fuelExpenses, f, clock, TruckId, ExpenseDate)
    ensures d.expenses == Scoped(all.expenses, f, clock, TruckId, ExpenseDate)
    ensures d.payments == Scoped(all.payments, f, clock, TripId, CreatedAt)
    ensures d.drivers == all.drivers && d.suppliers == all.suppliers
    ensures d == ScopedReport(f, clock, all)
  {
    var trips := ApplyDataFilters(all.trips, f, clock, TruckId, TripDate);
    var fuel := ApplyDataFilters(all.fuelExpenses, f, clock, TruckId, ExpenseDate);
    var expenses := ApplyDataFilters(all.expenses, f, clock, TruckId, ExpenseDate);
    var payments := ApplyDataFilters(all.payments, f, clock, TripId, CreatedAt);
    d := ReportData(trips, fuel, expenses, payments, all.drivers, all.suppliers);
  }

  /** What the download button does. */
  datatype ReportAction = OpenFilterDrawer | PdfReport(data: ReportData) | ExcelReport(data: ReportData) | NoReport

  /** `handleDownloadReport`: without a format it only opens the filter
      drawer; otherwise it builds the report data and hands it to the PDF or
      the Excel generator. */
  method HandleDownloadReport(f: ReportFilters, clock: Clock, all: ReportData) returns (action: ReportAction)
    ensures f.format == "" <==> action == OpenFilterDrawer
    ensures f.format == "pdf" ==> action.PdfReport? && action.data.payments == Scoped(all.payments, f, clock, TripId, CreatedAt)
    ensures f.format == "excel" ==> action.ExcelReport? && action.data.trips == Scoped(all.trips, f, clock, TruckId, TripDate)
    ensures f.format !in {"", "pdf", "excel"} ==> action == NoReport
    ensures f.format in {"pdf", "excel"} ==> action.data == ScopedReport(f, clock, all)
  {
    if f.format == "" {
      return OpenFilterDrawer;
    }
    var data := BuildReportData(f, clock, all);
    if f.format == "pdf" {
      action := PdfReport(data);
    } else if f.format == "excel" {
      action := ExcelReport(data);
    } else {
      action := NoReport;
    }
  }

  // ---------------------------------------------------------------------
  // Weekly earnings

  /** Whether a trip's `trip_date` falls on local day `day`: a trip without
      one, or with one `new Date` cannot read, falls on no day. */
  predicate OnLocalDay(t: Row, day: int, tzOffset: int) {
    var d := Get(t, TripDate);
    Truthy(d) && ToInstant(d).Some? && LocalDay(ToInstant(d).value, tzOffset) == day
  }

  /** Σ amount of the trips on one local day. */
  function DaySum(trips: seq<Row>, day: int, tzOffset: int): int {
    Sum(Filter(trips, t => OnLocalDay(t, day, tzOffset)), AmountOf)
  }

  /** The short weekday name of a local day (1970-01-01 was a Thursday). */
  function WeekdayLabel(day: int): string {
    ["Thu", "Fri", "Sat", "Sun", "Mon", "Tue", "Wed"][day % 7]
  }

  /** `getWeeklyEarnings`: seven bars, six days ago first and today last. */
  method WeeklyEarnings(trips: seq<Row>, clock: Clock) returns (labels: seq<string>, data: seq<int>)
    ensures |labels| == 7 && |data| == 7
    ensures forall k :: 0 <= k < 7 ==>
      var day := LocalDay(clock.now, clock.tzOffset) - 6 + k;
      labels[k] == WeekdayLabel(day) && data[k] == DaySum(trips, day, clock.tzOffset)
  {
    var today := LocalDay(clock.now, clock.tzOffset);
    labels, data := [], [];
    var i := 6;
    while i >= 0
      invariant -1 <= i <= 6
      invariant |labels| == 6 - i && |data| == 6 - i
      invariant forall k :: 0 <= k < 6 - i ==>
        labels[k] == WeekdayLabel(today - 6 + k) && data[k] == DaySum(trips, today - 6 + k, clock.tzOffset)
    {
      var day := today - i;
      labels := labels + [WeekdayLabel(day)];
      var daySum := Sum(Filter(trips, t => OnLocalDay(t, day, clock.tzOffset)), AmountOf);
      data := data + [daySum];
      i := i - 1;
    }
  }

  /** A trip without a readable `trip_date` adds to no bar. */
  lemma UndatedTripCountsNowhere(trips: seq<Row>, t: Row, day: int, tzOffset: int)
    requires !Truthy(Get(t, TripDate))
    ensures DaySum(trips + [t], day, tzOffset) == DaySum(trips, day, tzOffset)
  {
    assert (trips + [t])[..|trips + [t]| - 1] == trips;
    assert Filter(trips + [t], x => OnLocalDay(x, day, tzOffset)) == Filter(trips, x => OnLocalDay(x, day, tzOffset)) + [];
    assert Filter(trips, x => OnLocalDay(x, day, tzOffset)) + [] == Filter(trips, x => OnLocalDay(x, day, tzOffset));
  }

  // ---------------------------------------------------------------------
  // Expense breakdown

  /** `e.category || 'Other'` */
  function CategoryOf(e: Row): JsValue {
    Or(Get(e, Category), Str("Other"))
  }

  /** The maintenance categories, matched exactly (capitalised). */
  predicate IsMaintenance(category: JsValue) {
    category == Str("Tyre") || category == Str("Repair") || category == Str("Service")
  }

  predicate IsSalary(category: JsValue) {
    !IsMaintenance(category) && category == Str("Salary")
  }

  predicate IsMisc(category: JsValue) {
    !IsMaintenance(category) && !IsSalary(category)
  }

  function MaintenanceAmount(e: Row): int {
    if IsMaintenance(CategoryOf(e)) then AmountOf(e) else 0
  }

  function SalaryAmount(e: Row): int {
    if IsSalary(CategoryOf(e)) then AmountOf(e) else 0
  }

  function MiscAmount(e: Row): int {
    if IsMisc(CategoryOf(e)) then AmountOf(e) else 0
  }

  /** `getExpenseBreakdown`: `[fuel, maintenance, salary, misc]`. */
  method ExpenseBreakdown(fuelLogs: seq<Row>, expenses: seq<Row>) returns (r: seq<int>)
    ensures r == [Sum(fuelLogs, AmountOf), Sum(expenses, MaintenanceAmount), Sum(expenses, SalaryAmount),
                  Sum(expenses, MiscAmount)]
  {
    var fuel := Sum(fuelLogs, AmountOf);
    var maintenance, salary, misc := 0, 0, 0;
    var i := 0;
    while i < |expenses|
      invariant 0 <= i <= |expenses|
      invariant maintenance == Sum(expenses[..i], MaintenanceAmount)
      invariant salary == Sum(expenses[..i], SalaryAmount)
      invariant misc == Sum(expenses[..i], MiscAmount)
    {
      var e := expenses[i];
      var amount := AmountOf(e);
      var cat := CategoryOf(e);
      assert expenses[..i + 1][..i] == expenses[..i];
      if IsMaintenance(cat) {
        maintenance := maintenance + amount;
      } else if cat == Str("Salary") {
        salary := salary + amount;
      } else {
        misc := misc + amount;
      }
      i := i + 1;
    }
    assert expenses[..i] == expenses;
    r := [fuel, maintenance, salary, misc];
  }

  /** Every expense lands in exactly one bucket, so the buckets add up to
      the fuel spend plus the expense total. */
  lemma {:induction false} BreakdownTotal(expenses: seq<Row>)
    ensures Sum(expenses, MaintenanceAmount) + Sum(expenses, SalaryAmount) + Sum(expenses, MiscAmount)
         == Sum(expenses, AmountOf)
  {
    if expenses != [] {
      BreakdownTotal(expenses[..|expenses| - 1]);
    }
  }

  /** A category that is not one of the exact capitalised names, such as
      'tyre', goes to misc. */
  lemma UnlistedCategoryIsMisc(e: Row)
    requires Get(e, Category) !in {Str("Tyre"), Str("Repair"), Str("Service"), Str("Salary")}
    ensures MiscAmount(e) == AmountOf(e) && MaintenanceAmount(e) == 0 && SalaryAmount(e) == 0
  {
  }
}

=== FILE: datepicker.dfy ===
/** The date picker: month navigation, the `YYYY-MM-DD` text a clicked day
    emits (the calendar date, complete representation, extended format, of
    section 4.1.2.2 of ISO 8601:2004), the Gregorian month lengths and first
    weekdays that lay out the grid, and the Clear / Today buttons. */
module DatePicker {
  import opened Js

  // ---------------------------------------------------------------------
  // Gregorian calendar arithmetic

  predicate IsLeapYear(y: int) {
    y % 4 == 0 && (y % 100 != 0 || y % 400 == 0)
  }

  /** Days in month `m` (0 = January) of year `y`. */
  function MonthLength(y: int, m: int): (n: int)
    requires 0 <= m <= 11
    ensures 28 <= n <= 31
    ensures m == 1 ==> (n == 29 <==> IsLeapYear(y))
  {
    if m == 1 then (if IsLeapYear(y) then 29 else 28)
    else if m == 3 || m == 5 || m == 8 || m == 10 then 30
    else 31
  }

  /** Days of year `y` before the first of month `m` (m = 12 gives the
      whole year). */
  function DaysBeforeMonth(y: int, m: int): int
    requires 0 <= m <= 12
  {
    var common := [0, 31, 59, 90, 120, 151, 181, 212, 243, 273, 304, 334, 365];
    common[m] + (if m >= 2 && IsLeapYear(y) then 1 else 0)
  }

  /** The cumulative table agrees with the month lengths. */
  lemma DaysBeforeNextMonth(y: int, m: int)
    requires 0 <= m <= 11
    ensures DaysBeforeMonth(y, m + 1) == DaysBeforeMonth(y, m) + MonthLength(y, m)
  {
  }

  /** A Gregorian year has 366 days when it is a leap year, else 365. */
  lemma YearLength(y: int)
    ensures DaysBeforeMonth(y, 12) == if IsLeapYear(y) then 366 else 365
  {
  }

  /** The number of leap years in [0, y) (negative for y < 0). */
  function LeapsBefore(y: int): int {
    (y + 3) / 4 - (y + 99) / 100 + (y + 399) / 400
  }

  lemma Step4(a: int)
    ensures (a + 4) / 4 - (a + 3) / 4 == if a % 4 == 0 then 1 else 0
  {
  }
  lemma Step100(a: int)
    ensures (a + 100) / 100 - (a + 99) / 100 == if a % 100 == 0 then 1 else 0
  {
  }
  lemma Step400(a: int)
    ensures (a + 400) / 400 - (a + 399) / 400 == if a % 400 == 0 then 1 else 0
  {
  }
  lemma Multiple400(y: int)
    requires y % 400 == 0
    ensures y % 100 == 0 && y % 4 == 0
  {
    var k := 4 * (y / 400);
    assert y == 100 * k;
    Multiple100(y);
  }
  lemma Multiple100(y: int)
    requires y % 100 == 0
    ensures y % 4 == 0
  {
    var q := y / 100;
    assert y == 4 * (25 * q);
  }
  lemma LeapIndicator(y: int)
    ensures (if IsLeapYear(y) then 1 else 0) ==
      (if y % 4 == 0 then 1 else 0) - (if y % 100 == 0 then 1 else 0) + (if y % 400 == 0 then 1 else 0)
  {
    if y % 400 == 0 { Multiple400(y); } else if y % 100 == 0 { Multiple100(y); }
  }
  lemma LeapsStep(y: int)
    ensures LeapsBefore(y + 1) == LeapsBefore(y) + (if IsLeapYear(y) then 1 else 0)
  {
    Step4(y); Step100(y); Step400(y);
    LeapIndicator(y);
    assert LeapsBefore(y + 1) == (y + 4) / 4 - (y + 100) / 100 + (y + 400) / 400;
  }

  /** Days from 1 January 1970 to 1 January of year `y`. */
  function DaysBeforeYear(y: int): int {
    365 * (y - 1970) + LeapsBefore(y) - LeapsBefore(1970)
  }

  /** Day `d` of month `m` of year `y` as a day number, 1 January 1970 being
      day 0. */
  function DayNumber(y: int, m: int, d: int): int
    requires 0 <= m <= 11
  {
    DaysBeforeYear(y) + DaysBeforeMonth(y, m) + d - 1
  }

  /** `getDay()` of a day number: 0 is Sunday; 1 January 1970 was a
      Thursday. */
  function Weekday(n: int): (w: int)
    ensures 0 <= w < 7
  {
    (n + 4) % 7
  }

  /** Day numbers are consecutive across month ends and year ends: the first
      of the following month comes the month's length after the first of
      this one. */
  lemma FirstOfNextMonth(y: int, m: int)
    requires 0 <= m <= 11
    ensures var (nm, ny) := Shift(m, y, 1);
      DayNumber(ny, nm, 1) == DayNumber(y, m, 1) + MonthLength(y, m)
  {
    if m == 11 {
      LeapsStep(y);
      YearLength(y);
    } else {
      DaysBeforeNextMonth(y, m);
    }
  }

  /** `new Date(year, ...)` reads a year 0..99 as 1900..1999. */
  function FullYear(year: int): (y: int)
    ensures 0 <= year <= 99 ==> y == 1900 + year
    ensures !(0 <= year <= 99) ==> y == year
  {
    if 0 <= year <= 99 then 1900 + year else year
  }

  /** `getDaysInMonth(month, year)`: `new Date(year, month + 1, 0).getDate()`,
      the last day of the month. */
  function DaysInMonth(month: int, year: int): (n: int)
    requires 0 <= month <= 11
    ensures n == MonthLength(FullYear(year), month)
  {
    DaysBeforeMonth(FullYear(year), month + 1) - DaysBeforeMonth(FullYear(year), month)
  }

  /** `getFirstDayOfMonth(month, year)`: the weekday of the first. */
  function FirstDayOfMonth(month: int, year: int): (w: int)
    requires 0 <= month <= 11
    ensures 0 <= w < 7
    ensures w == Weekday(DayNumber(FullYear(year), month, 1))
  {
    Weekday(DaysBeforeYear(FullYear(year)) + DaysBeforeMonth(FullYear(year), month))
  }

  /** The grid of the following month starts on the weekday right after this
      month's last day (for years the picker reads as themselves). */
  lemma NextGridContinues(month: int, year: int)
    requires 0 <= month <= 11 && year >= 100
    ensures var (nm, ny) := Shift(month, year, 1);
      FirstDayOfMonth(nm, ny) == (FirstDayOfMonth(month, year) + DaysInMonth(month, year)) % 7
  {
    FirstOfNextMonth(year, month);
    ModAdd(DayNumber(year, month, 1) + 4, DaysInMonth(month, year));
  }

  lemma ModAdd(x: int, l: int)
    ensures (x % 7 + l) % 7 == (x + l) % 7
  {
  }

  // ---------------------------------------------------------------------
  // Month navigation

  /** `changeMonth(offset)`: the new (month, year); a month past December
      becomes January of the next year and one before January becomes
      December of the previous year. */
  function Shift(month: int, year: int, offset: int): (r: (int, int))
    ensures 0 <= r.0 <= 11
    ensures month + offset > 11 ==> r == (0, year + 1)
    ensures month + offset < 0 ==> r == (11, year - 1)
    ensures 0 <= month + offset <= 11 ==> r == (month + offset, year)
  {
    var newMonth := month + offset;
    if newMonth > 11 then (0, year + 1)
    else if newMonth < 0 then (11, year - 1)
    else (newMonth, year)
  }

  /** A step forward and a step back return to the month shown before, and
      so does a step back and a step forward. */
  lemma ShiftRoundTrip(month: int, year: int)
    requires 0 <= month <= 11
    ensures var (m, y) := Shift(month, year, 1); Shift(m, y, -1) == (month, year)
    ensures var (m, y) := Shift(month, year, -1); Shift(m, y, 1) == (month, year)
  {
  }

  // ---------------------------------------------------------------------
  // The date text

  /** `s.padStart(width, fill)` */
  function PadStart(s: string, width: nat, fill: char): (r: string)
    ensures |r| == if |s| >= width then |s| else width
    decreases width - |s|
  {
    if |s| >= width then s else PadStart([fill] + s, width, fill)
  }

  /** The padded text is fill characters followed by the text itself. */
  lemma {:induction false} PadStartShape(s: string, width: nat, fill: char)
    ensures var r := PadStart(s, width, fill);
      r[|r| - |s|..] == s && forall i :: 0 <= i < |r| - |s| ==> r[i] == fill
    decreases width - |s|
  {
    if |s| < width {
      PadStartShape([fill] + s, width, fill);
    }
  }

  /** `String(n).padStart(2, '0')` */
  function Pad2(n: int): string {
    PadStart(IntToString(n), 2, '0')
  }

  lemma {:induction false} LeadingZeroValue(s: string)
    requires AllDigits(s)
    ensures AllDigits(['0'] + s) && DigitsValue(['0'] + s) == DigitsValue(s)
  {
    if s != [] {
      var init := s[..|s| - 1];
      LeadingZeroValue(init);
      assert (['0'] + s)[..|s|] == ['0'] + init;
    }
  }

  /** A number below 100 pads to two digits that read back as the number. */
  lemma Pad2Value(n: int)
    requires 0 <= n < 100
    ensures |Pad2(n)| == 2 && AllDigits(Pad2(n)) && DigitsValue(Pad2(n)) == n
  {
    NatToStringValue(n);
    var s := NatToString(n);
    if n < 10 {
      assert |s| == 1;
      assert IntToString(n) == s;
      assert PadStart(['0'] + s, 2, '0') == ['0'] + s;
      assert PadStart(s, 2, '0') == PadStart(['0'] + s, 2, '0');
      LeadingZeroValue(s);
    } else {
      assert s == NatToString(n / 10) + [DigitChar(n % 10)];
    }
  }

  /** The text a day click emits: year, month + 1 and day, the last two
      zero-padded to two digits. */
  function FormatDate(year: int, month: int, day: int): (s: string)
    ensures 0 <= month <= 11 && 1 <= day <= 31 ==>
      |s| == |IntToString(year)| + 6 && s[|s| - 6] == '-' && s[|s| - 3] == '-'
  {
    var text := IntToString(year) + "-" + Pad2(month + 1) + "-" + Pad2(day);
    if 0 <= month <= 11 && 1 <= day <= 31 then
      Pad2Value(month + 1);
      Pad2Value(day);
      text
    else text
  }

  /** An ISO 8601 calendar date: year, month (1..12) and day. */
  datatype CalendarDate = CalendarDate(year: int, month: int, day: int)

  /** Reads `Y-MM-DD` with a digit-only year of any length. */
  function ParseDate(s: string): (r: Option<CalendarDate>)
    ensures r.Some? ==> |s| >= 7 && s[|s| - 6] == '-' && s[|s| - 3] == '-'
  {
    if |s| >= 7 && s[|s| - 6] == '-' && s[|s| - 3] == '-'
       && AllDigits(s[..|s| - 6]) && AllDigits(s[|s| - 5..|s| - 3]) && AllDigits(s[|s| - 2..])
    then Some(CalendarDate(DigitsValue(s[..|s| - 6]), DigitsValue(s[|s| - 5..|s| - 3]), DigitsValue(s[|s| - 2..])))
    else None
  }

  /** Where the pieces of `Y-MM-DD` sit. */
  lemma DateTextPieces(y: string, mm: string, dd: string)
    requires |mm| == 2 && |dd| == 2
    ensures var t := y + "-" + mm + "-" + dd;
      t[..|t| - 6] == y && t[|t| - 5..|t| - 3] == mm && t[|t| - 2..] == dd &&
      t[|t| - 6] == '-' && t[|t| - 3] == '-'
  {
  }

  /** Reading back the emitted text gives the year, the 1-based month and
      the day. */
  lemma FormatParses(year: int, month: int, day: int)
    requires year >= 0 && 0 <= month <= 11 && 1 <= day <= 31
    ensures ParseDate(FormatDate(year, month, day)) == Some(CalendarDate(year, month + 1, day))
  {
    var y, mm, dd := NatToString(year), Pad2(month + 1), Pad2(day);
    Pad2Value(month + 1);
    Pad2Value(day);
    NatToStringValue(year);
    DateTextPieces(y, mm, dd);
    var t := y + "-" + mm + "-" + dd;
    assert FormatDate(year, month, day) == t;
    assert t[..|t| - 6] == y && t[|t| - 5..|t| - 3] == mm && t[|t| - 2..] == dd;
    assert ParseDate(t) == Some(CalendarDate(DigitsValue(y), DigitsValue(mm), DigitsValue(dd)));
  }

  /** For a year of four digits the text is the ISO 8601 complete extended
      form: ten characters, hyphens at 4 and 7, digits elsewhere. */
  lemma IsoExtendedForm(year: int, month: int, day: int)
    requires 1000 <= year <= 9999 && 0 <= month <= 11 && 1 <= day <= 31
    ensures var s := FormatDate(year, month, day);
      |s| == 10 && s[4] == '-' && s[7] == '-' &&
      forall i :: 0 <= i < 10 && i != 4 && i != 7 ==> IsDigit(s[i])
  {
    var y := NatToString(year);
    assert |y| == 4 by {
      assert y == NatToString(year / 10) + [DigitChar(year % 10)];
      assert NatToString(year / 10) == NatToString(year / 100) + [DigitChar(year / 10 % 10)];
      assert NatToString(year / 100) == NatToString(year / 1000) + [DigitChar(year / 100 % 10)];
    }
    Pad2Value(month + 1);
    Pad2Value(day);
  }

  /** Two cells of one month never show the same text. */
  lemma DayDeterminesText(year: int, month: int, d1: int, d2: int)
    requires 1 <= d1 <= 31 && 1 <= d2 <= 31 && 0 <= month <= 11
    requires FormatDate(year, month, d1) == FormatDate(year, month, d2)
    ensures d1 == d2
  {
    var s := FormatDate(year, month, d1);
    Pad2Value(d1);
    Pad2Value(d2);
    assert s[|s| - 2..] == Pad2(d1);
    assert FormatDate(year, month, d2)[|s| - 2..] == Pad2(d2);
  }

  /** The cells at grid positions `k` and `j` (days k − first + 1 and
      j − first + 1) both match `value` only when k = j. */
  lemma OneCellMatches(first: int, year: int, month: int, value: JsValue, k: int, j: int)
    requires first <= k < first + 31 && first <= j < first + 31 && 0 <= month <= 11
    requires value == Str(FormatDate(year, month, k - first + 1))
    requires value == Str(FormatDate(year, month, j - first + 1))
    ensures k == j
  {
    DayDeterminesText(year, month, k - first + 1, j - first + 1);
  }

  /** In a grid whose day cells carry consecutive days of one month, at
      most one cell is selected. */
  lemma SelectedUnique(days: seq<Slot>, first: int, year: int, month: int, value: JsValue)
    requires 0 <= first && |days| <= first + 31 && 0 <= month <= 11
    requires forall k :: 0 <= k < first && k < |days| ==> days[k] == Blank
    requires forall k :: first <= k < |days| ==>
      days[k].DayCell? && (days[k].selected <==> value == Str(FormatDate(year, month, k - first + 1)))
    ensures forall k, j :: 0 <= k < |days| && 0 <= j < |days| && IsSelected(days[k]) && IsSelected(days[j]) ==> k == j
  {
    forall k, j | 0 <= k < |days| && 0 <= j < |days| && IsSelected(days[k]) && IsSelected(days[j])
      ensures k == j
    {
      OneCellMatches(first, year, month, value, k, j);
    }
  }

  /** The cell of day `d` of a month: selected when `value` is its text,
      marked as today when it is the clock's day. */
  function CellOf(year: int, month: int, d: int, value: JsValue, today: Today): (c: Slot)
    ensures c.DayCell? && c.day == d
    ensures c.selected <==> value == Str(FormatDate(year, month, d))
    ensures c.isToday <==> d == today.day && month == today.month && year == today.year
  {
    DayCell(d, value == Str(FormatDate(year, month, d)),
            d == today.day && month == today.month && year == today.year)
  }

  /** The two loops of `renderCalendar`: `first` empty slots, then one cell
      per day 1..n, pushed in order. */
  method LayOut(first: int, n: int, year: int, month: int, value: JsValue, today: Today) returns (days: seq<Slot>)
    requires 0 <= first && 0 <= n <= 31 && 0 <= month <= 11
    ensures |days| == first + n
    ensures forall k :: 0 <= k < first ==> days[k] == Blank
    ensures forall k :: first <= k < |days| ==> days[k] == CellOf(year, month, k - first + 1, value, today)
    ensures forall k, j :: 0 <= k < |days| && 0 <= j < |days| && IsSelected(days[k]) && IsSelected(days[j]) ==> k == j
  {
    days := [];
    var i := 0;
    while i < first
      invariant 0 <= i <= first
      invariant |days| == i
      invariant forall k :: 0 <= k < i ==> days[k] == Blank
    {
      days := days + [Blank];
      i := i + 1;
    }
    var day := 1;
    while day <= n
      invariant 1 <= day <= n + 1
      invariant |days| == first + day - 1
      invariant forall k :: 0 <= k < first ==> days[k] == Blank
      invariant forall k :: first <= k < |days| ==> days[k] == CellOf(year, month, k - first + 1, value, today)
    {
      var cell := CellOf(year, month, day, value, today);
      ghost var prev := days;
      days := days + [cell];
      forall k | first <= k < |days|
        ensures days[k] == CellOf(year, month, k - first + 1, value, today)
      {
        if k < |prev| {
          assert days[k] == prev[k];
        } else {
          assert k - first + 1 == day;
        }
      }
      assert forall k :: 0 <= k < first ==> days[k] == prev[k];
      day := day + 1;
    }
    forall k | first <= k < |days|
      ensures days[k].DayCell? && (days[k].selected <==> value == Str(FormatDate(year, month, k - first + 1)))
    {
      assert days[k] == CellOf(year, month, k - first + 1, value, today);
    }
    SelectedUnique(days, first, year, month, value);
  }

  // ---------------------------------------------------------------------
  // The picker

  /** The day the clock shows: full year, month 0..11, day of month. */
  datatype Today = Today(year: int, month: int, day: int)

  /** A grid slot: an empty slot before the first, or a day. */
  datatype Slot = Blank | DayCell(day: int, selected: bool, isToday: bool)

  predicate IsSelected(s: Slot) {
    s.DayCell? && s.selected
  }

  /** The `{ target: { name, value } }` event handed to `onChange`. */
  datatype ChangeEvent = ChangeEvent(name: string, value: string)

  /** `value || placeholder`: the text on the closed picker. */
  function Shown(value: JsValue, placeholder: string): (t: string)
    ensures Truthy(value) ==> t == JsString(value)
    ensures !Truthy(value) ==> t == placeholder
  {
    if Truthy(value) then JsString(value) else placeholder
  }

  class Picker {
    const name: string
    var isOpen: bool
    var month: int
    var year: int

    ghost predicate Valid()
      reads this
    {
      0 <= month <= 11
    }

    /** Closed, showing the month of today. */
    constructor(name: string, today: Today)
      requires 0 <= today.month <= 11
      ensures this.name == name && !isOpen
      ensures month == today.month && year == today.year
      ensures Valid()
    {
      this.name := name;
      isOpen := false;
      month := today.month;
      year := today.year;
    }

    /** The field button opens or closes the picker. */
    method Toggle()
      modifies this
      ensures isOpen == !old(isOpen)
      ensures month == old(month) && year == old(year)
    {
      isOpen := !isOpen;
    }

    /** A mouse-down outside the picker closes it. */
    method MouseDown(inside: bool)
      modifies this
      ensures isOpen == (old(isOpen) && inside)
      ensures month == old(month) && year == old(year)
    {
      if !inside {
        isOpen := false;
      }
    }

    /** `changeMonth(offset)` */
    method ChangeMonth(offset: int)
      modifies this
      ensures (month, year) == Shift(old(month), old(year), offset)
      ensures isOpen == old(isOpen)
      ensures Valid()
    {
      var newMonth := month + offset;
      var newYear := year;
      if newMonth > 11 {
        newMonth := 0;
        newYear := newYear + 1;
      } else if newMonth < 0 {
        newMonth := 11;
        newYear := newYear - 1;
      }
      month := newMonth;
      year := newYear;
    }

    /** `handleDateClick(day)`: emits the day's text and closes. */
    method HandleDateClick(day: int) returns (e: ChangeEvent)
      modifies this
      ensures e == ChangeEvent(name, FormatDate(year, month, day))
      ensures !isOpen && month == old(month) && year == old(year)
    {
      e := ChangeEvent(name, FormatDate(year, month, day));
      isOpen := false;
    }

    /** Clear: emits the empty text and closes. */
    method Clear() returns (e: ChangeEvent)
      modifies this
      ensures e == ChangeEvent(name, "")
      ensures !isOpen && month == old(month) && year == old(year)
    {
      e := ChangeEvent(name, "");
      isOpen := false;
    }

    /** Today: emits today's text and closes; the month shown stays. */
    method PickToday(today: Today) returns (e: ChangeEvent)
      modifies this
      ensures e == ChangeEvent(name, FormatDate(today.year, today.month, today.day))
      ensures !isOpen && month == old(month) && year == old(year)
    {
      e := ChangeEvent(name, FormatDate(today.year, today.month, today.day));
      isOpen := false;
    }

    /** `renderCalendar()`: `firstDay` empty slots, then the days 1 to the
        month's length; at most one day is selected. */
    method RenderCalendar(value: JsValue, today: Today) returns (days: seq<Slot>)
      requires Valid()
      ensures |days| == FirstDayOfMonth(month, year) + DaysInMonth(month, year)
      ensures forall k :: 0 <= k < FirstDayOfMonth(month, year) ==> days[k] == Blank
      ensures forall k :: FirstDayOfMonth(month, year) <= k < |days| ==>
        days[k] == CellOf(year, month, k - FirstDayOfMonth(month, year) + 1, value, today)
      ensures forall k, j :: 0 <= k < |days| && 0 <= j < |days| && IsSelected(days[k]) && IsSelected(days[j]) ==> k == j
    {
      var daysInMonth := DaysInMonth(month, year);
      var firstDay := FirstDayOfMonth(month, year);
      days := LayOut(firstDay, daysInMonth, year, month, value, today);
    }
  }
}

=== FILE: driverform.dfy ===
/** The add / edit driver form: its empty start, the prefill from a fetched
    driver, the mobile-number slots, the 5 MB upload limit and the request
    body it submits. */
module DriverForm {
  import opened Js
  import Server

  /** The form's `photo` and `aadhar` entries, which hold an uploaded
      picture as a data URL. */
  const PhotoField: Key := Other("photo")
  const AadharField: Key := Other("aadhar")

  /** The largest accepted upload: 5 MB. */
  const MaxFileBytes := 5 * 1024 * 1024

  /** The form: its single-valued entries, and the mobile-number slots. */
  datatype Form = Form(fields: JsObject, mobiles: seq<JsValue>)

  /** A new driver starts with empty entries, no pictures and one empty
      mobile slot. */
  function InitialForm(): (f: Form)
    ensures f.mobiles == [Str("")]
    ensures f.fields.Keys == {Name, LicenseNumber, BloodGroup, Salary, Advance, AssignedTruckId, PhotoField, AadharField}
    ensures forall k :: k in f.fields ==> f.fields[k] == (if k == PhotoField || k == AadharField then Null else Str(""))
  {
    Form(map[Name := Str(""), LicenseNumber := Str(""), BloodGroup := Str(""), Salary := Str(""),
             Advance := Str(""), AssignedTruckId := Str(""), PhotoField := Null, AadharField := Null],
         [Str("")])
  }

  /** A driver as the server returns it; `mobiles` is Some when the record
      carries a `mobiles` array. */
  datatype Driver = Driver(row: JsObject, mobiles: Option<seq<JsValue>>)

  /** The numbers an edit starts from: the `mobiles` array when it has
      entries, else the truthy ones of the primary and secondary number. */
  function ContactNumbers(d: Driver): (numbers: seq<JsValue>)
    ensures !(d.mobiles.Some? && |d.mobiles.value| > 0) ==>
      var p, s := Get(d.row, MobilePrimary), Get(d.row, MobileSecondary);
      numbers == (if Truthy(p) && Truthy(s) then [p, s]
                  else if Truthy(p) then [p]
                  else if Truthy(s) then [s]
                  else [])
  {
    if d.mobiles.Some? && |d.mobiles.value| > 0 then d.mobiles.value
    else
      var both := [Get(d.row, MobilePrimary), Get(d.row, MobileSecondary)];
      assert both[..1] == [both[0]] && both[..1][..0] == [];
      assert Filter(both[..1], Truthy) == (if Truthy(both[0]) then [both[0]] else []);
      assert Filter(both, Truthy) == Filter(both[..1], Truthy) + (if Truthy(both[1]) then [both[1]] else []);
      Filter(both, Truthy)
  }

  /** The form an edit starts from: each entry or '' (the pictures or null),
      and the contact numbers, or one empty slot when there are none. */
  function Prefill(d: Driver): (f: Form)
    ensures f.mobiles != []
    ensures d.mobiles.Some? && |d.mobiles.value| > 0 ==> f.mobiles == d.mobiles.value
    ensures !(d.mobiles.Some? && |d.mobiles.value| > 0) ==>
      var p, s := Get(d.row, MobilePrimary), Get(d.row, MobileSecondary);
      f.mobiles == (if Truthy(p) && Truthy(s) then [p, s]
                    else if Truthy(p) then [p]
                    else if Truthy(s) then [s]
                    else [Str("")])
    ensures forall k :: k in {Name, LicenseNumber, BloodGroup, Salary, Advance, AssignedTruckId} ==>
      Get(f.fields, k) == (if Truthy(Get(d.row, k)) then Get(d.row, k) else Str(""))
    ensures Get(f.fields, PhotoField) == Or(Or(Get(d.row, PhotoUrl), Get(d.row, Other("photo"))), Null)
    ensures Get(f.fields, AadharField) == Or(Or(Get(d.row, AadharUrl), Get(d.row, Other("aadhar_photo"))), Null)
  {
    var numbers := ContactNumbers(d);
    var r := d.row;
    Form(map[Name := Or(Get(r, Name), Str("")), LicenseNumber := Or(Get(r, LicenseNumber), Str("")),
             BloodGroup := Or(Get(r, BloodGroup), Str("")), Salary := Or(Get(r, Salary), Str("")),
             Advance := Or(Get(r, Advance), Str("")), AssignedTruckId := Or(Get(r, AssignedTruckId), Str("")),
             PhotoField := Or(Or(Get(r, PhotoUrl), Get(r, Other("photo"))), Null),
             AadharField := Or(Or(Get(r, AadharUrl), Get(r, Other("aadhar_photo"))), Null)],
         if |numbers| > 0 then numbers else [Str("")])
  }

  /** The edit page's fetch: a driver found replaces the form; none (or a
      failed fetch) leaves it. */
  function LoadDriver(f: Form, fetched: Option<Driver>): (r: Form)
    ensures fetched.None? ==> r == f
    ensures fetched.Some? ==> r == Prefill(fetched.value)
  {
    if fetched.Some? then Prefill(fetched.value) else f
  }

  /** A picked file: its size in bytes and the data URL the reader yields. */
  datatype File = File(size: int, dataUrl: string)

  /** What a change does: the new form, or a refusal that keeps it. */
  datatype Changed = Stored(form: Form) | TooLarge

  /** `handleChange`: a picked file over 5 MB is refused; a picked file is
      stored as its data URL; any other change stores the typed value. */
  function HandleChange(f: Form, name: Key, value: JsValue, file: Option<File>): (c: Changed)
    ensures c.TooLarge? <==> file.Some? && file.value.size > MaxFileBytes
    ensures c.Stored? ==> c.form.mobiles == f.mobiles
    ensures c.Stored? ==> Get(c.form.fields, name) == (if file.Some? then Str(file.value.dataUrl) else value)
    ensures c.Stored? ==> forall k :: k != name ==> Get(c.form.fields, k) == Get(f.fields, k)
  {
    if file.Some? then
      if file.value.size > MaxFileBytes then TooLarge
      else Stored(f.(fields := f.fields[name := Str(file.value.dataUrl)]))
    else Stored(f.(fields := f.fields[name := value]))
  }

  /** `handleMobileChange(index, value)`: copies the slots and writes one. */
  method HandleMobileChange(f: Form, index: int, value: JsValue) returns (r: Form)
    requires 0 <= index < |f.mobiles|
    ensures r.fields == f.fields
    ensures |r.mobiles| == |f.mobiles| && r.mobiles[index] == value
    ensures forall i :: 0 <= i < |f.mobiles| && i != index ==> r.mobiles[i] == f.mobiles[i]
  {
    var newMobiles := new JsValue[|f.mobiles|](i requires 0 <= i < |f.mobiles| => f.mobiles[i]);
    newMobiles[index] := value;
    r := f.(mobiles := newMobiles[..]);
  }

  /** `addMobileField`: one more empty slot at the end. */
  function AddMobileField(f: Form): (r: Form)
    ensures r.fields == f.fields
    ensures |r.mobiles| == |f.mobiles| + 1 && r.mobiles[..|f.mobiles|] == f.mobiles
    ensures r.mobiles[|f.mobiles|] == Str("")
  {
    f.(mobiles := f.mobiles + [Str("")])
  }

  /** A slot that is sent: truthy and not blank once trimmed. */
  predicate Filled(m: JsValue) {
    Truthy(m) && Trim(JsString(m)) != ""
  }

  /** `x ? parseFloat(x) : null` */
  function NumberOrNull(v: JsValue): (r: JsValue)
    ensures !Truthy(v) ==> r == Null
    ensures Truthy(v) && ParseFloatOf(v).Some? ==> r == Num(ParseFloatOf(v).value)
    ensures Truthy(v) && ParseFloatOf(v).None? ==> r == NaN
  {
    if Truthy(v) then NumValue(ParseFloatOf(v)) else Null
  }

  /** The request body `handleSubmit` sends. */
  function Payload(f: Form): (body: Server.DriverBody)
    ensures body.mobiles.Some?
    ensures forall m :: m in body.mobiles.value <==> m in f.mobiles && Filled(m)
    ensures body.mobiles.value == Filter(f.mobiles, Filled)
    ensures body.fields.Keys == {Name, LicenseNumber, BloodGroup, Salary, Advance, AssignedTruckId, PhotoUrl, AadharUrl}
    ensures Get(body.fields, Salary) == NumberOrNull(Get(f.fields, Salary))
    ensures Get(body.fields, Advance) == NumberOrNull(Get(f.fields, Advance))
    ensures Get(body.fields, AssignedTruckId) == (if Truthy(Get(f.fields, AssignedTruckId)) then Get(f.fields, AssignedTruckId) else Null)
    ensures Get(body.fields, PhotoUrl) == Get(f.fields, PhotoField) && Get(body.fields, AadharUrl) == Get(f.fields, AadharField)
    ensures forall k :: k in {Name, LicenseNumber, BloodGroup} ==> Get(body.fields, k) == Get(f.fields, k)
  {
    FilterMembers(f.mobiles, Filled);
    var g := f.fields;
    Server.DriverBody(
      map[Name := Get(g, Name), LicenseNumber := Get(g, LicenseNumber), BloodGroup := Get(g, BloodGroup),
          Salary := NumberOrNull(Get(g, Salary)), Advance := NumberOrNull(Get(g, Advance)),
          AssignedTruckId := Or(Get(g, AssignedTruckId), Null),
          PhotoUrl := Get(g, PhotoField), AadharUrl := Get(g, AadharField)],
      Some(Filter(f.mobiles, Filled)))
  }

  /** The submitted numbers keep the slots' order. */
  lemma SubmittedInOrder(f: Form)
    ensures IsSubsequence(Payload(f).mobiles.value, f.mobiles)
  {
    FilterSubsequence(f.mobiles, Filled);
  }

  /** The server stores the first filled slot as the primary number. */
  lemma FirstFilledIsPrimary(db: Server.Db, owner: string, f: Form, newId: string, i: int)
    requires 0 <= i < |f.mobiles| && Filled(f.mobiles[i])
    requires forall j :: 0 <= j < i ==> !Filled(f.mobiles[j])
    ensures var (reply, _) := Server.CreateDriver(db, owner, Payload(f), newId);
      reply.code == 201 && Get(reply.rows[0], MobilePrimary) == f.mobiles[i]
  {
    FilterFirst(f.mobiles, Filled, i);
    Server.CreateDriverMobiles(db, owner, Payload(f), newId);
  }

  /** A form whose slots are all blank is turned away by the server and
      nothing is stored. */
  lemma BlankMobilesRejected(db: Server.Db, owner: string, f: Form, newId: string)
    requires forall i :: 0 <= i < |f.mobiles| ==> !Filled(f.mobiles[i])
    ensures var (reply, db2) := Server.CreateDriver(db, owner, Payload(f), newId);
      reply.code == 400 && db2 == db
  {
    FilterNone(f.mobiles, Filled);
    Server.CreateDriverMobiles(db, owner, Payload(f), newId);
  }

  /** A new form submitted untouched sends no numbers. */
  lemma UntouchedFormSendsNoNumbers()
    ensures Payload(InitialForm()).mobiles == Some([])
  {
    assert !Filled(Str(""));
    FilterNone([Str("")], Filled);
  }
}

=== FILE: driverledger.dfy ===
/** A driver's ledger page: recording a payment (its validation, the body
    sent, the reset afterwards), the running total and the type labels. */
module DriverLedger {
  import opened Js

  /** The payment form; `today` is the UTC date `YYYY-MM-DD`. */
  function BlankPaymentForm(today: string): (f: JsObject)
    ensures Get(f, Amount) == Str("") && Get(f, Remark) == Str("")
    ensures Get(f, PaymentType) == Str("salary") && Get(f, PaymentDate) == Str(today)
    ensures f.Keys == {Amount, PaymentDate, PaymentType, Remark}
  {
    map[Amount := Str(""), PaymentDate := Str(today), PaymentType := Str("salary"), Remark := Str("")]
  }

  /** `!amount || parseFloat(amount) <= 0`, the comparison decided on the
      exact value, fraction included ("0.5" passes); a NaN amount is not
      below 0, so it is let through. */
  predicate InvalidAmount(amount: JsValue) {
    !Truthy(amount) || (ParseFloatSignOf(amount).Some? && ParseFloatSignOf(amount).value <= 0)
  }

  /** What `handleAddPayment` leads to: the body sent (if any), the form
      afterwards and whether the dialog closed. */
  datatype AddResult = AddResult(sent: Option<JsObject>, form: JsObject, closed: bool)

  /** `handleAddPayment`: an empty or non-positive amount is refused; else
      the form is sent with the amount parsed; once the server accepts it
      the dialog closes and the form is reset; a failure keeps both. */
  function HandleAddPayment(f: JsObject, today: string, accepted: bool): (r: AddResult)
    ensures r.sent.None? <==> InvalidAmount(Get(f, Amount))
    ensures r.sent.Some? ==>
      Get(r.sent.value, Amount) == NumValue(ParseFloatOf(Get(f, Amount))) &&
      forall k :: k != Amount ==> Get(r.sent.value, k) == Get(f, k)
    ensures r.closed <==> r.sent.Some? && accepted
    ensures r.closed ==> r.form == BlankPaymentForm(today)
    ensures !r.closed ==> r.form == f
  {
    if InvalidAmount(Get(f, Amount)) then AddResult(None, f, false)
    else
      var body := f[Amount := NumValue(ParseFloatOf(Get(f, Amount)))];
      if accepted then AddResult(Some(body), BlankPaymentForm(today), true)
      else AddResult(Some(body), f, false)
  }

  /** An amount that is not a number passes the check and is sent as NaN. */
  lemma NaNAmountPasses(f: JsObject, today: string, accepted: bool)
    requires Get(f, Amount) == Str("abc")
    ensures HandleAddPayment(f, today, accepted).sent.Some?
    ensures Get(HandleAddPayment(f, today, accepted).sent.value, Amount) == NaN
  {
    assert LeadingDigits("abc") == [];
    assert TrimStart("abc") == "abc";
  }

  /** An amount below one is accepted, as the page accepts 0.5; what is
      sent is its whole part (see the note on fractions). */
  lemma FractionalAmountPasses(f: JsObject, today: string, accepted: bool)
    requires Get(f, Amount) == Str("0.5")
    ensures HandleAddPayment(f, today, accepted).sent.Some?
    ensures Get(HandleAddPayment(f, today, accepted).sent.value, Amount) == Num(0)
  {
    FractionSigns();
  }

  /** `payments.reduce((sum, p) => sum + parseFloat(p.amount), 0)`; None is
      NaN, which every later addition keeps. */
  function TotalPaid(payments: seq<JsObject>): Option<int> {
    if payments == [] then Some(0)
    else
      var before := TotalPaid(payments[..|payments| - 1]);
      var amount := ParseFloatOf(Get(payments[|payments| - 1], Amount));
      if before.Some? && amount.Some? then Some(before.value + amount.value) else None
  }

  predicate AmountParses(p: JsObject) {
    ParseFloatOf(Get(p, Amount)).Some?
  }

  function AmountOf(p: JsObject): int {
    ParseFloatOr0(Get(p, Amount))
  }

  /** The total is a number exactly when every amount parses, and then it is
      the sum of the amounts. */
  lemma {:induction false} TotalPaidIsSum(payments: seq<JsObject>)
    ensures TotalPaid(payments).Some? <==> forall i :: 0 <= i < |payments| ==> AmountParses(payments[i])
    ensures TotalPaid(payments).Some? ==> TotalPaid(payments).value == Sum(payments, AmountOf)
  {
    if payments != [] {
      var init := payments[..|payments| - 1];
      TotalPaidIsSum(init);
      assert forall i :: 0 <= i < |init| ==> init[i] == payments[i];
    }
  }

  /** The label key of a payment type. */
  function TypeLabel(t: JsValue): (key: string)
    ensures key in {"salary", "advance", "bonus", "other"}
    ensures key == "other" <==> t !in {Str("salary"), Str("advance"), Str("bonus")}
    ensures key != "other" ==> t == Str(key)
  {
    if t == Str("salary") then "salary"
    else if t == Str("advance") then "advance"
    else if t == Str("bonus") then "bonus"
    else "other"
  }
}

=== FILE: driverlist.dfy ===
/** The driver list's avatars: each card shows the driver's initials on a
    colour picked from a six-colour palette by the card's position. */
module DriverList {
  import opened Js
  import Identity

  /** `getInitials(name)`: 'D' for a missing or empty name, else the
      two-word initials shared with the sidebar. */
  function GetInitials(name: JsValue): (r: JsValue)
    requires Identity.IsNameValue(name)
    ensures !Truthy(name) ==> r == Str("D")
    ensures name.Str? && name.s != "" && ' ' !in name.s ==> r == Str([name.s[0]])
    ensures name.Str? && name.s != "" && Split(name.s, ' ')[0] != "" &&
            (|Split(name.s, ' ')| >= 2 ==> Split(name.s, ' ')[1] != "") ==>
              r == Str(Identity.CorrectedInitials(name, "D"))
  {
    assert name.Str? && name.s != "" && ' ' !in name.s ==>
           Identity.TwoWordInitials(name, "D") == Str([name.s[0]]) by {
      if name.Str? && name.s != "" && ' ' !in name.s {
        Identity.OneWordInitial(name.s, "D");
      }
    }
    assert name.Str? && name.s != "" && Split(name.s, ' ')[0] != "" &&
           (|Split(name.s, ' ')| >= 2 ==> Split(name.s, ' ')[1] != "") ==>
             Identity.TwoWordInitials(name, "D") == Str(Identity.CorrectedInitials(name, "D")) by {
      if name.Str? && name.s != "" && Split(name.s, ' ')[0] != "" &&
         (|Split(name.s, ' ')| >= 2 ==> Split(name.s, ' ')[1] != "") {
        Identity.WellSpacedNamesAgree(name.s, "D");
      }
    }
    Identity.TwoWordInitials(name, "D")
  }

  /** A driver saved as "John " (a trailing space) shows "Jundefined"
      where "J" was meant. */
  lemma SpacedNameShowsUndefined()
    ensures Rendered(GetInitials(Str("John "))) == "Jundefined"
    ensures Identity.CorrectedInitials(Str("John "), "D") == "J"
  {
    Identity.TrailingSpaceShowsUndefined("D");
  }

  /** The avatar palette. */
  const Palette: seq<string> := ["#3b82f6", "#10b981", "#f59e0b", "#ef4444", "#8b5cf6", "#ec4899"]

  /** `getAvatarColor(index)`: the palette colour at `index mod 6`. */
  function AvatarColor(index: nat): (c: string)
    ensures c in Palette
  {
    Palette[index % |Palette|]
  }

  /** The colours repeat every six cards, and within any six consecutive
      cards no colour repeats. */
  lemma AvatarColorsCycle(index: nat)
    ensures AvatarColor(index + 6) == AvatarColor(index)
    ensures forall j: nat :: index < j < index + 6 ==> AvatarColor(j) != AvatarColor(index)
  {
    assert (index + 6) % 6 == index % 6;
    forall j: nat | index < j < index + 6
      ensures AvatarColor(j) != AvatarColor(index)
    {
      var d := j - index;
      assert j % 6 == (index % 6 + d) % 6;
      assert j % 6 != index % 6;
    }
  }
}

=== FILE: editprofile.dfy ===
/** The edit-profile page: the form loaded from the profile, the picture
    size check, and the save handler that adds the password change only when
    asked for and confirmed. */
module EditProfile {
  import opened Js
  import Server

  type Form = JsObject

  /** The largest picture accepted: 2 MB. */
  const MaxImageBytes: nat := 2 * 1024 * 1024

  /** The profile columns the form edits. */
  const FormKeys: set<Key> := {FullName, Mobile, MobileSecondary, CountryCode, ProfilePicture}

  /** The form once the profile has loaded: each field from the profile, ''
      when missing or empty, and the country code '+91' when missing. */
  function Loaded(profile: JsObject): (f: Form)
    ensures f.Keys == FormKeys
    ensures forall k :: k in FormKeys && Truthy(Get(profile, k)) ==> f[k] == Get(profile, k)
    ensures forall k :: k in FormKeys && k != CountryCode && !Truthy(Get(profile, k)) ==> f[k] == Str("")
    ensures !Truthy(Get(profile, CountryCode)) ==> f[CountryCode] == Str("+91")
  {
    map[FullName := Or(Get(profile, FullName), Str("")),
        Mobile := Or(Get(profile, Mobile), Str("")),
        MobileSecondary := Or(Get(profile, MobileSecondary), Str("")),
        CountryCode := Or(Get(profile, CountryCode), Str("+91")),
        ProfilePicture := Or(Get(profile, ProfilePicture), Str(""))]
  }

  /** A chosen picture: its size in bytes and the data URL it reads as. */
  datatype Image = Image(size: nat, dataUrl: string)

  datatype ImageChange = NoFile | TooLarge | Stored(form: Form)

  /** `handleImageChange`: nothing without a file; a picture over 2 MB is
      refused with the form unchanged; otherwise it becomes the profile
      picture and nothing else changes. */
  function HandleImageChange(f: Form, file: Option<Image>): (c: ImageChange)
    ensures file.None? <==> c == NoFile
    ensures c == TooLarge <==> file.Some? && file.value.size > MaxImageBytes
    ensures c.Stored? ==> Get(c.form, ProfilePicture) == Str(file.value.dataUrl)
    ensures c.Stored? ==> forall k :: k != ProfilePicture ==> Get(c.form, k) == Get(f, k)
  {
    if file.None? then NoFile
    else if file.value.size > MaxImageBytes then TooLarge
    else Stored(f[ProfilePicture := Str(file.value.dataUrl)])
  }

  /** What the save button does: refused, aborted on mismatched new
      passwords, or the update sent. */
  datatype Save = Refused | Mismatch | Sent(payload: JsObject)

  /** Whether the save carries a password change: the section is open and a
      new password is typed. */
  predicate ChangesPassword(passwords: JsObject, showPasswordFields: bool) {
    showPasswordFields && Truthy(Get(passwords, NewPassword))
  }

  /** What `handleSave` decides. */
  function SaveOutcome(f: Form, passwords: JsObject, showPasswordFields: bool): (s: Save)
    ensures s == Refused <==> !Truthy(Get(f, FullName)) || !Truthy(Get(f, Mobile))
    ensures s == Mismatch <==>
      Truthy(Get(f, FullName)) && Truthy(Get(f, Mobile)) &&
      ChangesPassword(passwords, showPasswordFields) && Get(passwords, NewPassword) != Get(passwords, ConfirmPassword)
    ensures s.Sent? ==> forall k :: k != CurrentPassword && k != NewPassword ==> Get(s.payload, k) == Get(f, k)
    ensures s.Sent? && ChangesPassword(passwords, showPasswordFields) ==>
      Get(s.payload, CurrentPassword) == Get(passwords, CurrentPassword) &&
      Get(s.payload, NewPassword) == Get(passwords, NewPassword) == Get(passwords, ConfirmPassword)
    ensures s.Sent? && !ChangesPassword(passwords, showPasswordFields) ==> s.payload == f
  {
    if !Truthy(Get(f, FullName)) || !Truthy(Get(f, Mobile)) then Refused
    else if !ChangesPassword(passwords, showPasswordFields) then Sent(f)
    else if Get(passwords, NewPassword) != Get(passwords, ConfirmPassword) then Mismatch
    else Sent(f[CurrentPassword := Get(passwords, CurrentPassword)][NewPassword := Get(passwords, NewPassword)])
  }

  /** `handleSave`: checks the name and mobile, copies the form, and assigns
      the password fields onto the copy when a confirmed change is asked
      for. */
  method HandleSave(f: Form, passwords: JsObject, showPasswordFields: bool) returns (s: Save)
    ensures s == SaveOutcome(f, passwords, showPasswordFields)
  {
    if !Truthy(Get(f, FullName)) || !Truthy(Get(f, Mobile)) {
      return Refused;
    }
    var payload := f;
    if showPasswordFields && Truthy(Get(passwords, NewPassword)) {
      if Get(passwords, NewPassword) != Get(passwords, ConfirmPassword) {
        return Mismatch;
      }
      payload := payload[CurrentPassword := Get(passwords, CurrentPassword)];
      payload := payload[NewPassword := Get(passwords, NewPassword)];
    }
    s := Sent(payload);
  }

  /** A sent update always names columns to set, so the server never answers
      "No fields to update" to this page. */
  lemma SentUpdateHasFields(f: Form, passwords: JsObject, showPasswordFields: bool)
    requires SaveOutcome(f, passwords, showPasswordFields).Sent?
    ensures Server.ProfileFields(SaveOutcome(f, passwords, showPasswordFields).payload) != []
  {
    var payload := SaveOutcome(f, passwords, showPasswordFields).payload;
    assert Server.Supplied(payload, FullName).Some?;
  }

  /** A form that carries no new password of its own (as a loaded form,
      whose keys are the profile columns) makes the server run its password
      step exactly when a confirmed change is sent; with the section closed
      the stored password is left alone. */
  lemma PasswordStepOnlyWhenAsked(f: Form, passwords: JsObject, showPasswordFields: bool,
                                  storedHash: JsValue, currentMatches: bool, newHash: string)
    requires NewPassword !in f
    requires SaveOutcome(f, passwords, showPasswordFields).Sent?
    ensures var payload := SaveOutcome(f, passwords, showPasswordFields).payload;
      Server.PasswordStep(payload, storedHash, currentMatches, newHash).Some? <==> ChangesPassword(passwords, showPasswordFields)
  {
    var payload := SaveOutcome(f, passwords, showPasswordFields).payload;
    if ChangesPassword(passwords, showPasswordFields) {
      assert Get(payload, NewPassword) == Get(passwords, NewPassword);
    } else {
      assert payload == f;
    }
  }
}

=== FILE: expenseform.dfy ===
/** The add-expense form: its defaults, the category buttons and their
    highlight, and the save handler's checks and payload. The buttons store
    lower-case categories, which the dashboard's breakdown files under
    miscellaneous. */
module ExpenseForm {
  import opened Js
  import Dashboard

  type Form = JsObject

  /** The category buttons, in order. */
  const CategoryButtons: seq<string> := ["tyre", "repair", "service", "other"]

  /** The form an expense starts with: category 'Repair', today's date, the
      rest empty. */
  function InitialForm(today: string): (f: Form)
    ensures f.Keys == {TruckId, Category, Amount, ExpenseDate, Description}
    ensures f[Category] == Str("Repair") && f[ExpenseDate] == Str(today)
    ensures f[TruckId] == Str("") && f[Amount] == Str("") && f[Description] == Str("")
  {
    map[TruckId := Str(""), Category := Str("Repair"), Amount := Str(""), ExpenseDate := Str(today),
        Description := Str("")]
  }

  /** Once the trucks load, the first one is selected, if there is one. */
  function WithTrucks(f: Form, trucks: seq<JsObject>): (r: Form)
    ensures trucks != [] ==> Get(r, TruckId) == Get(trucks[0], Id)
    ensures trucks == [] ==> r == f
    ensures forall k :: k != TruckId ==> Get(r, k) == Get(f, k)
  {
    if |trucks| > 0 then f[TruckId := Get(trucks[0], Id)] else f
  }

  /** A category button stores its (lower-case) name and nothing else. */
  function PickCategory(f: Form, category: string): (r: Form)
    ensures Get(r, Category) == Str(category)
    ensures forall k :: k != Category ==> Get(r, k) == Get(f, k)
  {
    f[Category := Str(category)]
  }

  /** `formData.category.toLowerCase() === type`: the highlighted button. */
  predicate Highlighted(f: Form, button: string)
    requires Get(f, Category).Str?
  {
    ToLower(Get(f, Category).s) == button
  }

  /** The default 'Repair' highlights the 'repair' button and no other. */
  lemma DefaultHighlightsRepair(today: string)
    ensures forall i :: 0 <= i < |CategoryButtons| ==>
      (Highlighted(InitialForm(today), CategoryButtons[i]) <==> CategoryButtons[i] == "repair")
  {
    assert ToLower("Repair") == "repair";
  }

  /** After a button is pressed it is the only one highlighted. */
  lemma PickedButtonAlone(f: Form, i: nat)
    requires i < |CategoryButtons|
    ensures forall j :: 0 <= j < |CategoryButtons| ==>
      (Highlighted(PickCategory(f, CategoryButtons[i]), CategoryButtons[j]) <==> j == i)
  {
    var r := PickCategory(f, CategoryButtons[i]);
    assert Get(r, Category) == Str(CategoryButtons[i]);
    ButtonsAreLowerCase();
    assert ToLower(Get(r, Category).s) == CategoryButtons[i];
    ButtonsDistinct();
  }

  /** No two buttons store the same category. */
  lemma ButtonsDistinct()
    ensures forall i, j :: 0 <= i < |CategoryButtons| && 0 <= j < |CategoryButtons| && CategoryButtons[i] == CategoryButtons[j] ==> i == j
  {
    var initials := "trso";
    assert forall j :: 0 <= j < |CategoryButtons| ==> CategoryButtons[j] != "" && CategoryButtons[j][0] == initials[j];
  }

  /** Every button's name is already lower case. */
  lemma ButtonsAreLowerCase()
    ensures forall j :: 0 <= j < |CategoryButtons| ==> ToLower(CategoryButtons[j]) == CategoryButtons[j]
  {
    forall j | 0 <= j < |CategoryButtons|
      ensures ToLower(CategoryButtons[j]) == CategoryButtons[j]
    {
      LowerCaseUnchanged(CategoryButtons[j]);
    }
  }

  /** What the save button does. */
  datatype Save = Refused | Submit(payload: JsObject)

  /** `handleSave`: refused without a truck or an amount; otherwise the form
      is sent with the amount parsed and every other field as it is. */
  function HandleSave(f: Form): (s: Save)
    ensures s.Refused? <==> !Truthy(Get(f, TruckId)) || !Truthy(Get(f, Amount))
    ensures s.Submit? ==> Get(s.payload, Amount) == NumValue(ParseFloatOf(Get(f, Amount)))
    ensures s.Submit? ==> forall k :: k != Amount ==> Get(s.payload, k) == Get(f, k)
  {
    if !Truthy(Get(f, TruckId)) || !Truthy(Get(f, Amount)) then Refused
    else Submit(f[Amount := NumValue(ParseFloatOf(Get(f, Amount)))])
  }

  /** An expense saved with a category button (stored as sent) counts in the
      dashboard's miscellaneous share, never in maintenance, even for the
      'tyre', 'repair' and 'service' buttons. */
  lemma ButtonCategoriesLandInMisc(f: Form, i: nat)
    requires i < |CategoryButtons|
    requires HandleSave(PickCategory(f, CategoryButtons[i])).Submit?
    ensures var row := HandleSave(PickCategory(f, CategoryButtons[i])).payload;
      Dashboard.MiscAmount(row) == Dashboard.AmountOf(row) && Dashboard.MaintenanceAmount(row) == 0
  {
    var row := HandleSave(PickCategory(f, CategoryButtons[i])).payload;
    Dashboard.UnlistedCategoryIsMisc(row);
  }

  /** An expense saved with the untouched default category counts as
      maintenance. */
  lemma DefaultCategoryIsMaintenance(today: string, trucks: seq<JsObject>, amount: string)
    requires HandleSave(WithTrucks(InitialForm(today), trucks)[Amount := Str(amount)]).Submit?
    ensures var row := HandleSave(WithTrucks(InitialForm(today), trucks)[Amount := Str(amount)]).payload;
      Dashboard.MaintenanceAmount(row) == Dashboard.AmountOf(row) && Dashboard.MiscAmount(row) == 0
  {
    var f := WithTrucks(InitialForm(today), trucks)[Amount := Str(amount)];
    assert Get(f, Category) == Str("Repair");
    var row := HandleSave(f).payload;
    assert Get(row, Category) == Str("Repair");
    assert Dashboard.CategoryOf(row) == Str("Repair");
  }
}

=== FILE: expenselist.dfy ===
/** The expense list page: the fetched list, its total, the icon each
    category gets and the empty state. */
module ExpenseList {
  import opened Js
  import Dashboard

  type Row = JsObject

  /** `getTotalExpenses()`: the sum of the amounts, each read with
      `Number(x) || 0`; the same total the dashboard's breakdown splits into
      maintenance, salary and miscellaneous. */
  function TotalExpenses(expenses: seq<Row>): (total: int)
    ensures expenses == [] ==> total == 0
    ensures total == Sum(expenses, Dashboard.MaintenanceAmount) + Sum(expenses, Dashboard.SalaryAmount) +
      Sum(expenses, Dashboard.MiscAmount)
  {
    Dashboard.BreakdownTotal(expenses);
    Sum(expenses, Dashboard.AmountOf)
  }

  /** The category as the page reads it: a text or missing. */
  predicate IsCategoryValue(v: JsValue) {
    v.Str? || v == Undefined || v == Null
  }

  /** `category?.toLowerCase()`, undefined for a missing category. */
  function Lowered(category: JsValue): (v: JsValue)
    requires IsCategoryValue(category)
  {
    if category.Str? then Str(ToLower(category.s)) else Undefined
  }

  /** The card's icon: 'build' for repair, 'tire_repair' for tyre,
      'settings' for service, in any letter case, else 'payments'. */
  function CategoryIcon(category: JsValue): (icon: string)
    requires IsCategoryValue(category)
    ensures Lowered(category) == Str("repair") ==> icon == "build"
    ensures Lowered(category) == Str("tyre") ==> icon == "tire_repair"
    ensures Lowered(category) == Str("service") ==> icon == "settings"
    ensures Lowered(category) !in {Str("repair"), Str("tyre"), Str("service")} ==> icon == "payments"
  {
    var lowered := Lowered(category);
    if StrictEquals(lowered, Str("repair")) then "build"
    else if StrictEquals(lowered, Str("tyre")) then "tire_repair"
    else if StrictEquals(lowered, Str("service")) then "settings"
    else "payments"
  }

  /** The icon ignores letter case: 'Repair', 'REPAIR' and 'repair' get the
      same one. */
  lemma IconIgnoresCase(s: string)
    ensures CategoryIcon(Str(s)) == CategoryIcon(Str(ToLower(s)))
  {
    ToLowerIdempotent(s);
  }

  /** What the list area shows. */
  datatype Listing = EmptyState | Cards(expenses: seq<Row>)

  /** The cards of a non-empty list; the empty state exactly when the list is
      empty. */
  function View(expenses: seq<Row>): (v: Listing)
    ensures v == EmptyState <==> expenses == []
    ensures v.Cards? ==> v.expenses == expenses
  {
    if |expenses| > 0 then Cards(expenses) else EmptyState
  }

  /** A null reply shows the empty state with a total of 0. */
  lemma NullReplyIsEmpty()
    ensures View(ListOrEmpty<Row>(None)) == EmptyState
    ensures TotalExpenses(ListOrEmpty<Row>(None)) == 0
  {
  }
}

=== FILE: fuelexpenselist.dfy ===
/** The fuel log page: the total spend, deleting a log, and the captions a
    log card falls back to. */
module FuelExpenseList {
  import opened Js
  import Dashboard

  type Row = JsObject

  /** `getTotalFuelSpend()`: the sum of the amounts, each read with
      `Number(x) || 0`; the dashboard's fuel cost over every truck. */
  function TotalFuelSpend(expenses: seq<Row>): (total: int)
    ensures expenses == [] ==> total == 0
    ensures total == Dashboard.CurrentStats([], expenses, Str("all")).fuelCost
  {
    Sum(expenses, Dashboard.AmountOf)
  }

  /** `e.id !== id` */
  predicate Kept(e: Row, id: JsValue) {
    !StrictEquals(Get(e, Id), id)
  }

  /** `handleDelete(id)`: with the deletion confirmed and accepted by the
      server, the logs whose id is strictly equal to `id` go and the others
      stay in order; otherwise the list is unchanged. */
  function HandleDelete(expenses: seq<Row>, id: JsValue, confirmed: bool, deleted: bool): (r: seq<Row>)
    ensures !confirmed || !deleted ==> r == expenses
    ensures confirmed && deleted ==> forall e :: e in r <==> e in expenses && Kept(e, id)
    ensures confirmed && deleted ==> r == Filter(expenses, e => Kept(e, id))
    ensures IsSubsequence(r, expenses)
  {
    if confirmed && deleted then
      FilterMembers(expenses, e => Kept(e, id));
      FilterSubsequence(expenses, e => Kept(e, id));
      Filter(expenses, e => Kept(e, id))
    else
      FilterAll(expenses, e => true);
      FilterSubsequence(expenses, e => true);
      expenses
  }

  /** A delete lowers the total by exactly the amounts of the logs it
      removed. */
  lemma DeleteLowersTotal(expenses: seq<Row>, id: JsValue)
    ensures TotalFuelSpend(HandleDelete(expenses, id, true, true)) ==
      TotalFuelSpend(expenses) - Sum(Filter(expenses, e => !Kept(e, id)), Dashboard.AmountOf)
  {
    var keep := (e: Row) => Kept(e, id);
    var gone := (e: Row) => !Kept(e, id);
    SumPartition(expenses, Dashboard.AmountOf, keep, gone);
    assert Sum(Filter(expenses, keep), Dashboard.AmountOf) + Sum(Filter(expenses, gone), Dashboard.AmountOf)
      == TotalFuelSpend(expenses);
    assert HandleDelete(expenses, id, true, true) == Filter(expenses, keep);
  }

  /** The pump caption: the pump's name, or the 'local' message. */
  function PumpCaption(expense: Row): (c: Caption)
    ensures Truthy(Get(expense, PumpName)) ==> c == Plain(JsString(Get(expense, PumpName)))
    ensures !Truthy(Get(expense, PumpName)) ==> c == Message("local")
  {
    if Truthy(Get(expense, PumpName)) then Plain(JsString(Get(expense, PumpName))) else Message("local")
  }

  /** The filled-by caption: the driver's name, or the 'self' message. */
  function FilledByCaption(expense: Row): (c: Caption)
    ensures Truthy(Get(expense, DriverName)) ==> c == Plain(JsString(Get(expense, DriverName)))
    ensures !Truthy(Get(expense, DriverName)) ==> c == Message("self")
  {
    if Truthy(Get(expense, DriverName)) then Plain(JsString(Get(expense, DriverName))) else Message("self")
  }
}

=== FILE: fuelform.dfy ===
/** The add-fuel-expense form: its defaults, the preselection once trucks
    and drivers load, the change handler with its "add new" sentinels, and
    the save handler's checks and payload. */
module FuelForm {
  import opened Js

  type Form = JsObject

  const ReceiptUrl: Key := Other("receipt_url")

  /** The form a new expense starts with; `today` is the current UTC date as
      `YYYY-MM-DD`. Filled by 'Self', everything else empty. */
  function InitialForm(today: string): (f: Form)
    ensures f.Keys == {TruckId, PumpId, ExpenseDate, Amount, Liters, FilledBy, DriverId, ReceiptUrl}
    ensures Get(f, FilledBy) == Str("Self") && Get(f, ExpenseDate) == Str(today)
    ensures forall k :: k in f && k != FilledBy && k != ExpenseDate ==> f[k] == Str("")
  {
    map[TruckId := Str(""), PumpId := Str(""), ExpenseDate := Str(today), Amount := Str(""),
        Liters := Str(""), FilledBy := Str("Self"), DriverId := Str(""), ReceiptUrl := Str("")]
  }

  /** Once the lists load, the first truck is selected, and the driver too
      when there is exactly one. */
  function WithFetched(f: Form, trucks: seq<JsObject>, drivers: seq<JsObject>): (r: Form)
    ensures trucks != [] ==> Get(r, TruckId) == Get(trucks[0], Id)
    ensures |drivers| == 1 ==> Get(r, DriverId) == Get(drivers[0], Id)
    ensures forall k :: (k != TruckId || trucks == []) && (k != DriverId || |drivers| != 1) ==> Get(r, k) == Get(f, k)
  {
    var withTruck := if |trucks| > 0 then f[TruckId := Get(trucks[0], Id)] else f;
    if |drivers| == 1 then withTruck[DriverId := Get(drivers[0], Id)] else withTruck
  }

  /** What a change does: leave for another page, or store a new form. */
  datatype Change = Navigate(path: string) | Update(form: Form)

  /** `handleChange`: choosing 'new_pump' or 'new_driver' leaves for the page
      that adds one, with the form as it was; any other change stores the
      value under its name and nothing else. */
  function HandleChange(f: Form, name: Key, value: JsValue): (c: Change)
    ensures name == PumpId && value == Str("new_pump") ==> c == Navigate("/add-petrol-pump")
    ensures name == DriverId && value == Str("new_driver") ==> c == Navigate("/add-driver")
    ensures c.Update? <==> !(name == PumpId && value == Str("new_pump")) && !(name == DriverId && value == Str("new_driver"))
    ensures c.Update? ==> Get(c.form, name) == value && forall k :: k != name ==> Get(c.form, k) == Get(f, k)
  {
    if name == PumpId && value == Str("new_pump") then Navigate("/add-petrol-pump")
    else if name == DriverId && value == Str("new_driver") then Navigate("/add-driver")
    else Update(f[name := value])
  }

  /** What the save button does. */
  datatype Save = Refused | Submit(payload: JsObject)

  /** `handleSave`: refused without a truck, an amount or the litres;
      otherwise the form is sent with amount and litres parsed, an empty
      pump as null, and the driver only when the fuel was filled by the
      driver. */
  function HandleSave(f: Form): (s: Save)
    ensures s.Refused? <==> !Truthy(Get(f, TruckId)) || !Truthy(Get(f, Amount)) || !Truthy(Get(f, Liters))
    ensures s.Submit? ==>
      Get(s.payload, Amount) == NumValue(ParseFloatOf(Get(f, Amount))) &&
      Get(s.payload, Liters) == NumValue(ParseFloatOf(Get(f, Liters))) &&
      Get(s.payload, PumpId) == (if Truthy(Get(f, PumpId)) then Get(f, PumpId) else Null) &&
      Get(s.payload, DriverId) == (if StrictEquals(Get(f, FilledBy), Str("Driver")) then Get(f, DriverId) else Null) &&
      forall k :: k != Amount && k != Liters && k != PumpId && k != DriverId ==> Get(s.payload, k) == Get(f, k)
  {
    if !Truthy(Get(f, TruckId)) || !Truthy(Get(f, Amount)) || !Truthy(Get(f, Liters)) then Refused
    else
      Submit(f[Amount := NumValue(ParseFloatOf(Get(f, Amount)))]
              [Liters := NumValue(ParseFloatOf(Get(f, Liters)))]
              [PumpId := Or(Get(f, PumpId), Null)]
              [DriverId := if StrictEquals(Get(f, FilledBy), Str("Driver")) then Get(f, DriverId) else Null])
  }

  /** The untouched form cannot be saved, whatever was preselected: the
      amount and litres are still empty. */
  lemma UntouchedFormRefused(today: string, trucks: seq<JsObject>, drivers: seq<JsObject>)
    ensures HandleSave(WithFetched(InitialForm(today), trucks, drivers)).Refused?
  {
    var f := InitialForm(today);
    assert Get(f, Amount) == Str("");
    assert Get(WithFetched(f, trucks, drivers), Amount) == Str("");
  }

  /** Fuel filled by 'Self' is sent without a driver, even when a sole
      driver was preselected or picked. */
  lemma SelfFilledSendsNoDriver(f: Form)
    requires Get(f, FilledBy) == Str("Self")
    requires HandleSave(f).Submit?
    ensures Get(HandleSave(f).payload, DriverId) == Null
  {
  }

  /** Typed amounts and litres reach the payload as the numbers typed. */
  lemma TypedNumbersSent(f: Form, amount: nat, liters: nat)
    requires Truthy(Get(f, TruckId))
    requires Get(f, Amount) == Str(IntToString(amount)) && Get(f, Liters) == Str(IntToString(liters))
    requires amount != 0 && liters != 0
    ensures HandleSave(f).Submit?
    ensures Get(HandleSave(f).payload, Amount) == Num(amount) && Get(HandleSave(f).payload, Liters) == Num(liters)
  {
    ParseFloatOfText(amount);
    ParseFloatOfText(liters);
  }
}

=== FILE: identity.dfy ===
/** How a person is shown in an avatar and a caption: the initials the
    driver list and the sidebar take from the first two space-separated words
    of a name, a corrected reading of them that skips empty words, and the
    phone text `<country code> <mobile>` the sidebar and the settings page
    show. */
module Identity {
  import opened Js

  /** A name as the pages read it: a text, or something falsy. Any other
      truthy value would make `name.split` throw. */
  predicate IsNameValue(v: JsValue) {
    v.Str? || !Truthy(v)
  }

  /** The initials as the driver list and the sidebar compute them: the
      fallback for a falsy name; with two or more pieces after splitting at
      each space, `names[0][0] + names[1][0]`; else `names[0][0]`. An empty
      piece's `[0]` is undefined, which `+` turns into the text
      "undefined" (or NaN when both are undefined). */
  function TwoWordInitials(name: JsValue, fallback: string): (r: JsValue)
    requires IsNameValue(name)
    ensures !Truthy(name) ==> r == Str(fallback)
    ensures Truthy(name) && Split(name.s, ' ')[0] != "" && |Split(name.s, ' ')| == 1 ==> r == Str([name.s[0]])
  {
    if !Truthy(name) then Str(fallback)
    else
      var names := Split(name.s, ' ');
      if |names| >= 2 then Plus(CharAt(names[0], 0), CharAt(names[1], 0))
      else JoinSplit(name.s, ' '); CharAt(names[0], 0)
  }

  /** A name without spaces shows its first character. */
  lemma OneWordInitial(name: string, fallback: string)
    requires name != "" && ' ' !in name
    ensures TwoWordInitials(Str(name), fallback) == Str([name[0]])
  {
    SplitWithoutSeparator(name, ' ');
  }

  predicate IsWord(w: string) {
    w != ""
  }

  /** The words of a name: the non-empty pieces between spaces, in order. */
  function Words(s: string): (ws: seq<string>)
    ensures forall i :: 0 <= i < |ws| ==> ws[i] != ""
  {
    FilterKeeps(Split(s, ' '), IsWord);
    Filter(Split(s, ' '), IsWord)
  }

  /** Words hold no space and only the name's own characters. */
  lemma WordsWithin(s: string)
    ensures forall w :: w in Words(s) ==> ' ' !in w && forall c :: c in w ==> c in s
  {
    FilterMembers(Split(s, ' '), IsWord);
    SplitPieces(s, ' ');
  }

  /** The initials as evidently intended: the first characters of the first
      two words, skipping the empty pieces extra spaces leave; the fallback
      for a falsy or blank name. */
  function CorrectedInitials(name: JsValue, fallback: string): (r: string)
    requires IsNameValue(name)
    ensures !Truthy(name) || Words(name.s) == [] ==> r == fallback
    ensures Truthy(name) && Words(name.s) != [] ==>
      1 <= |r| <= 2 && r[0] == Words(name.s)[0][0] &&
      (|Words(name.s)| >= 2 <==> |r| == 2)
  {
    if !Truthy(name) then fallback
    else
      var ws := Words(name.s);
      if ws == [] then fallback
      else if |ws| >= 2 then [ws[0][0], ws[1][0]]
      else [ws[0][0]]
  }

  /** The corrected initials never show a space or a character that is not
      in the name (no "undefined", no "NaN"), unless they are the fallback. */
  lemma CorrectedInitialsFromName(name: string, fallback: string)
    requires Words(name) != []
    ensures forall c :: c in CorrectedInitials(Str(name), fallback) ==> c in name && c != ' '
  {
    var ws := Words(name);
    WordsWithin(name);
    assert ws[0] in ws;
    if |ws| >= 2 {
      assert ws[1] in ws;
    }
  }

  /** Where the first two pieces are words (no leading, doubled or trailing
      space among them), the initials as written are the corrected ones. */
  lemma WellSpacedNamesAgree(name: string, fallback: string)
    requires name != ""
    requires Split(name, ' ')[0] != ""
    requires |Split(name, ' ')| >= 2 ==> Split(name, ' ')[1] != ""
    ensures TwoWordInitials(Str(name), fallback) == Str(CorrectedInitials(Str(name), fallback))
  {
    var pieces := Split(name, ' ');
    var ws := Words(name);
    if |pieces| >= 2 {
      FirstTwoWords(pieces);
      assert TwoWordInitials(Str(name), fallback) == Plus(Str([pieces[0][0]]), Str([pieces[1][0]]));
    } else {
      FilterAll(pieces, IsWord);
      assert ws == pieces;
    }
  }

  /** When the first two pieces are words they are the first two words. */
  lemma FirstTwoWords(pieces: seq<string>)
    requires |pieces| >= 2 && pieces[0] != "" && pieces[1] != ""
    ensures |Filter(pieces, IsWord)| >= 2
    ensures Filter(pieces, IsWord)[0] == pieces[0] && Filter(pieces, IsWord)[1] == pieces[1]
  {
    FilterCons(pieces, IsWord);
    FilterCons(pieces[1..], IsWord);
    assert pieces[1..][0] == pieces[1];
  }

  /** A trailing space shows "undefined" after the first initial, where one
      initial was meant. */
  lemma TrailingSpaceShowsUndefined(fallback: string)
    ensures Rendered(TwoWordInitials(Str("John "), fallback)) == "Jundefined"
    ensures CorrectedInitials(Str("John "), fallback) == "J"
  {
    TrailingSpacePieces();
    var names := Split("John ", ' ');
    assert CharAt(names[0], 0) == Str("J");
    assert CharAt(names[1], 0) == Undefined;
    assert Words("John ") == ["John"];
  }

  /** "John " splits into "John" and an empty piece, and has one word. */
  lemma TrailingSpacePieces()
    ensures Split("John ", ' ') == ["John", ""]
    ensures Words("John ") == ["John"]
  {
    var pieces := ["John", ""];
    WordThenSpace("John");
    assert "John" + " " == "John ";
    FilterCons(pieces, IsWord);
    FilterCons(pieces[1..], IsWord);
  }

  /** A word followed by one space splits into the word and an empty piece. */
  lemma {:induction false} WordThenSpace(w: string)
    requires ' ' !in w
    ensures Split(w + " ", ' ') == [w, ""]
  {
    if w == [] {
      assert w + " " == " ";
    } else {
      WordThenSpace(w[1..]);
      assert (w + " ")[1..] == w[1..] + " ";
      assert [w[0]] + w[1..] == w;
    }
  }

  /** A name of one space shows "NaN", where the fallback was meant. */
  lemma BlankNameShowsNaN(fallback: string)
    ensures Rendered(TwoWordInitials(Str(" "), fallback)) == "NaN"
    ensures CorrectedInitials(Str(" "), fallback) == fallback
  {
    var pieces := ["", ""];
    assert Split(" ", ' ') == pieces;
    FilterNone(pieces, IsWord);
  }

  /** `${country_code || '+91'} ${mobile}`: the country code (+91 when
      missing), one space, then the mobile number. */
  function PhoneText(profile: JsObject): (t: string)
    ensures var code := if Truthy(Get(profile, CountryCode)) then JsString(Get(profile, CountryCode)) else "+91";
      var mobile := JsString(Get(profile, Mobile));
      |t| == |code| + 1 + |mobile| && t[..|code|] == code && t[|code|] == ' ' && t[|code| + 1..] == mobile
  {
    JsString(Or(Get(profile, CountryCode), Str("+91"))) + " " + JsString(Get(profile, Mobile))
  }
}

=== FILE: js.dfy ===
/** The slice of JavaScript's value semantics that the fleet manager's pages and
    server rely on: dynamically typed values, truthiness (`||`, `!x`), the
    `Number(x)` / `parseFloat(x)` coercions with NaN, `String(x)`, string
    splitting, trimming and case mapping, and the `filter` / `reduce` folds. */
module Js {

  datatype Option<+T> = None | Some(value: T) {
    function GetOr(default: T): T {
      if Some? then value else default
    }
  }

  /** A JSON / JavaScript value. `Stamp(text, ms)` is a date or timestamp text
      that `new Date(...)` reads as the instant `ms` (milliseconds). Money and
      counts are whole numbers. */
  datatype JsValue =
    | Undefined
    | Null
    | Bool(b: bool)
    | Num(n: int)
    | NaN
    | Str(s: string)
    | Stamp(text: string, ms: int)

  /** A property name the application reads or writes (`TotalOrderValue` is
      `total_order_value`); `Other` is any other name a request may carry. */
  datatype Key =
    | Id | OwnerId | TruckId | TripId | DriverId | PumpId
    | TripDate | PaymentDate | ExpenseDate | CreatedAt | Date | Supplier
    | Client | Location | Source | Destination | Material | MaterialPrice
    | TripsCount | TotalOrderValue | ActualIncome | Profit | TotalExpense | Remark
    | Amount | PaidAmount | Status | PaymentStatus | Mode | Reminder
    | PaymentType | Type | TruckNumber | TruckModel | Model | PumpName
    | Liters | Rate | FilledBy | DriverName | Category | Description
    | Name | Mobile | MobilePrimary | MobileSecondary | Mobiles | LicenseNumber
    | BloodGroup | Salary | Advance | AssignedTruckId | PhotoUrl | AadharUrl
    | Address | FullName | Email | CountryCode | ProfilePicture | Role
    | TrialExpiresAt | IsBlocked | IsVerified | CurrentPassword | NewPassword | ConfirmPassword
    | PasswordHash
    | Other(name: string)

  /** What a page shows in a text slot: literal text, or the message the
      translation table holds under `key`. */
  datatype Caption = Plain(text: string) | Message(key: string)

  /** `data || []` on a fetched list, where None is a null reply. */
  function ListOrEmpty<T>(data: Option<seq<T>>): (xs: seq<T>)
    ensures data.None? ==> xs == []
    ensures data.Some? ==> xs == data.value
  {
    if data.Some? then data.value else []
  }

  /** A plain object: an API row, a form's state or a request payload. */
  type JsObject = map<Key, JsValue>

  /** `o[k]`, undefined when the key is absent. */
  function Get(o: JsObject, k: Key): JsValue {
    if k in o then o[k] else Undefined
  }

  /** `o?.k`: undefined when the object itself is missing. */
  function GetOpt(o: Option<JsObject>, k: Key): JsValue {
    if o.Some? then Get(o.value, k) else Undefined
  }

  predicate Truthy(v: JsValue) {
    match v
    case Undefined => false
    case Null => false
    case Bool(b) => b
    case Num(n) => n != 0
    case NaN => false
    case Str(s) => s != ""
    case Stamp(text, _) => text != ""
  }

  /** `a === b`: NaN equals nothing, not even itself. */
  predicate StrictEquals(a: JsValue, b: JsValue) {
    a == b && a != NaN
  }

  /** `a || b` */
  function Or(a: JsValue, b: JsValue): JsValue {
    if Truthy(a) then a else b
  }

  // ---------------------------------------------------------------------
  // Digits, String(n) and the numeric parsers

  predicate IsDigit(c: char) {
    '0' <= c <= '9'
  }

  predicate AllDigits(s: string) {
    forall i :: 0 <= i < |s| ==> IsDigit(s[i])
  }

  function DigitChar(d: nat): (c: char)
    requires d < 10
    ensures IsDigit(c)
  {
    ('0' as int + d) as char
  }

  /** Decimal value of a digit string (most significant digit first). */
  function DigitsValue(s: string): nat
    requires AllDigits(s)
  {
    if s == [] then 0
    else DigitsValue(s[..|s| - 1]) * 10 + (s[|s| - 1] as int - '0' as int)
  }

  /** `String(n)` for n >= 0: no sign, no leading zeros. */
  function NatToString(n: nat): (s: string)
    ensures |s| >= 1 && AllDigits(s)
    ensures n >= 10 ==> |s| >= 2
  {
    if n < 10 then [DigitChar(n)] else NatToString(n / 10) + [DigitChar(n % 10)]
  }

  /** `String(n)` for a whole number. */
  function IntToString(n: int): string {
    if n < 0 then "-" + NatToString(-n) else NatToString(n)
  }

  /** The characters `trim()` strips (ECMAScript WhiteSpace and
      LineTerminator): tab, line feed, vertical tab, form feed, carriage
      return, space, no-break space, the byte order mark, the other space
      separators of Unicode category Zs, and the line and paragraph
      separators. */
  predicate IsSpace(c: char) {
    var n := c as int;
    (0x09 <= n <= 0x0D) || n == 0x20 || n == 0xA0 || n == 0x1680 ||
    (0x2000 <= n <= 0x200A) || n == 0x2028 || n == 0x2029 || n == 0x202F ||
    n == 0x205F || n == 0x3000 || n == 0xFEFF
  }

  function TrimStart(s: string): string {
    if s != [] && IsSpace(s[0]) then TrimStart(s[1..]) else s
  }

  function TrimEnd(s: string): string {
    if s != [] && IsSpace(s[|s| - 1]) then TrimEnd(s[..|s| - 1]) else s
  }

  /** `s.trim()` */
  function Trim(s: string): string {
    TrimEnd(TrimStart(s))
  }

  /** The longest prefix of `s` made of digits. */
  function LeadingDigits(s: string): (p: string)
    ensures AllDigits(p) && |p| <= |s|
  {
    if s != [] && IsDigit(s[0]) then [s[0]] + LeadingDigits(s[1..]) else []
  }

  /** `parseFloat(s)`: leading white space, an optional sign, then the longest
      decimal numeral (digits, or a point followed by digits); None is NaN.
      Whole numbers only: the fractional part is dropped, truncating toward
      zero, so ".5" reads as 0 and "-12.5" as -12. `parseInt(s)` agrees with
      it except on a text starting with a point, which it reads as NaN. */
  function ParseFloat(s: string): Option<int> {
    var t := TrimStart(s);
    if t != [] && (t[0] == '-' || t[0] == '+') then
      var m := UnsignedPrefix(t[1..]);
      if m.Some? && t[0] == '-' then Some(-m.value) else m
    else UnsignedPrefix(t)
  }

  /** The whole part of the longest unsigned decimal numeral `s` starts
      with: digits, or a point and at least one digit. */
  function UnsignedPrefix(s: string): (r: Option<int>)
    ensures r.Some? ==> r.value >= 0
  {
    var d := LeadingDigits(s);
    if d != [] then Some(DigitsValue(d))
    else if |s| >= 2 && s[0] == '.' && IsDigit(s[1]) then Some(0)
    else None
  }

  /** An unsigned decimal numeral that makes up all of `u`: digits, digits
      and a point, or digits with a fractional part (`12`, `12.`, `12.50`,
      `.5`); its whole part. */
  function UnsignedDecimal(u: string): (r: Option<int>)
    ensures r.Some? ==> r.value >= 0
  {
    var whole := LeadingDigits(u);
    var rest := u[|whole|..];
    if rest == [] then (if whole == [] then None else Some(DigitsValue(whole)))
    else if rest[0] == '.' && AllDigits(rest[1..]) && (whole != [] || |rest| >= 2) then Some(DigitsValue(whole))
    else None
  }

  /** Whether some digit of `d` is not '0'. */
  predicate HasNonZeroDigit(d: string) {
    exists i :: 0 <= i < |d| && d[i] != '0'
  }

  /** A numeral of zeros only is worth 0. */
  lemma {:induction false} ZeroDigitsValue(d: string)
    requires AllDigits(d) && !HasNonZeroDigit(d)
    ensures DigitsValue(d) == 0
  {
    if d != [] {
      assert d[|d| - 1] == '0';
      var init := d[..|d| - 1];
      assert forall i :: 0 <= i < |init| ==> init[i] == d[i];
      ZeroDigitsValue(init);
    }
  }

  /** Whether the unsigned numeral at the start of `s` is not zero once its
      fraction counts: a digit other than '0' in its whole part or in the
      digits after its point. */
  function PrefixNonZero(s: string): (b: bool)
    ensures UnsignedPrefix(s).Some? && UnsignedPrefix(s).value > 0 ==> b
  {
    var d := LeadingDigits(s);
    var rest := s[|d|..];
    var inFraction := rest != [] && rest[0] == '.' && HasNonZeroDigit(LeadingDigits(rest[1..]));
    if HasNonZeroDigit(d) then true
    else
      ZeroDigitsValue(d);
      inFraction
  }

  /** The sign (-1, 0 or 1) of the exact number `parseFloat(s)` reads, its
      fraction included, so that "-0.5" is below zero and "0.5" above it;
      None for NaN. "-0" reads as negative zero, which is not below zero. */
  function ParseFloatSign(s: string): (r: Option<int>)
    ensures r.Some? <==> ParseFloat(s).Some?
    ensures r.Some? ==> -1 <= r.value <= 1
    ensures ParseFloat(s).Some? && ParseFloat(s).value > 0 ==> r == Some(1)
    ensures ParseFloat(s).Some? && ParseFloat(s).value < 0 ==> r == Some(-1)
  {
    var t := TrimStart(s);
    var signed := t != [] && (t[0] == '-' || t[0] == '+');
    var u := if signed then t[1..] else t;
    if UnsignedPrefix(u).None? then None
    else if !PrefixNonZero(u) then Some(0)
    else if signed && t[0] == '-' then Some(-1)
    else Some(1)
  }

  /** The sign of `parseFloat(v)`: of the number itself, or of its text. */
  function ParseFloatSignOf(v: JsValue): (r: Option<int>)
    ensures r.Some? <==> ParseFloatOf(v).Some?
    ensures ParseFloatOf(v).Some? && ParseFloatOf(v).value > 0 ==> r == Some(1)
    ensures ParseFloatOf(v).Some? && ParseFloatOf(v).value < 0 ==> r == Some(-1)
  {
    match v
    case Num(n) => Some(if n < 0 then -1 else if n == 0 then 0 else 1)
    case Str(s) => ParseFloatSign(s)
    case Stamp(text, _) => ParseFloatSign(text)
    case _ => None
  }

  /** The text `Number(s)` accepts once trimmed: an optional sign and a
      decimal numeral; the fraction is dropped, truncating toward zero. */
  function StrictNumber(t: string): Option<int> {
    if t != [] && (t[0] == '-' || t[0] == '+') then
      var m := UnsignedDecimal(t[1..]);
      if m.Some? && t[0] == '-' then Some(-m.value) else m
    else UnsignedDecimal(t)
  }

  /** `String(v)` */
  function JsString(v: JsValue): string {
    match v
    case Undefined => "undefined"
    case Null => "null"
    case Bool(b) => if b then "true" else "false"
    case Num(n) => IntToString(n)
    case NaN => "NaN"
    case Str(s) => s
    case Stamp(text, _) => text
  }

  /** `Number(v)`; None is NaN. */
  function ToNumber(v: JsValue): Option<int> {
    match v
    case Undefined => None
    case Null => Some(0)
    case Bool(b) => Some(if b then 1 else 0)
    case Num(n) => Some(n)
    case NaN => None
    case Str(s) => if Trim(s) == "" then Some(0) else StrictNumber(Trim(s))
    case Stamp(_, _) => None
  }

  /** `Number(v) || 0`: NaN counts as 0. */
  function NumberOr0(v: JsValue): int {
    ToNumber(v).GetOr(0)
  }

  /** `parseFloat(v)` on any value. It reads `String(v)`, so a number parses
      to itself and the other non-text values to NaN; `ParseFloatOfString`
      proves the two readings agree. */
  function ParseFloatOf(v: JsValue): Option<int> {
    match v
    case Num(n) => Some(n)
    case Str(s) => ParseFloat(s)
    case Stamp(text, _) => ParseFloat(text)
    case _ => None
  }

  /** `parseFloat(v) || 0` */
  function ParseFloatOr0(v: JsValue): int {
    ParseFloatOf(v).GetOr(0)
  }

  /** A number produced by arithmetic: NaN when the operand was NaN. */
  function NumValue(o: Option<int>): JsValue {
    if o.Some? then Num(o.value) else NaN
  }

  /** `new Date(v)`, as an instant; None is an Invalid Date. Text other than
      a date text is an Invalid Date. */
  function ToInstant(v: JsValue): Option<int> {
    match v
    case Undefined => None
    case Null => Some(0)
    case Bool(b) => Some(if b then 1 else 0)
    case Num(n) => Some(n)
    case NaN => None
    case Str(_) => None
    case Stamp(_, ms) => Some(ms)
  }

  lemma {:induction false} DigitsValueAppend(s: string, c: char)
    requires AllDigits(s) && IsDigit(c)
    ensures AllDigits(s + [c])
    ensures DigitsValue(s + [c]) == DigitsValue(s) * 10 + (c as int - '0' as int)
  {
    assert (s + [c])[..|s + [c]| - 1] == s;
  }

  /** Reading back what `String(n)` printed gives n. */
  lemma {:induction false} NatToStringValue(n: nat)
    ensures DigitsValue(NatToString(n)) == n
    decreases n
  {
    if n >= 10 {
      NatToStringValue(n / 10);
      DigitsValueAppend(NatToString(n / 10), DigitChar(n % 10));
    }
  }

  lemma {:induction false} LeadingDigitsAll(s: string)
    requires AllDigits(s)
    ensures LeadingDigits(s) == s
  {
    if s != [] {
      LeadingDigitsAll(s[1..]);
    }
  }

  lemma TrimStartKeeps(s: string)
    requires s != [] && !IsSpace(s[0])
    ensures TrimStart(s) == s
  {
  }

  /** Text made only of white space trims to nothing. */
  lemma {:induction false} TrimBlank(s: string)
    requires forall i :: 0 <= i < |s| ==> IsSpace(s[i])
    ensures TrimStart(s) == "" && Trim(s) == ""
  {
    if s != [] {
      TrimBlank(s[1..]);
    }
  }

  /** `parseFloat(String(n)) == n`: the form code stores computed numbers as
      text and parses them again. */
  lemma ParseFloatIntToString(n: int)
    ensures ParseFloat(IntToString(n)) == Some(n)
  {
    if n < 0 {
      NegativeIntToString(n);
    } else {
      NatToStringReads(n);
    }
  }

  lemma NegativeIntToString(n: int)
    requires n < 0
    ensures ParseFloat(IntToString(n)) == Some(n)
  {
    var s := IntToString(n);
    var d := NatToString(-n);
    assert s == "-" + d;
    assert s[0] == '-' && s[1..] == d;
    TrimStartKeeps(s);
    LeadingDigitsAll(d);
    NatToStringValue(-n);
    assert UnsignedPrefix(d) == Some(-n);
  }

  lemma NatToStringReads(n: nat)
    ensures ParseFloat(IntToString(n)) == Some(n)
  {
    var s := IntToString(n);
    TrimStartKeeps(s);
    LeadingDigitsAll(s);
    NatToStringValue(n);
  }

  /** `ParseFloatOf` is `parseFloat(String(v))`. */
  lemma ParseFloatOfString(v: JsValue)
    ensures ParseFloatOf(v) == ParseFloat(JsString(v))
  {
    match v {
      case Num(n) => ParseFloatIntToString(n);
      case Undefined => assert TrimStart("undefined") == "undefined";
      case Null => assert TrimStart("null") == "null";
      case NaN => assert TrimStart("NaN") == "NaN";
      case Bool(b) =>
        if b { assert TrimStart("true") == "true"; } else { assert TrimStart("false") == "false"; }
      case Str(_) =>
      case Stamp(_, _) =>
    }
  }

  /** Parsing the text `(n).toString()` gives n back. */
  lemma ParseFloatOfText(n: int)
    ensures ParseFloatOr0(Str(IntToString(n))) == n
  {
    ParseFloatIntToString(n);
  }

  /** Decimal text, the form the database returns DECIMAL columns in, reads
      as its whole part; a lone point or a second point is NaN. */
  lemma DecimalTextReads()
    ensures NumberOr0(Str("250.00")) == 250
    ensures ToNumber(Str(" -12.5 ")) == Some(-12)
    ensures ToNumber(Str(".")).None? && ToNumber(Str("1.2.3")).None?
    ensures ParseFloat(".5") == Some(0) && ParseFloat("12.5kg") == Some(12)
  {
    DecimalAmount();
    NegativeDecimal();
    MalformedDecimals();
    DecimalPrefixes();
  }

  /** A whole amount printed with two decimals, as a DECIMAL(10,2) column
      returns it, reads as that amount. */
  lemma WholeDecimalText(n: nat)
    ensures ToNumber(Str(NatToString(n) + ".00")) == Some(n)
  {
    var d := NatToString(n);
    var s := d + ".00";
    TrimStartKeeps(s);
    assert s[|s| - 1] == '0';
    assert TrimEnd(s) == s;
    assert s[0] == d[0];
    assert s == d + "." + "00";
    LeadingDigitsThenPoint(d, "00");
    assert s[|d|..] == ".00";
    assert AllDigits(".00"[1..]);
    assert Trim(s) == s;
    assert IsDigit(s[0]);
    assert UnsignedDecimal(s) == Some(DigitsValue(d));
    NatToStringValue(n);
  }

  /** The digits before a point are the leading digits. */
  lemma {:induction false} LeadingDigitsThenPoint(d: string, fraction: string)
    requires AllDigits(d)
    ensures LeadingDigits(d + "." + fraction) == d
  {
    if d != [] {
      assert (d + "." + fraction)[1..] == d[1..] + "." + fraction;
      LeadingDigitsThenPoint(d[1..], fraction);
    }
  }

  lemma DecimalAmount()
    ensures NumberOr0(Str("250.00")) == 250
  {
    assert TrimStart("250.00") == "250.00";
    assert TrimEnd("250.00") == "250.00";
    assert LeadingDigits("250.00") == "250";
    assert "250.00"[3..] == ".00";
    assert "250"[..2] == "25" && "25"[..1] == "2" && "2"[..0] == "";
  }

  lemma NegativeDecimal()
    ensures ToNumber(Str(" -12.5 ")) == Some(-12)
  {
    assert TrimStart(" -12.5 ") == "-12.5 ";
    assert TrimEnd("-12.5 ") == "-12.5" by {
      assert "-12.5 "[..5] == "-12.5";
    }
    assert "-12.5"[1..] == "12.5";
    TwelveAndAHalf();
  }

  lemma TwelveAndAHalf()
    ensures UnsignedDecimal("12.5") == Some(12)
  {
    assert LeadingDigits("12.5") == "12";
    assert "12.5"[2..] == ".5";
    assert "12"[..1] == "1" && "1"[..0] == "";
  }

  lemma MalformedDecimals()
    ensures ToNumber(Str(".")).None? && ToNumber(Str("1.2.3")).None?
  {
    LonePoint();
    TwoPointsTrimmed();
    TwoPointsRefused();
  }

  lemma TwoPointsTrimmed()
    ensures Trim("1.2.3") == "1.2.3"
  {
    assert TrimStart("1.2.3") == "1.2.3";
    assert TrimEnd("1.2.3") == "1.2.3";
  }

  lemma TwoPointsRefused()
    ensures UnsignedDecimal("1.2.3").None?
  {
    assert LeadingDigits("1.2.3") == "1";
    assert "1.2.3"[1..] == ".2.3";
    assert ".2.3"[1..] == "2.3";
    assert "2.3"[1] == '.';
  }

  lemma LonePoint()
    ensures ToNumber(Str(".")).None?
  {
    assert TrimStart(".") == ".";
    assert TrimEnd(".") == ".";
    assert LeadingDigits(".") == "";
  }

  lemma DecimalPrefixes()
    ensures ParseFloat(".5") == Some(0) && ParseFloat("12.5kg") == Some(12)
  {
    assert LeadingDigits("12.5kg") == "12";
    assert "12"[..1] == "1" && "1"[..0] == "";
  }

  /** The sign counts the fraction that the value drops: "-0.5" and "0.5"
      both read as 0, yet the first is below zero and the second above it;
      "-0" is zero. */
  lemma FractionSigns()
    ensures ParseFloat("-0.5") == Some(0) && ParseFloatSign("-0.5") == Some(-1)
    ensures ParseFloat("0.5") == Some(0) && ParseFloatSign("0.5") == Some(1)
    ensures ParseFloatSign("-0") == Some(0)
  {
    HalfSign();
    assert TrimStart("-0.5") == "-0.5";
    assert "-0.5"[1..] == "0.5";
    assert TrimStart("-0") == "-0";
    assert "-0"[1..] == "0";
    assert LeadingDigits("0") == "0";
    assert !HasNonZeroDigit("0");
  }

  lemma HalfSign()
    ensures UnsignedPrefix("0.5") == Some(0) && PrefixNonZero("0.5")
  {
    assert LeadingDigits("0.5") == "0";
    assert "0.5"[1..] == ".5";
    assert ".5"[1..] == "5";
    assert LeadingDigits("5") == "5";
    assert "5"[0] != '0';
    assert "0"[..0] == "";
  }

  // ---------------------------------------------------------------------
  // Strings

  /** `s.split(sep)`: k separators give k + 1 pieces. */
  function Split(s: string, sep: char): (parts: seq<string>)
    ensures |parts| >= 1
  {
    if s == [] then [""]
    else
      var rest := Split(s[1..], sep);
      if s[0] == sep then [""] + rest else [[s[0]] + rest[0]] + rest[1..]
  }

  /** `parts.join(sep)` */
  function Join(parts: seq<string>, sep: string): string {
    if parts == [] then ""
    else if |parts| == 1 then parts[0]
    else parts[0] + sep + Join(parts[1..], sep)
  }

  /** Splitting and joining with the same separator gives the text back. */
  lemma {:induction false} JoinSplit(s: string, sep: char)
    ensures Join(Split(s, sep), [sep]) == s
  {
    if s != [] {
      var rest := Split(s[1..], sep);
      JoinSplit(s[1..], sep);
      if s[0] == sep {
        assert Split(s, sep) == [""] + rest;
      } else {
        var parts := [[s[0]] + rest[0]] + rest[1..];
        assert Split(s, sep) == parts;
        if |rest| == 1 {
          assert Join(parts, [sep]) == [s[0]] + rest[0];
        } else {
          assert parts[1..] == rest[1..];
          assert Join(rest, [sep]) == rest[0] + [sep] + Join(rest[1..], [sep]);
          assert Join(parts, [sep]) == [s[0]] + rest[0] + [sep] + Join(rest[1..], [sep]);
        }
      }
    }
  }

  /** No piece of a split holds the separator. */
  lemma {:induction false} SplitPiecesFree(s: string, sep: char)
    ensures forall i :: 0 <= i < |Split(s, sep)| ==> sep !in Split(s, sep)[i]
  {
    if s != [] {
      SplitPiecesFree(s[1..], sep);
    }
  }

  /** A text without the separator splits into itself alone. */
  lemma {:induction false} SplitWithoutSeparator(s: string, sep: char)
    requires sep !in s
    ensures Split(s, sep) == [s]
  {
    if s != [] {
      SplitWithoutSeparator(s[1..], sep);
      assert [s[0]] + s[1..] == s;
    }
  }

  /** Every piece of a split is free of the separator and made of the
      text's own characters. */
  lemma {:induction false} SplitPieces(s: string, sep: char)
    ensures forall w :: w in Split(s, sep) ==> sep !in w && forall c :: c in w ==> c in s
  {
    if s != [] {
      SplitPieces(s[1..], sep);
      var rest := Split(s[1..], sep);
      if s[0] != sep {
        assert Split(s, sep) == [[s[0]] + rest[0]] + rest[1..];
        assert rest[0] in rest;
        forall w | w in rest[1..]
          ensures w in rest
        {
        }
      }
    }
  }

  /** Joining with no separator: the first part, then the rest joined. */
  lemma JoinUnseparated(parts: seq<string>)
    requires parts != []
    ensures Join(parts, "") == parts[0] + Join(parts[1..], "")
  {
    if |parts| == 1 {
      assert parts[1..] == [];
    }
  }

  /** `s[i]`: a one-character text, undefined past the end. */
  function CharAt(s: string, i: nat): (v: JsValue)
    ensures i < |s| ==> v == Str([s[i]])
    ensures i >= |s| ==> v == Undefined
  {
    if i < |s| then Str([s[i]]) else Undefined
  }

  /** `a + b`: text joined when either side is text, else numbers added
      (NaN when either is not a number). */
  function Plus(a: JsValue, b: JsValue): (r: JsValue)
    ensures a.Str? || b.Str? ==> r == Str(JsString(a) + JsString(b))
    ensures !(a.Str? || b.Str?) && ToNumber(a).Some? && ToNumber(b).Some? ==> r == Num(ToNumber(a).value + ToNumber(b).value)
    ensures !(a.Str? || b.Str?) && (ToNumber(a).None? || ToNumber(b).None?) ==> r == NaN
  {
    if a.Str? || b.Str? then Str(JsString(a) + JsString(b))
    else if ToNumber(a).Some? && ToNumber(b).Some? then Num(ToNumber(a).value + ToNumber(b).value)
    else NaN
  }

  /** The text React shows for a child value: nothing for undefined, null
      and booleans. */
  function Rendered(v: JsValue): (t: string)
    ensures v.Str? ==> t == v.s
    ensures v == Undefined || v == Null || v.Bool? ==> t == ""
  {
    match v
    case Undefined => ""
    case Null => ""
    case Bool(_) => ""
    case _ => JsString(v)
  }

  /** The lower case of a Basic Latin or Latin-1 capital letter (A-Z and
      U+00C0-U+00DE but the multiplication sign U+00D7); other characters
      are kept. */
  function LowerChar(c: char): char {
    if IsCapital(c) then (c as int + 32) as char else c
  }

  predicate IsCapital(c: char) {
    'A' <= c <= 'Z' || (0xC0 <= c as int <= 0xDE && c as int != 0xD7)
  }

  /** The upper case of a Basic Latin or Latin-1 small letter (a-z and
      U+00E0-U+00FE but the division sign U+00F7); other characters are
      kept. */
  function UpperChar(c: char): char {
    var n := c as int;
    if 'a' <= c <= 'z' || (0xE0 <= n <= 0xFE && n != 0xF7) then (n - 32) as char else c
  }

  /** `s.toLowerCase()` on Basic Latin and Latin-1 letters. */
  function ToLower(s: string): (r: string)
    ensures |r| == |s| && forall i :: 0 <= i < |s| ==> r[i] == LowerChar(s[i])
  {
    if s == [] then [] else [LowerChar(s[0])] + ToLower(s[1..])
  }

  /** `s.toUpperCase()` on Basic Latin and Latin-1 letters. */
  function ToUpper(s: string): (r: string)
    ensures |r| == |s| && forall i :: 0 <= i < |s| ==> r[i] == UpperChar(s[i])
  {
    if s == [] then [] else [UpperChar(s[0])] + ToUpper(s[1..])
  }

  /** `s.substring(0, n)` */
  function Take(s: string, n: nat): (r: string)
    ensures |r| <= n && |r| <= |s| && r == s[..|r|]
    ensures |s| >= n ==> |r| == n
    ensures |s| < n ==> r == s
  {
    if |s| <= n then s else s[..n]
  }

  // ---------------------------------------------------------------------
  // filter / reduce

  /** `xs.filter(p)` */
  function Filter<T>(xs: seq<T>, p: T -> bool): (r: seq<T>)
    ensures |r| <= |xs|
  {
    if xs == [] then []
    else Filter(xs[..|xs| - 1], p) + (if p(xs[|xs| - 1]) then [xs[|xs| - 1]] else [])
  }

  /** `xs.reduce((acc, x) => acc + f(x), 0)` */
  function Sum<T>(xs: seq<T>, f: T -> int): int {
    if xs == [] then 0 else Sum(xs[..|xs| - 1], f) + f(xs[|xs| - 1])
  }

  /** A sum of non-negative terms is not negative. */
  lemma {:induction false} SumNonNegative<T>(xs: seq<T>, f: T -> int)
    requires forall i :: 0 <= i < |xs| ==> f(xs[i]) >= 0
    ensures Sum(xs, f) >= 0
  {
    if xs != [] {
      SumNonNegative(xs[..|xs| - 1], f);
    }
  }

  /** `a` is `b` with some elements left out, order kept. */
  ghost predicate IsSubsequence<T>(a: seq<T>, b: seq<T>) {
    if a == [] then true
    else if b == [] then false
    else if a[|a| - 1] == b[|b| - 1] then IsSubsequence(a[..|a| - 1], b[..|b| - 1])
    else IsSubsequence(a, b[..|b| - 1])
  }

  /** What filter keeps: exactly the elements that pass, each in place. */
  lemma {:induction false} FilterMembers<T>(xs: seq<T>, p: T -> bool)
    ensures forall x :: x in Filter(xs, p) <==> x in xs && p(x)
  {
    if xs != [] {
      FilterMembers(xs[..|xs| - 1], p);
      assert xs == xs[..|xs| - 1] + [xs[|xs| - 1]];
    }
  }

  /** Every element filter keeps passes the test. */
  lemma {:induction false} FilterKeeps<T>(xs: seq<T>, p: T -> bool)
    ensures forall i :: 0 <= i < |Filter(xs, p)| ==> p(Filter(xs, p)[i])
  {
    if xs != [] {
      FilterKeeps(xs[..|xs| - 1], p);
    }
  }

  /** One element's membership in a filtered sequence. */
  lemma FilterMember<T>(xs: seq<T>, p: T -> bool, x: T)
    ensures x in Filter(xs, p) <==> x in xs && p(x)
  {
    FilterMembers(xs, p);
  }

  lemma {:induction false} FilterSubsequence<T>(xs: seq<T>, p: T -> bool)
    ensures IsSubsequence(Filter(xs, p), xs)
  {
    if xs != [] {
      var init := xs[..|xs| - 1];
      var last := xs[|xs| - 1];
      FilterSubsequence(init, p);
      var r := Filter(xs, p);
      if p(last) {
        assert r == Filter(init, p) + [last];
        assert r[..|r| - 1] == Filter(init, p);
      } else {
        assert r == Filter(init, p) + [];
        assert r == Filter(init, p);
        SubsequenceOfInit(r, xs);
      }
    }
  }

  lemma {:induction false} SubsequenceOfInit<T>(a: seq<T>, b: seq<T>)
    requires b != [] && IsSubsequence(a, b[..|b| - 1])
    ensures IsSubsequence(a, b)
    decreases |a| + |b|, 1
  {
    if a != [] && a[|a| - 1] == b[|b| - 1] {
      SubsequenceDropLast(a, b[..|b| - 1]);
    }
  }

  lemma {:induction false} SubsequenceDropLast<T>(a: seq<T>, b: seq<T>)
    requires a != [] && IsSubsequence(a, b)
    ensures IsSubsequence(a[..|a| - 1], b)
    decreases |a| + |b|, 0
  {
    if b == [] {
    } else if a[|a| - 1] == b[|b| - 1] {
      SubsequenceOfInit(a[..|a| - 1], b);
    } else {
      SubsequenceDropLast(a, b[..|b| - 1]);
      SubsequenceOfInit(a[..|a| - 1], b);
    }
  }

  /** A subsequence of a subsequence is a subsequence. */
  lemma {:induction false} SubsequenceTransitive<T>(a: seq<T>, b: seq<T>, c: seq<T>)
    requires IsSubsequence(a, b) && IsSubsequence(b, c)
    ensures IsSubsequence(a, c)
    decreases |a| + |b| + |c|
  {
    if a != [] && b != [] && c != [] {
      var a', b', c' := a[..|a| - 1], b[..|b| - 1], c[..|c| - 1];
      if b[|b| - 1] == c[|c| - 1] {
        if a[|a| - 1] == b[|b| - 1] {
          SubsequenceTransitive(a', b', c');
        } else {
          SubsequenceTransitive(a, b', c');
        }
      } else {
        SubsequenceTransitive(a, b, c');
        if a[|a| - 1] == c[|c| - 1] {
          SubsequenceDropLast(a, c');
        }
      }
    }
  }

  /** Filtering by two tests in turn, a second time, changes nothing. */
  lemma FilterTwiceIdempotent<T>(xs: seq<T>, p: T -> bool, q: T -> bool)
    ensures Filter(Filter(Filter(Filter(xs, p), q), p), q) == Filter(Filter(xs, p), q)
  {
    var ys := Filter(Filter(xs, p), q);
    forall i | 0 <= i < |ys| ensures p(ys[i]) && q(ys[i]) {
      FilterMember(Filter(xs, p), q, ys[i]);
      FilterMember(xs, p, ys[i]);
    }
    FilterAll(ys, p);
    FilterAll(ys, q);
  }

  /** Lower-casing twice is lower-casing once. */
  lemma ToLowerIdempotent(s: string)
    ensures ToLower(ToLower(s)) == ToLower(s)
  {
  }

  /** A text without upper-case letters is its own lower-case form. */
  lemma LowerCaseUnchanged(s: string)
    requires forall i :: 0 <= i < |s| ==> !IsCapital(s[i])
    ensures ToLower(s) == s
  {
    assert forall i :: 0 <= i < |s| ==> ToLower(s)[i] == s[i];
  }

  /** Filtering twice with the same test changes nothing. */
  lemma {:induction false} FilterIdempotent<T>(xs: seq<T>, p: T -> bool)
    ensures Filter(Filter(xs, p), p) == Filter(xs, p)
  {
    if xs != [] {
      var init := xs[..|xs| - 1];
      var last := xs[|xs| - 1];
      FilterIdempotent(init, p);
      var r := Filter(xs, p);
      if p(last) {
        assert r == Filter(init, p) + [last];
        assert r[..|r| - 1] == Filter(init, p);
      } else {
        assert r == Filter(init, p) + [];
        assert r == Filter(init, p);
      }
    }
  }

  /** Filtering with two tests in turn is filtering with a test that asks
      for both. */
  lemma {:induction false} FilterFilter<T>(xs: seq<T>, p: T -> bool, q: T -> bool, both: T -> bool)
    requires forall i :: 0 <= i < |xs| ==> both(xs[i]) == (p(xs[i]) && q(xs[i]))
    ensures Filter(Filter(xs, p), q) == Filter(xs, both)
  {
    if xs != [] {
      var init := xs[..|xs| - 1];
      var last := xs[|xs| - 1];
      FilterFilter(init, p, q, both);
      var r := Filter(xs, p);
      if p(last) {
        assert r == Filter(init, p) + [last];
        assert r[..|r| - 1] == Filter(init, p);
      } else {
        assert r == Filter(init, p) + [];
        assert r == Filter(init, p);
      }
    }
  }

  /** Two tests that agree on every element of the sequence keep the same
      elements. */
  lemma {:induction false} FilterCongruent<T>(xs: seq<T>, p: T -> bool, q: T -> bool)
    requires forall i :: 0 <= i < |xs| ==> p(xs[i]) == q(xs[i])
    ensures Filter(xs, p) == Filter(xs, q)
  {
    if xs != [] {
      FilterCongruent(xs[..|xs| - 1], p, q);
    }
  }

  /** Two functions that agree on every element have the same sum. */
  lemma {:induction false} SumCongruent<T>(xs: seq<T>, f: T -> int, g: T -> int)
    requires forall i :: 0 <= i < |xs| ==> f(xs[i]) == g(xs[i])
    ensures Sum(xs, f) == Sum(xs, g)
  {
    if xs != [] {
      SumCongruent(xs[..|xs| - 1], f, g);
    }
  }

  /** A test every element passes keeps the whole sequence. */
  lemma {:induction false} FilterAll<T>(xs: seq<T>, p: T -> bool)
    requires forall i :: 0 <= i < |xs| ==> p(xs[i])
    ensures Filter(xs, p) == xs
  {
    if xs != [] {
      FilterAll(xs[..|xs| - 1], p);
    }
  }

  /** A test no element passes keeps nothing. */
  lemma {:induction false} FilterNone<T>(xs: seq<T>, p: T -> bool)
    requires forall i :: 0 <= i < |xs| ==> !p(xs[i])
    ensures Filter(xs, p) == []
  {
    if xs != [] {
      FilterNone(xs[..|xs| - 1], p);
    }
  }

  /** The first element filter keeps is the first element that passes. */
  lemma {:induction false} FilterFirst<T>(xs: seq<T>, p: T -> bool, i: int)
    requires 0 <= i < |xs| && p(xs[i])
    requires forall j :: 0 <= j < i ==> !p(xs[j])
    ensures Filter(xs, p) != [] && Filter(xs, p)[0] == xs[i]
  {
    var init := xs[..|xs| - 1];
    if i == |xs| - 1 {
      FilterNone(init, p);
    } else {
      FilterFirst(init, p, i);
    }
  }

  /** Filtering from the front: the first element, kept or not, then the
      rest filtered. */
  lemma FilterCons<T>(xs: seq<T>, p: T -> bool)
    requires xs != []
    ensures Filter(xs, p) == (if p(xs[0]) then [xs[0]] else []) + Filter(xs[1..], p)
  {
    FilterAppend([xs[0]], xs[1..], p);
    assert [xs[0]] + xs[1..] == xs;
    assert [xs[0]][..0] == [];
  }

  lemma {:induction false} FilterAppend<T>(xs: seq<T>, ys: seq<T>, p: T -> bool)
    ensures Filter(xs + ys, p) == Filter(xs, p) + Filter(ys, p)
    decreases |ys|
  {
    if ys != [] {
      assert (xs + ys)[..|xs + ys| - 1] == xs + ys[..|ys| - 1];
      FilterAppend(xs, ys[..|ys| - 1], p);
    } else {
      assert xs + ys == xs;
    }
  }

  lemma {:induction false} SumAppend<T>(xs: seq<T>, ys: seq<T>, f: T -> int)
    ensures Sum(xs + ys, f) == Sum(xs, f) + Sum(ys, f)
    decreases |ys|
  {
    if ys != [] {
      assert (xs + ys)[..|xs + ys| - 1] == xs + ys[..|ys| - 1];
      SumAppend(xs, ys[..|ys| - 1], f);
    } else {
      assert xs + ys == xs;
    }
  }

  /** Summing a difference is the difference of the sums. */
  lemma {:induction false} SumDifference<T>(xs: seq<T>, f: T -> int, g: T -> int)
    ensures Sum(xs, x => f(x) - g(x)) == Sum(xs, f) - Sum(xs, g)
  {
    if xs != [] {
      SumDifference(xs[..|xs| - 1], f, g);
    }
  }

  /** A test and its negation split a sequence: together the two filtered
      sequences hold every element exactly as often as the whole. */
  lemma {:induction false} FilterSplit<T>(xs: seq<T>, p: T -> bool, q: T -> bool)
    requires forall i :: 0 <= i < |xs| ==> q(xs[i]) == !p(xs[i])
    ensures multiset(Filter(xs, p)) + multiset(Filter(xs, q)) == multiset(xs)
  {
    if xs != [] {
      var init := xs[..|xs| - 1];
      var last := xs[|xs| - 1];
      forall i | 0 <= i < |init|
        ensures q(init[i]) == !p(init[i])
      {
        assert init[i] == xs[i];
      }
      FilterSplit(init, p, q);
      assert q(last) == !p(last);
      assert xs == init + [last];
      var fp, fq := Filter(init, p), Filter(init, q);
      assert multiset(xs) == multiset(init) + multiset{last};
      if p(last) {
        assert Filter(xs, p) == fp + [last];
        assert multiset(fp + [last]) == multiset(fp) + multiset{last};
        assert Filter(xs, q) == fq;
      } else {
        assert Filter(xs, p) == fp;
        assert Filter(xs, q) == fq + [last];
        assert multiset(fq + [last]) == multiset(fq) + multiset{last};
      }
    }
  }

  /** Summing over the elements a test keeps and over those it drops adds
      up to the whole sum. */
  lemma {:induction false} SumPartition<T>(xs: seq<T>, f: T -> int, p: T -> bool, q: T -> bool)
    requires forall i :: 0 <= i < |xs| ==> q(xs[i]) == !p(xs[i])
    ensures Sum(Filter(xs, p), f) + Sum(Filter(xs, q), f) == Sum(xs, f)
  {
    if xs != [] {
      var init := xs[..|xs| - 1];
      var last := xs[|xs| - 1];
      assert forall i :: 0 <= i < |init| ==> init[i] == xs[i];
      SumPartition(init, f, p, q);
      SumAppend(Filter(init, p), if p(last) then [last] else [], f);
      SumAppend(Filter(init, q), if q(last) then [last] else [], f);
    }
  }

  /** Summing the elements that pass a test, or summing a function that is
      zero on those that fail, is the same. */
  lemma {:induction false} SumFilterAsGuard<T>(xs: seq<T>, f: T -> int, p: T -> bool)
    ensures Sum(Filter(xs, p), f) == Sum(xs, x => if p(x) then f(x) else 0)
  {
    if xs != [] {
      var init := xs[..|xs| - 1];
      var last := xs[|xs| - 1];
      SumFilterAsGuard(init, f, p);
      SumAppend(Filter(init, p), if p(last) then [last] else [], f);
    }
  }

  /** Mapping each element to a value, in order (`xs.map(f)`). */
  function Map<T, U>(xs: seq<T>, f: T -> U): (r: seq<U>)
    ensures |r| == |xs| && forall i :: 0 <= i < |xs| ==> r[i] == f(xs[i])
  {
    seq(|xs|, i requires 0 <= i < |xs| => f(xs[i]))
  }
}

=== FILE: paymentform.dfy ===
/** The record-payment form: its defaults, the prefill from the page that
    opened it, the mode buttons, and the save handler's checks and payload.
    The payload carries no mode, so the server stores none. */
module PaymentForm {
  import opened Js
  import Server
  import PaymentList

  type Form = JsObject

  /** The mode buttons' keys. */
  const ModeKeys: seq<string> := ["Cash", "UPI", "Bank"]

  /** The form a payment starts with; `today` is the current UTC date. */
  function InitialForm(today: JsValue): (f: Form)
    ensures f.Keys == {TripId, Amount, Mode, Date, Reminder}
    ensures f[Mode] == Str("Cash") && f[Reminder] == Str("") && f[Date] == today
    ensures f[TripId] == Str("") && f[Amount] == Str("")
  {
    map[TripId := Str(""), Amount := Str(""), Mode := Str("Cash"), Date := today, Reminder := Str("")]
  }

  /** The client named in the navigation state, '' without one. */
  function PrefilledClient(state: Option<PaymentList.PrefillState>): (c: JsValue)
    ensures state.Some? && Truthy(state.value.clientName) ==> c == state.value.clientName
    ensures (state.None? || !Truthy(state.value.clientName)) ==> c == Str("")
  {
    if state.Some? then Or(state.value.clientName, Str("")) else Str("")
  }

  /** Whether the navigation state names a trip. */
  predicate HasPrefilledTrip(state: Option<PaymentList.PrefillState>) {
    state.Some? && Truthy(state.value.tripId)
  }

  /** Once the trips load: a prefilled trip wins, with the prefilled amount
      (or the amount already typed); otherwise the first trip is selected. */
  function Prefill(f: Form, state: Option<PaymentList.PrefillState>, trips: seq<JsObject>): (r: Form)
    ensures HasPrefilledTrip(state) ==>
      Get(r, TripId) == state.value.tripId && Get(r, Amount) == Or(state.value.amount, Get(f, Amount))
    ensures !HasPrefilledTrip(state) && trips != [] ==>
      Get(r, TripId) == Get(trips[0], Id) && Get(r, Amount) == Get(f, Amount)
    ensures !HasPrefilledTrip(state) && trips == [] ==> r == f
    ensures forall k :: k != TripId && k != Amount ==> Get(r, k) == Get(f, k)
  {
    if HasPrefilledTrip(state) then
      f[TripId := state.value.tripId][Amount := Or(state.value.amount, Get(f, Amount))]
    else if |trips| > 0 then f[TripId := Get(trips[0], Id)]
    else f
  }

  /** A mode button stores its key as the mode and changes nothing else. */
  function ChooseMode(f: Form, key: string): (r: Form)
    ensures Get(r, Mode) == Str(key)
    ensures forall k :: k != Mode ==> Get(r, k) == Get(f, k)
  {
    f[Mode := Str(key)]
  }

  /** `formData.mode === mode.key`: the highlighted button. */
  predicate ModeSelected(f: Form, key: string) {
    StrictEquals(Get(f, Mode), Str(key))
  }

  /** After a mode button is pressed, it is the only one highlighted. */
  lemma ChosenModeAlone(f: Form, i: nat)
    requires i < |ModeKeys|
    ensures forall j :: 0 <= j < |ModeKeys| ==> (ModeSelected(ChooseMode(f, ModeKeys[i]), ModeKeys[j]) <==> j == i)
  {
  }

  /** What the save button does: refused, failed on a date that is not a
      valid date, or the payment sent. */
  datatype Save = Refused | InvalidDate | Submit(payload: JsObject)

  /** `handleSave`: refused without a trip or an amount; otherwise the trip,
      the parsed amount, the date's ISO timestamp and the status 'paid' are
      sent, and nothing else (not the mode, not the reminder).
      `toIso(ms)` is `toISOString()` of the instant `ms`. */
  function HandleSave(f: Form, toIso: int -> string): (s: Save)
    ensures s.Refused? <==> !Truthy(Get(f, TripId)) || !Truthy(Get(f, Amount))
    ensures s == InvalidDate <==> Truthy(Get(f, TripId)) && Truthy(Get(f, Amount)) && ToInstant(Get(f, Date)).None?
    ensures s.Submit? ==>
      var ms := ToInstant(Get(f, Date)).value;
      s.payload == map[TripId := Get(f, TripId), Amount := NumValue(ParseFloatOf(Get(f, Amount))),
                       PaymentDate := Stamp(toIso(ms), ms), Status := Str("paid")]
  {
    if !Truthy(Get(f, TripId)) || !Truthy(Get(f, Amount)) then Refused
    else
      var instant := ToInstant(Get(f, Date));
      if instant.None? then InvalidDate
      else
        Submit(map[TripId := Get(f, TripId), Amount := NumValue(ParseFloatOf(Get(f, Amount))),
                   PaymentDate := Stamp(toIso(instant.value), instant.value), Status := Str("paid")])
  }

  /** Whatever mode button was pressed, the payment the server records from
      this form has no mode (NULL). */
  lemma ModeNeverStored(db: Server.Db, owner: string, f: Form, toIso: int -> string, key: string)
    requires HandleSave(ChooseMode(f, key), toIso).Submit?
    requires Server.RecordPayment(db, owner, HandleSave(ChooseMode(f, key), toIso).payload).0.code == 201
    ensures var db2 := Server.RecordPayment(db, owner, HandleSave(ChooseMode(f, key), toIso).payload).1;
      |db2.payments| == |db.payments| + 1 && db2.payments[|db.payments|].mode == Null
  {
  }

  /** Opened from the payment list's "received" action, the form selects the
      payment's trip and proposes its amount. */
  lemma ReceivedActionPrefills(p: PaymentList.Payment, f: Form, trips: seq<JsObject>)
    requires PaymentList.ReceivedAction(p).Some? && Truthy(Get(p, Id))
    ensures var r := Prefill(f, PaymentList.ReceivedAction(p), trips);
      Get(r, TripId) == Get(p, Id) && Get(r, Amount) == Or(Get(p, Amount), Get(f, Amount))
    ensures PrefilledClient(PaymentList.ReceivedAction(p)) == Or(Get(p, Client), Str(""))
  {
  }
}

=== FILE: paymentlist.dfy ===
/** The payments page: the Pending / Received / Drafts tabs, the overdue
    section and the main list of a tab, the pending total and the detail
    view's "received" action. */
module PaymentList {
  import opened Js

  type Payment = JsObject

  predicate HasStatus(p: Payment, status: string) {
    Get(p, Status) == Str(status)
  }

  /** Still to be collected: 'pending' or 'overdue'. */
  predicate IsOutstanding(p: Payment) {
    HasStatus(p, "pending") || HasStatus(p, "overdue")
  }

  /** Whether a payment is listed under the tab named `tab`. */
  predicate InTab(tab: string, p: Payment) {
    if tab == "Pending" then HasStatus(p, "pending") || HasStatus(p, "overdue")
    else if tab == "Received" then HasStatus(p, "received")
    else false
  }

  /** `filteredPayments`: the payments of the active tab, in order. */
  function TabPayments(payments: seq<Payment>, tab: string): (r: seq<Payment>)
    ensures |r| <= |payments|
  {
    Filter(payments, p => InTab(tab, p))
  }

  /** `overduePayments`: the tab's overdue payments, shown in their own section. */
  function OverdueSection(listed: seq<Payment>): seq<Payment> {
    Filter(listed, p => HasStatus(p, "overdue"))
  }

  /** The tab's main list: its payments that are not overdue. */
  function MainList(listed: seq<Payment>): seq<Payment> {
    Filter(listed, p => !HasStatus(p, "overdue"))
  }

  /** `Number(p.amount) || 0` */
  function AmountOr0(p: Payment): int {
    NumberOr0(Get(p, Amount))
  }

  /** `totalPending`: what is still to be collected over all payments,
      whichever tab is active. */
  function TotalPending(payments: seq<Payment>): (total: int)
    ensures (forall i :: 0 <= i < |payments| ==> !IsOutstanding(payments[i])) ==> total == 0
  {
    assert (forall i :: 0 <= i < |payments| ==> !IsOutstanding(payments[i])) ==>
           Filter(payments, IsOutstanding) == [] by {
      if forall i :: 0 <= i < |payments| ==> !IsOutstanding(payments[i]) {
        FilterNone(payments, IsOutstanding);
      }
    }
    Sum(Filter(payments, IsOutstanding), AmountOr0)
  }

  /** The Pending tab lists exactly the pending and overdue payments, the
      Received tab exactly the received ones, and Drafts nothing. */
  lemma TabContents(payments: seq<Payment>, p: Payment)
    ensures p in TabPayments(payments, "Pending") <==> p in payments && (HasStatus(p, "pending") || HasStatus(p, "overdue"))
    ensures p in TabPayments(payments, "Received") <==> p in payments && HasStatus(p, "received")
    ensures TabPayments(payments, "Drafts") == []
  {
    FilterMember(payments, q => InTab("Pending", q), p);
    FilterMember(payments, q => InTab("Received", q), p);
    FilterNone(payments, q => InTab("Drafts", q));
  }

  /** The overdue section and the main list split the tab: each payment of
      the tab appears in exactly one of them, as often as in the tab. */
  lemma SectionsPartitionTab(payments: seq<Payment>, tab: string)
    ensures multiset(OverdueSection(TabPayments(payments, tab))) + multiset(MainList(TabPayments(payments, tab)))
            == multiset(TabPayments(payments, tab))
    ensures |OverdueSection(TabPayments(payments, tab))| + |MainList(TabPayments(payments, tab))|
            == |TabPayments(payments, tab)|
  {
    var listed := TabPayments(payments, tab);
    FilterSplit(listed, p => HasStatus(p, "overdue"), p => !HasStatus(p, "overdue"));
    assert |multiset(OverdueSection(listed))| + |multiset(MainList(listed))| == |multiset(listed)|;
  }

  /** The Received tab has no overdue section: it is all main list. */
  lemma ReceivedTabHasNoOverdue(payments: seq<Payment>)
    ensures OverdueSection(TabPayments(payments, "Received")) == []
    ensures MainList(TabPayments(payments, "Received")) == TabPayments(payments, "Received")
  {
    var listed := TabPayments(payments, "Received");
    forall i | 0 <= i < |listed|
      ensures HasStatus(listed[i], "received")
    {
      FilterMember(payments, p => InTab("Received", p), listed[i]);
    }
    FilterNone(listed, p => HasStatus(p, "overdue"));
    FilterAll(listed, p => !HasStatus(p, "overdue"));
  }

  /** The pending total is the sum over what the Pending tab lists. */
  lemma TotalPendingIsPendingTab(payments: seq<Payment>)
    ensures TotalPending(payments) == Sum(TabPayments(payments, "Pending"), AmountOr0)
  {
    FilterCongruent(payments, IsOutstanding, p => InTab("Pending", p));
  }

  /** Received payments do not count towards the pending total. */
  lemma TotalPendingIgnoresReceived(payments: seq<Payment>, p: Payment)
    requires HasStatus(p, "received")
    ensures TotalPending(payments + [p]) == TotalPending(payments)
  {
    FilterAppend(payments, [p], IsOutstanding);
    assert Filter([p], IsOutstanding) == [];
    assert Filter(payments, IsOutstanding) + [] == Filter(payments, IsOutstanding);
  }

  /** Whether the empty-list message shows: exactly when the tab lists nothing. */
  predicate ShowsEmptyState(payments: seq<Payment>, tab: string) {
    |TabPayments(payments, tab)| == 0
  }

  /** Drafts always shows the empty-list message. */
  lemma DraftsShowEmptyState(payments: seq<Payment>)
    ensures ShowsEmptyState(payments, "Drafts")
  {
    FilterNone(payments, q => InTab("Drafts", q));
  }

  /** What the "received" button hands to the add-payment page. */
  datatype PrefillState = PrefillState(tripId: JsValue, amount: JsValue, clientName: JsValue)

  /** The detail view's "received" action: offered only for a payment that is
      not yet received, and it carries the row's id, amount and client. */
  function ReceivedAction(p: Payment): (action: Option<PrefillState>)
    ensures action.Some? <==> !HasStatus(p, "received")
    ensures action.Some? ==> action.value.tripId == Get(p, Id) && action.value.amount == Get(p, Amount)
                             && action.value.clientName == Get(p, Client)
  {
    if Get(p, Status) != Str("received") then Some(PrefillState(Get(p, Id), Get(p, Amount), Get(p, Client)))
    else None
  }
}

=== FILE: protectedroute.dfy ===
/** The route guard in front of the signed-in pages: loading first, then
    the sign-in redirect, the blocked screen and the expired-trial screen,
    which admins skip. */
module ProtectedRoute {
  import opened Js
  import Auth

  datatype Screen = LoadingScreen | RedirectToLogin(from: string) | BlockedScreen | ExpiredScreen | Children

  /** The guard's decision for the current path `location` at instant
      `now`. */
  function Decide(loading: bool, user: Auth.User, location: string, now: int): (s: Screen)
    ensures loading ==> s == LoadingScreen
    ensures !loading && user.None? ==> s == RedirectToLogin(location)
    ensures !loading && user.Some? && Auth.IsBlocked(user) ==> s == BlockedScreen
    ensures !loading && user.Some? && !Auth.IsBlocked(user) && Auth.IsTrialExpired(user, now) && !Auth.IsAdmin(user) ==> s == ExpiredScreen
    ensures s == Children <==>
      !loading && user.Some? && !Auth.IsBlocked(user) && (!Auth.IsTrialExpired(user, now) || Auth.IsAdmin(user))
  {
    if loading then LoadingScreen
    else if user.None? then RedirectToLogin(location)
    else if Auth.IsBlocked(user) then BlockedScreen
    else if Auth.IsTrialExpired(user, now) && !Auth.IsAdmin(user) then ExpiredScreen
    else Children
  }

  /** A blocked admin is still shown the blocked screen. */
  lemma BlockedAdminStopped(user: JsObject, location: string, now: int)
    requires Auth.IsAdmin(Some(user)) && Auth.IsBlocked(Some(user))
    ensures Decide(false, Some(user), location, now) == BlockedScreen
  {
  }

  /** A signed-in user without an expiry date is a lapsed trial: only an
      admin gets through. */
  lemma NoExpiryNeedsAdmin(user: JsObject, location: string, now: int)
    requires !Truthy(Get(user, TrialExpiresAt)) && !Auth.IsBlocked(Some(user))
    ensures Decide(false, Some(user), location, now) == (if Auth.IsAdmin(Some(user)) then Children else ExpiredScreen)
  {
  }
}

=== FILE: reports.dfy ===
/** The downloadable report: the six tables of the PDF, each skipped when it
    has no rows, laid out down the page by a vertical cursor that moves to a
    new page near the bottom; and the Excel workbook, which always holds six
    sheets. The drawing and the file formats belong to the PDF and
    spreadsheet libraries; what is modelled is the row data each table or
    sheet receives, the cursor and the order of the parts. */
module Reports {
  import opened Js
  import Dashboard

  type Row = JsObject

  /** A table cell: a value shown as it is, a text built by a template, or a
      date shown in the local format (`new Date(v).toLocaleDateString()`). */
  datatype Cell = Val(v: JsValue) | Text(s: string) | LocaleDate(v: JsValue)

  /** The six record lists of a report, in the order the report lists them. */
  datatype Dataset = Trips | FuelExpenses | Expenses | Payments | Drivers | Suppliers

  /** The records of one dataset, as the report receives them. */
  function Records(data: Dashboard.ReportData, d: Dataset): seq<Row> {
    match d
    case Trips => data.trips
    case FuelExpenses => data.fuelExpenses
    case Expenses => data.expenses
    case Payments => data.payments
    case Drivers => data.drivers
    case Suppliers => data.suppliers
  }

  // ---------------------------------------------------------------------
  // Cell values shared by the PDF and the workbook

  /** `Rs.${v || 0}` */
  function Rupees(v: JsValue): (text: string)
    ensures !Truthy(v) ==> text == "Rs.0"
  {
    assert NatToString(0) == "0";
    "Rs." + JsString(Or(v, Num(0)))
  }

  /** `(t.amount || 0) - (t.paid_amount || 0)`: NaN unless both read as numbers. */
  function Balance(t: Row): (b: JsValue)
    ensures b != NaN <==> ToNumber(Or(Get(t, Amount), Num(0))).Some? && ToNumber(Or(Get(t, PaidAmount), Num(0))).Some?
    ensures b != NaN ==> b == Num(ToNumber(Or(Get(t, Amount), Num(0))).value - ToNumber(Or(Get(t, PaidAmount), Num(0))).value)
  {
    var a := ToNumber(Or(Get(t, Amount), Num(0)));
    var p := ToNumber(Or(Get(t, PaidAmount), Num(0)));
    if a.Some? && p.Some? then Num(a.value - p.value) else NaN
  }

  /** The database returns DECIMAL amounts as text such as "250.00"; the
      balance still subtracts them, and is what the dashboard counts as
      still owed. */
  lemma DecimalTextBalance(t: Row, amount: nat, paid: nat)
    requires Get(t, Amount) == Str(NatToString(amount) + ".00")
    requires Get(t, PaidAmount) == Str(NatToString(paid) + ".00")
    ensures Balance(t) == Num(amount - paid)
    ensures Balance(t) == Num(Dashboard.Outstanding(t))
  {
    WholeDecimalText(amount);
    WholeDecimalText(paid);
  }

  /** For a trip whose amounts are numbers, the balance in the report is what
      the dashboard counts as still owed on it. */
  lemma BalanceIsOutstanding(t: Row, amount: int, paid: int)
    requires Get(t, Amount) == Num(amount) && Get(t, PaidAmount) == Num(paid)
    ensures Balance(t) == Num(Dashboard.Outstanding(t))
    ensures Balance(t) == Num(amount - paid)
  {
  }

  /** The date a payment is listed under: `payment_date || created_at`. */
  function PaymentDateOf(p: Row): (v: JsValue)
    ensures Truthy(Get(p, PaymentDate)) ==> v == Get(p, PaymentDate)
    ensures !Truthy(Get(p, PaymentDate)) ==> v == Get(p, CreatedAt)
  {
    Or(Get(p, PaymentDate), Get(p, CreatedAt))
  }

  // ---------------------------------------------------------------------
  // PDF rows

  function Title(d: Dataset): string {
    match d
    case Trips => "Trips Report"
    case FuelExpenses => "Fuel Expenses"
    case Expenses => "General Expenses"
    case Payments => "Payments History"
    case Drivers => "Driver Directory"
    case Suppliers => "Suppliers List"
  }

  function Headers(d: Dataset): seq<string> {
    match d
    case Trips => ["Date", "Truck", "Material", "From/To", "Amount", "Paid", "Balance"]
    case FuelExpenses => ["Date", "Truck", "Pump", "Liters", "Rate", "Amount"]
    case Expenses => ["Date", "Truck", "Category", "Description", "Amount"]
    case Payments => ["Date", "Truck/Driver", "Type", "Amount", "Remark"]
    case Drivers => ["Name", "Mobile", "License", "Blood Group", "Salary"]
    case Suppliers => ["Name", "Mobile", "Address", "Status"]
  }

  /** One trip in the PDF: missing truck and material read 'N/A', missing
      route ends read '', missing amounts read 0. */
  function TripPdfRow(t: Row): (r: seq<Cell>)
    ensures |r| == |Headers(Trips)|
    ensures r[0] == LocaleDate(Get(t, TripDate))
    ensures !Truthy(Get(t, TruckNumber)) ==> r[1] == Val(Str("N/A"))
    ensures !Truthy(Get(t, Material)) ==> r[2] == Val(Str("N/A"))
    ensures !Truthy(Get(t, Amount)) ==> r[4] == Text("Rs.0")
    ensures r[6] == Text("Rs." + JsString(Balance(t)))
  {
    [LocaleDate(Get(t, TripDate)),
     Val(Or(Get(t, TruckNumber), Str("N/A"))),
     Val(Or(Get(t, Material), Str("N/A"))),
     Text(JsString(Or(Or(Get(t, Source), Get(t, Location)), Str(""))) + " -> " + JsString(Or(Get(t, Destination), Str("")))),
     Text(Rupees(Get(t, Amount))),
     Text(Rupees(Get(t, PaidAmount))),
     Text("Rs." + JsString(Balance(t)))]
  }

  /** One fuel log in the PDF: a missing pump reads 'Local', missing litres 0. */
  function FuelPdfRow(f: Row): (r: seq<Cell>)
    ensures |r| == |Headers(FuelExpenses)|
    ensures !Truthy(Get(f, PumpName)) ==> r[2] == Val(Str("Local"))
    ensures !Truthy(Get(f, Liters)) ==> r[3] == Val(Num(0))
  {
    [LocaleDate(Get(f, ExpenseDate)),
     Val(Or(Get(f, TruckNumber), Str("N/A"))),
     Val(Or(Get(f, PumpName), Str("Local"))),
     Val(Or(Get(f, Liters), Num(0))),
     Text(Rupees(Get(f, Rate))),
     Text(Rupees(Get(f, Amount)))]
  }

  /** One general expense in the PDF: a missing category reads 'Other'. */
  function ExpensePdfRow(e: Row): (r: seq<Cell>)
    ensures |r| == |Headers(Expenses)|
    ensures !Truthy(Get(e, Category)) ==> r[2] == Val(Str("Other"))
    ensures !Truthy(Get(e, Description)) ==> r[3] == Val(Str("N/A"))
  {
    [LocaleDate(Get(e, ExpenseDate)),
     Val(Or(Get(e, TruckNumber), Str("N/A"))),
     Val(Or(Get(e, Category), Str("Other"))),
     Val(Or(Get(e, Description), Str("N/A"))),
     Text(Rupees(Get(e, Amount)))]
  }

  /** One payment in the PDF: dated by `payment_date`, else `created_at`; a
      missing type reads 'Generic'. */
  function PaymentPdfRow(p: Row): (r: seq<Cell>)
    ensures |r| == |Headers(Payments)|
    ensures r[0] == LocaleDate(PaymentDateOf(p))
    ensures !Truthy(Get(p, TruckNumber)) && !Truthy(Get(p, DriverName)) ==> r[1] == Val(Str("N/A"))
    ensures !Truthy(Get(p, PaymentType)) ==> r[2] == Val(Str("Generic"))
  {
    [LocaleDate(PaymentDateOf(p)),
     Val(Or(Or(Get(p, TruckNumber), Get(p, DriverName)), Str("N/A"))),
     Val(Or(Get(p, PaymentType), Str("Generic"))),
     Text(Rupees(Get(p, Amount))),
     Val(Or(Get(p, Remark), Str("N/A")))]
  }

  /** One driver in the PDF; the salary is shown per month. */
  function DriverPdfRow(d: Row): (r: seq<Cell>)
    ensures |r| == |Headers(Drivers)|
    ensures !Truthy(Get(d, Name)) ==> r[0] == Val(Str("N/A"))
    ensures !Truthy(Get(d, Salary)) ==> r[4] == Text("Rs.0/mo")
  {
    assert "Rs.0" + "/mo" == "Rs.0/mo";
    [Val(Or(Get(d, Name), Str("N/A"))),
     Val(Or(Get(d, MobilePrimary), Str("N/A"))),
     Val(Or(Get(d, LicenseNumber), Str("N/A"))),
     Val(Or(Get(d, BloodGroup), Str("N/A"))),
     Text(Rupees(Get(d, Salary)) + "/mo")]
  }

  /** One supplier in the PDF; every supplier is listed as 'Active'. */
  function SupplierPdfRow(s: Row): (r: seq<Cell>)
    ensures |r| == |Headers(Suppliers)|
    ensures !Truthy(Get(s, Address)) ==> r[2] == Val(Str("N/A"))
    ensures r[3] == Val(Str("Active"))
  {
    [Val(Or(Get(s, Name), Str("N/A"))),
     Val(Or(Get(s, Mobile), Str("N/A"))),
     Val(Or(Get(s, Address), Str("N/A"))),
     Val(Str("Active"))]
  }

  function PdfRow(d: Dataset, r: Row): (cells: seq<Cell>)
    ensures |cells| == |Headers(d)|
  {
    match d
    case Trips => TripPdfRow(r)
    case FuelExpenses => FuelPdfRow(r)
    case Expenses => ExpensePdfRow(r)
    case Payments => PaymentPdfRow(r)
    case Drivers => DriverPdfRow(r)
    case Suppliers => SupplierPdfRow(r)
  }

  /** A PDF table: the records of one dataset. */
  datatype Table = Table(dataset: Dataset, records: seq<Row>)
  {
    /** The rows `addTable` receives: one per record, in order, each as
        wide as the header. */
    function Body(): (body: seq<seq<Cell>>)
      ensures |body| == |records|
      ensures forall i :: 0 <= i < |body| ==> body[i] == PdfRow(dataset, records[i]) && |body[i]| == |Headers(dataset)|
    {
      Map(records, r => PdfRow(dataset, r))
    }
  }

  /** The six PDF tables, in the order the report draws them. */
  function PdfTables(data: Dashboard.ReportData): (ts: seq<Table>)
    ensures |ts| == 6
  {
    [Table(Trips, data.trips), Table(FuelExpenses, data.fuelExpenses), Table(Expenses, data.expenses),
     Table(Payments, data.payments), Table(Drivers, data.drivers), Table(Suppliers, data.suppliers)]
  }

  /** Whether `addTable` draws a table: only when it has rows. */
  predicate HasRows(t: Table) {
    t.records != []
  }

  /** The place of a dataset in the report. */
  function Rank(d: Dataset): nat {
    match d
    case Trips => 0
    case FuelExpenses => 1
    case Expenses => 2
    case Payments => 3
    case Drivers => 4
    case Suppliers => 5
  }

  /** Tables in report order, each holding its dataset's records. */
  predicate InReportOrder(ts: seq<Table>, data: Dashboard.ReportData) {
    (forall i, j :: 0 <= i < j < |ts| ==> Rank(ts[i].dataset) < Rank(ts[j].dataset)) &&
    (forall i :: 0 <= i < |ts| ==> ts[i].records == Records(data, ts[i].dataset))
  }

  /** Leaving out the tables without rows keeps the report order. */
  lemma {:induction false} FilterKeepsOrder(ts: seq<Table>, data: Dashboard.ReportData)
    requires InReportOrder(ts, data)
    ensures InReportOrder(Filter(ts, HasRows), data)
  {
    if ts != [] {
      var init := ts[..|ts| - 1];
      var last := ts[|ts| - 1];
      assert InReportOrder(init, data);
      FilterKeepsOrder(init, data);
      var f := Filter(init, HasRows);
      forall i | 0 <= i < |f|
        ensures Rank(f[i].dataset) < Rank(last.dataset)
      {
        FilterMember(init, HasRows, f[i]);
        var k :| 0 <= k < |init| && init[k] == f[i];
      }
    }
  }

  /** The PDF draws its tables in the fixed order Trips, Fuel Expenses,
      General Expenses, Payments History, Driver Directory, Suppliers List,
      each with all of its dataset's records, and draws a dataset's table
      exactly when the dataset has records. */
  lemma DrawnInOrder(data: Dashboard.ReportData)
    ensures InReportOrder(Filter(PdfTables(data), HasRows), data)
    ensures forall d :: Table(d, Records(data, d)) in Filter(PdfTables(data), HasRows) <==> Records(data, d) != []
  {
    var ts := PdfTables(data);
    assert InReportOrder(ts, data);
    FilterKeepsOrder(ts, data);
    forall d
      ensures Table(d, Records(data, d)) in Filter(ts, HasRows) <==> Records(data, d) != []
    {
      FilterMember(ts, HasRows, Table(d, Records(data, d)));
      assert ts[Rank(d)] == Table(d, Records(data, d));
    }
  }

  /** The name the report is saved under; `today` is the UTC date
      `YYYY-MM-DD` and `extension` is "pdf" or "xlsx". */
  function FileName(dateRange: string, today: string, extension: string): (name: string)
    ensures |name| >= 22 + |extension| && name[..20] == "TruckManager_Report_"
    ensures name[|name| - |extension| - 1..] == "." + extension
  {
    "TruckManager_Report_" + dateRange + "_" + today + "." + extension
  }

  // ---------------------------------------------------------------------
  // The PDF cursor

  /** Where the cursor goes after a table that ends at `finalY`: 15 below it,
      or to the top of a new page (20) when that is within 20 of the bottom. */
  function NextY(finalY: int, pageHeight: int): (y: int)
    ensures y == 20 || y <= pageHeight - 20
    ensures y == 20 <== finalY + 15 > pageHeight - 20
  {
    if finalY + 15 > pageHeight - 20 then 20 else finalY + 15
  }

  /** A drawn table: its heading is written at `titleY`. */
  datatype Section = Section(table: Table, titleY: int)
  {
    /** The heading text: the title in capitals. */
    function Heading(): string {
      ToUpper(Title(table.dataset))
    }

    /** The table itself starts 5 below its heading. */
    function TableY(): int {
      titleY + 5
    }
  }

  /** The tables of a list of drawn sections, in order. */
  function TablesOf(sections: seq<Section>): (ts: seq<Table>)
    ensures |ts| == |sections|
  {
    if sections == [] then [] else TablesOf(sections[..|sections| - 1]) + [sections[|sections| - 1].table]
  }

  /** The drawn sections follow one another: the first heading sits at 85,
      every later one where the cursor went after the table before it, and
      the cursor `y` is where the last table sent it. `tableEnd(startY, t)` is
      where the table library ends table `t` started at `startY`. */
  ghost predicate Laid(sections: seq<Section>, y: int, pageHeight: int, tableEnd: (int, Table) -> int) {
    if sections == [] then y == 85
    else
      var last := sections[|sections| - 1];
      y == NextY(tableEnd(last.TableY(), last.table), pageHeight) &&
      Laid(sections[..|sections| - 1], last.titleY, pageHeight, tableEnd)
  }

  /** Under the layout rule the first heading sits at 85 and each later one
      where the table before it sent the cursor. */
  lemma {:induction false} LaidChain(sections: seq<Section>, y: int, pageHeight: int, tableEnd: (int, Table) -> int)
    requires Laid(sections, y, pageHeight, tableEnd)
    ensures sections != [] ==> sections[0].titleY == 85
    ensures forall j :: 0 < j < |sections| ==>
      sections[j].titleY == NextY(tableEnd(sections[j - 1].TableY(), sections[j - 1].table), pageHeight)
  {
    if sections != [] {
      var init := sections[..|sections| - 1];
      LaidChain(init, sections[|sections| - 1].titleY, pageHeight, tableEnd);
      forall j | 0 < j < |sections|
        ensures sections[j].titleY == NextY(tableEnd(sections[j - 1].TableY(), sections[j - 1].table), pageHeight)
      {
        if j < |init| {
          assert sections[j] == init[j] && sections[j - 1] == init[j - 1];
        } else if init != [] {
          assert init[|init| - 1] == sections[j - 1];
          assert Laid(init, sections[j].titleY, pageHeight, tableEnd);
        }
      }
    }
  }

  /** Drawing one more table at the cursor keeps the layout rule. */
  lemma LaidAppend(sections: seq<Section>, y: int, t: Table, pageHeight: int, tableEnd: (int, Table) -> int)
    requires Laid(sections, y, pageHeight, tableEnd)
    ensures Laid(sections + [Section(t, y)], NextY(tableEnd(y + 5, t), pageHeight), pageHeight, tableEnd)
    ensures TablesOf(sections + [Section(t, y)]) == TablesOf(sections) + [t]
  {
    assert (sections + [Section(t, y)])[..|sections|] == sections;
  }

  /** The PDF document being written, with the cursor `y` that the report's
      `addTable` helper moves down the page. */
  class PdfReport {
    /** The banner's second line: the date range in capitals. */
    var heading: string
    /** The business name on the info card. */
    var business: JsValue
    /** What the info card says about the truck filter. */
    var truckLabel: JsValue
    /** The vertical position of the next heading. */
    var y: int
    /** The first page plus the pages `addTable` has added; the pages
        autoTable breaks a long table onto are not counted. */
    var pages: nat
    /** The tables drawn so far, in order. */
    var sections: seq<Section>
    /** The page height the document was created with. */
    const pageHeight: int

    /** The cursor and the drawn sections agree with the layout rule. */
    ghost predicate Valid(tableEnd: (int, Table) -> int)
      reads this
    {
      Laid(sections, y, pageHeight, tableEnd)
    }

    /** A new document with the banner and the info card drawn: the cursor
        sits 35 below the card, at 85. */
    constructor (filters: Dashboard.ReportFilters, profile: Option<Row>, pageHeight: int)
      ensures this.pageHeight == pageHeight
      ensures heading == "REPORT: " + ToUpper(filters.dateRange)
      ensures business == Or(if profile.Some? then Get(profile.value, FullName) else Undefined, Str("Business Report"))
      ensures truckLabel == (if filters.truck == Str("all") then Str("All Trucks") else filters.truck)
      ensures y == 85 && pages == 1 && sections == []
      ensures forall tableEnd :: Valid(tableEnd)
    {
      this.pageHeight := pageHeight;
      heading := "REPORT: " + ToUpper(filters.dateRange);
      business := Or(if profile.Some? then Get(profile.value, FullName) else Undefined, Str("Business Report"));
      truckLabel := if filters.truck == Str("all") then Str("All Trucks") else filters.truck;
      pages := 1;
      sections := [];
      var cursor := 50;
      cursor := cursor + 35;
      y := cursor;
    }

    /** `addTable`: a table without rows is skipped and leaves the document
        alone; otherwise its heading goes at the cursor, the table 5 below,
        and the cursor moves 15 past the table's end, or to the top of a new
        page when that is within 20 of the bottom. */
    method AddTable(t: Table, tableEnd: (int, Table) -> int)
      requires Valid(tableEnd)
      modifies this
      ensures Valid(tableEnd)
      ensures !HasRows(t) ==> y == old(y) && pages == old(pages) && sections == old(sections)
      ensures HasRows(t) ==> sections == old(sections) + [Section(t, old(y))]
      ensures HasRows(t) ==> y == NextY(tableEnd(old(y) + 5, t), pageHeight) && (y == 20 || y <= pageHeight - 20)
      ensures HasRows(t) ==> pages == old(pages) + (if tableEnd(old(y) + 5, t) + 15 > pageHeight - 20 then 1 else 0)
      ensures TablesOf(sections) == TablesOf(old(sections)) + (if HasRows(t) then [t] else [])
      ensures heading == old(heading) && business == old(business) && truckLabel == old(truckLabel)
    {
      if |t.Body()| == 0 {
        return;
      }
      LaidAppend(sections, y, t, pageHeight, tableEnd);
      sections := sections + [Section(t, y)];
      y := y + 5;
      var finalY := tableEnd(y, t);
      y := finalY + 15;
      if y > pageHeight - 20 {
        pages := pages + 1;
        y := 20;
      }
    }
  }

  /** Filtering one element more of `xs` adds that element when it passes. */
  lemma FilterPrefixStep<T>(xs: seq<T>, k: nat, p: T -> bool)
    requires k < |xs|
    ensures Filter(xs[..k + 1], p) == Filter(xs[..k], p) + (if p(xs[k]) then [xs[k]] else [])
  {
    assert xs[..k + 1][..k] == xs[..k];
  }

  /** `generatePDFReport`: draws the six tables in their fixed order through
      `addTable`, so those without rows are left out. */
  method GeneratePdf(data: Dashboard.ReportData, filters: Dashboard.ReportFilters, profile: Option<Row>,
                     pageHeight: int, tableEnd: (int, Table) -> int)
    returns (doc: PdfReport)
    ensures fresh(doc) && doc.pageHeight == pageHeight && doc.Valid(tableEnd)
    ensures TablesOf(doc.sections) == Filter(PdfTables(data), HasRows)
  {
    doc := new PdfReport(filters, profile, pageHeight);
    DrawTables(doc, PdfTables(data), tableEnd);
  }

  /** The six `addTable` calls of `generatePDFReport`, in order. */
  method DrawTables(doc: PdfReport, ts: seq<Table>, tableEnd: (int, Table) -> int)
    requires |ts| == 6 && doc.Valid(tableEnd) && doc.sections == []
    modifies doc
    ensures doc.Valid(tableEnd)
    ensures TablesOf(doc.sections) == Filter(ts, HasRows)
  {
    ghost var before: seq<Table> := [];
    assert ts[..0] == [];
    assert TablesOf(doc.sections) == before + Filter(ts[..0], HasRows);
    DrawThree(doc, ts, 0, before, tableEnd);
    DrawThree(doc, ts, 3, before, tableEnd);
    assert ts[..6] == ts;
  }

  /** The `addTable` calls on the three tables from index `k` on. */
  method DrawThree(doc: PdfReport, ts: seq<Table>, k: nat, ghost before: seq<Table>, tableEnd: (int, Table) -> int)
    requires k + 3 <= |ts| && doc.Valid(tableEnd)
    requires TablesOf(doc.sections) == before + Filter(ts[..k], HasRows)
    modifies doc
    ensures doc.Valid(tableEnd)
    ensures TablesOf(doc.sections) == before + Filter(ts[..k + 3], HasRows)
  {
    DrawNext(doc, ts, k, before, tableEnd);
    DrawNext(doc, ts, k + 1, before, tableEnd);
    DrawNext(doc, ts, k + 2, before, tableEnd);
  }

  /** `addTable` on the table at index `k`, after those before it. */
  method DrawNext(doc: PdfReport, ts: seq<Table>, k: nat, ghost before: seq<Table>, tableEnd: (int, Table) -> int)
    requires k < |ts| && doc.Valid(tableEnd)
    requires TablesOf(doc.sections) == before + Filter(ts[..k], HasRows)
    modifies doc
    ensures doc.Valid(tableEnd)
    ensures TablesOf(doc.sections) == before + Filter(ts[..k + 1], HasRows)
  {
    doc.AddTable(ts[k], tableEnd);
    FilterPrefixStep(ts, k, HasRows);
  }

  // ---------------------------------------------------------------------
  // The workbook

  /** A named cell of a sheet row: the row objects' keys become the columns. */
  datatype Field = Field(column: string, cell: Cell)

  function SheetName(d: Dataset): string {
    match d
    case Trips => "Trips"
    case FuelExpenses => "Fuel Expenses"
    case Expenses => "General Expenses"
    case Payments => "Payments"
    case Drivers => "Drivers"
    case Suppliers => "Suppliers"
  }

  /** The keys of a sheet's row objects, in order. */
  function Columns(d: Dataset): seq<string> {
    match d
    case Trips => ["Date", "Truck", "Material", "From", "To", "Amount", "Paid", "Balance"]
    case FuelExpenses => ["Date", "Truck", "Pump", "Liters", "Rate", "Amount"]
    case Expenses => ["Date", "Truck", "Category", "Description", "Amount"]
    case Payments => ["Date", "Target", "Type", "Amount", "Remark"]
    case Drivers => ["Name", "Mobile", "License", "Blood", "Salary"]
    case Suppliers => ["Name", "Mobile", "Address"]
  }

  /** Names `cells` with the columns of `d`. */
  function Named(d: Dataset, cells: seq<Cell>): (r: seq<Field>)
    requires |cells| == |Columns(d)|
    ensures |r| == |Columns(d)|
    ensures forall i :: 0 <= i < |r| ==> r[i] == Field(Columns(d)[i], cells[i])
  {
    seq(|cells|, i requires 0 <= i < |cells| => Field(Columns(d)[i], cells[i]))
  }

  /** One record as a sheet row: the fields are taken as they are, without
      the PDF's fallbacks; only the trip's balance is computed. */
  function SheetCells(d: Dataset, r: Row): (cells: seq<Cell>)
    ensures |cells| == |Columns(d)|
    ensures d == Trips ==> cells[7] == Val(Balance(r))
    ensures d == Payments ==> cells[0] == LocaleDate(PaymentDateOf(r))
  {
    match d
    case Trips =>
      [LocaleDate(Get(r, TripDate)), Val(Get(r, TruckNumber)), Val(Get(r, Material)),
       Val(Or(Get(r, Source), Get(r, Location))), Val(Get(r, Destination)),
       Val(Get(r, Amount)), Val(Get(r, PaidAmount)), Val(Balance(r))]
    case FuelExpenses =>
      [LocaleDate(Get(r, ExpenseDate)), Val(Get(r, TruckNumber)), Val(Get(r, PumpName)),
       Val(Get(r, Liters)), Val(Get(r, Rate)), Val(Get(r, Amount))]
    case Expenses =>
      [LocaleDate(Get(r, ExpenseDate)), Val(Get(r, TruckNumber)), Val(Get(r, Category)),
       Val(Get(r, Description)), Val(Get(r, Amount))]
    case Payments =>
      [LocaleDate(PaymentDateOf(r)), Val(Or(Get(r, TruckNumber), Get(r, DriverName))),
       Val(Get(r, PaymentType)), Val(Get(r, Amount)), Val(Get(r, Remark))]
    case Drivers =>
      [Val(Get(r, Name)), Val(Get(r, MobilePrimary)), Val(Get(r, LicenseNumber)),
       Val(Get(r, BloodGroup)), Val(Get(r, Salary))]
    case Suppliers =>
      [Val(Get(r, Name)), Val(Get(r, Mobile)), Val(Get(r, Address))]
  }

  /** A sheet: its name and the records it lists. */
  datatype Sheet = Sheet(name: string, dataset: Dataset, records: seq<Row>)
  {
    /** The row objects handed to the sheet builder: one per record, in
        order, with the dataset's columns. */
    function Rows(): (rows: seq<seq<Field>>)
      ensures |rows| == |records|
      ensures forall i :: 0 <= i < |rows| ==> rows[i] == Named(dataset, SheetCells(dataset, records[i]))
    {
      Map(records, r => Named(dataset, SheetCells(dataset, r)))
    }
  }

  /** The trip balance reads the same in both formats: the PDF shows the
      workbook's balance value after 'Rs.'; payments are dated alike. */
  lemma BalanceAgrees(t: Row)
    ensures PdfRow(Trips, t)[6] == Text("Rs." + JsString(SheetCells(Trips, t)[7].v))
    ensures PdfRow(Payments, t)[0] == SheetCells(Payments, t)[0]
  {
  }

  /** The workbook being assembled. */
  class Workbook {
    /** The sheets appended so far, in order. */
    var sheets: seq<Sheet>

    /** `book_new` */
    constructor ()
      ensures sheets == []
    {
      sheets := [];
    }

    /** `book_append_sheet`: adds a sheet at the end. */
    method AppendSheet(s: Sheet)
      modifies this
      ensures sheets == old(sheets) + [s]
    {
      sheets := sheets + [s];
    }
  }

  /** The six sheets of the workbook, in order, each listing all of its
      dataset's records. */
  function WorkbookSheets(data: Dashboard.ReportData): (ss: seq<Sheet>)
    ensures |ss| == 6
    ensures forall i :: 0 <= i < 6 ==> ss[i].name == SheetName(ss[i].dataset) && ss[i].records == Records(data, ss[i].dataset)
  {
    [Sheet("Trips", Trips, data.trips), Sheet("Fuel Expenses", FuelExpenses, data.fuelExpenses),
     Sheet("General Expenses", Expenses, data.expenses), Sheet("Payments", Payments, data.payments),
     Sheet("Drivers", Drivers, data.drivers), Sheet("Suppliers", Suppliers, data.suppliers)]
  }

  /** `generateExcelReport`: appends six sheets, Trips, Fuel Expenses,
      General Expenses, Payments, Drivers and Suppliers, empty datasets
      included. */
  method GenerateExcel(data: Dashboard.ReportData) returns (wb: Workbook)
    ensures fresh(wb)
    ensures wb.sheets == WorkbookSheets(data)
  {
    wb := new Workbook();
    wb.AppendSheet(Sheet("Trips", Trips, data.trips));
    wb.AppendSheet(Sheet("Fuel Expenses", FuelExpenses, data.fuelExpenses));
    wb.AppendSheet(Sheet("General Expenses", Expenses, data.expenses));
    wb.AppendSheet(Sheet("Payments", Payments, data.payments));
    wb.AppendSheet(Sheet("Drivers", Drivers, data.drivers));
    wb.AppendSheet(Sheet("Suppliers", Suppliers, data.suppliers));
  }

  /** Unlike the PDF, the workbook keeps a sheet for every dataset: its
      sheet names never depend on the data. */
  lemma WorkbookAlwaysSix(a: Dashboard.ReportData, b: Dashboard.ReportData)
    ensures |WorkbookSheets(a)| == |WorkbookSheets(b)| == 6
    ensures forall i :: 0 <= i < 6 ==> WorkbookSheets(a)[i].name == WorkbookSheets(b)[i].name
  {
  }

  /** A report with no records at all draws no table in the PDF. */
  lemma EmptyReportDrawsNothing(data: Dashboard.ReportData)
    requires data.trips == [] && data.fuelExpenses == [] && data.expenses == []
    requires data.payments == [] && data.drivers == [] && data.suppliers == []
    ensures Filter(PdfTables(data), HasRows) == []
  {
    FilterNone(PdfTables(data), HasRows);
  }
}

=== FILE: select.dfy ===
/** The dropdown select: the label shown for the current value, the change
    event a choice emits, and the rows of the open menu. */
module Select {
  import opened Js

  /** An entry of `options`. */
  datatype Choice = Choice(value: JsValue, text: JsValue)

  /** `options.find(opt => opt.value === value)`, as the position of the
      first option whose value is strictly equal to `value`. */
  function FindChoice(options: seq<Choice>, value: JsValue): (r: Option<nat>)
    ensures r.Some? ==> r.value < |options| && StrictEquals(options[r.value].value, value)
    ensures r.Some? ==> forall j :: 0 <= j < r.value ==> !StrictEquals(options[j].value, value)
    ensures r.None? <==> forall j :: 0 <= j < |options| ==> !StrictEquals(options[j].value, value)
  {
    if options == [] then None
    else if StrictEquals(options[0].value, value) then Some(0)
    else
      var rest := FindChoice(options[1..], value);
      if rest.Some? then Some(rest.value + 1) else None
  }

  /** The `placeholder` prop, 'Select' when it is not given. */
  function Placeholder(given: JsValue): (p: JsValue)
    ensures given == Undefined ==> p == Str("Select")
    ensures given != Undefined ==> p == given
  {
    if given == Undefined then Str("Select") else given
  }

  /** `getSelectedLabel()`: the label of the first option whose value is
      strictly equal to the current value, else the placeholder. */
  function SelectedLabel(options: seq<Choice>, value: JsValue, placeholder: JsValue): (shown: JsValue)
    ensures (exists j :: 0 <= j < |options| && StrictEquals(options[j].value, value)) ==>
      exists j :: 0 <= j < |options| && StrictEquals(options[j].value, value) && shown == options[j].text &&
        forall i :: 0 <= i < j ==> !StrictEquals(options[i].value, value)
    ensures (forall j :: 0 <= j < |options| ==> !StrictEquals(options[j].value, value)) ==>
      shown == Placeholder(placeholder)
  {
    var found := FindChoice(options, value);
    if found.Some? then options[found.value].text else Placeholder(placeholder)
  }

  /** The change event a choice emits: `{ target: { name, value } }`. */
  datatype ChangeEvent = ChangeEvent(name: JsValue, value: JsValue)

  /** `handleSelect(optionValue)`: the emitted event and whether the menu
      stays open. */
  datatype Picked = Picked(event: ChangeEvent, isOpen: bool)

  function HandleSelect(name: JsValue, optionValue: JsValue): (p: Picked)
    ensures p.event.name == name && p.event.value == optionValue && !p.isOpen
  {
    Picked(ChangeEvent(name, optionValue), false)
  }

  /** No two options share a value. */
  predicate DistinctValues(options: seq<Choice>) {
    forall i, j :: 0 <= i < j < |options| ==> options[i].value != options[j].value
  }

  /** Once the parent stores the picked value, the select shows the label
      of the option that was clicked (values distinct and not NaN). */
  lemma PickedLabelShows(options: seq<Choice>, i: nat, name: JsValue, placeholder: JsValue)
    requires i < |options| && DistinctValues(options) && options[i].value != NaN
    ensures SelectedLabel(options, HandleSelect(name, options[i].value).event.value, placeholder) == options[i].text
  {
    var found := FindChoice(options, options[i].value);
    assert found.Some?;
    assert found.value == i;
  }

  /** A row of the open menu. */
  datatype Row = OptionRow(value: JsValue, text: JsValue, highlighted: bool) | NoOptionsRow

  /** The open menu: one row per option, highlighted when its value is
      strictly equal to the current value, and a lone 'No options' row for
      an empty list; nothing when closed. */
  function MenuRows(isOpen: bool, options: seq<Choice>, value: JsValue): (rows: seq<Row>)
    ensures !isOpen ==> rows == []
    ensures isOpen && options == [] ==> rows == [NoOptionsRow]
    ensures isOpen && options != [] ==> |rows| == |options|
    ensures isOpen && options != [] ==> forall i :: 0 <= i < |options| ==>
      rows[i] == OptionRow(options[i].value, options[i].text, StrictEquals(value, options[i].value))
  {
    if !isOpen then []
    else if options == [] then [NoOptionsRow]
    else Map(options, (c: Choice) => OptionRow(c.value, c.text, StrictEquals(value, c.value)))
  }

  /** The 'No options' row shows exactly when the open menu has no options. */
  lemma NoOptionsIffEmpty(isOpen: bool, options: seq<Choice>, value: JsValue)
    requires isOpen
    ensures NoOptionsRow in MenuRows(isOpen, options, value) <==> options == []
  {
  }

  /** When some row is highlighted, the closed select shows the label of the
      first highlighted row. */
  lemma LabelOfFirstHighlighted(options: seq<Choice>, value: JsValue, placeholder: JsValue, k: nat)
    requires k < |options|
    requires MenuRows(true, options, value)[k].highlighted
    requires forall i :: 0 <= i < k ==> !MenuRows(true, options, value)[i].highlighted
    ensures SelectedLabel(options, value, placeholder) == MenuRows(true, options, value)[k].text
  {
    var rows := MenuRows(true, options, value);
    var found := FindChoice(options, value);
    assert StrictEquals(options[k].value, value);
    assert found.Some?;
  }
}

=== FILE: server.dfy ===
/** The REST server's trip, payment and driver routes over an in-memory picture
    of the database. A table row is a `Js.JsObject` from column name to value;
    numeric columns hold `Num(n)` or `Null`. Each route is a function from the
    database, the caller's id and the request to the reply and the new
    database. Identifiers the database would generate are parameters. */
module Server {
  import opened Js

  datatype Truck = Truck(id: string, ownerId: string, truckNumber: JsValue, model: JsValue)

  /** A row of `payments`: `amount` and `payment_date` are NOT NULL columns. */
  datatype Payment = Payment(tripId: JsValue, amount: int, paymentDate: JsValue, mode: JsValue)

  type Row = JsObject

  datatype Db = Db(trucks: seq<Truck>, trips: seq<Row>, payments: seq<Payment>, drivers: seq<Row>)

  /** An HTTP reply: status code, JSON rows (one for a single object) and
      the error message of a failure. */
  datatype Reply = Reply(code: int, rows: seq<Row>, message: string)

  function Fail(code: int, message: string): Reply {
    Reply(code, [], message)
  }

  // ---------------------------------------------------------------------
  // SQL value rules

  /** A request value bound as a query parameter: `undefined` is sent as NULL. */
  function Param(v: JsValue): JsValue {
    if v == Undefined then Null else v
  }

  /** A value stored into a DECIMAL / INTEGER column: numbers stay, NULL stays
      NULL (JSON carries NaN as null), numeric text is cast, anything else
      makes the statement fail (None). */
  function NumericCell(v: JsValue): Option<JsValue> {
    match v
    case Num(n) => Some(Num(n))
    case Undefined => Some(Null)
    case Null => Some(Null)
    case NaN => Some(Null)
    case Str(s) =>
      var parsed := StrictNumber(Trim(s));
      if parsed.Some? then Some(Num(parsed.value)) else None
    case Bool(_) => None
    case Stamp(_, _) => None
  }

  /** A numeric column as SQL reads it in COALESCE / SUM; None is NULL. */
  function SqlNumber(v: JsValue): Option<int> {
    if v.Num? then Some(v.n) else None
  }

  // ---------------------------------------------------------------------
  // Settlement: order value, amount paid and the derived status

  /** `COALESCE(t.total_order_value, t.amount, 0)`: the legacy `amount`
      column stands in for trips created before `total_order_value`. */
  function OrderValue(trip: Row): (v: int)
    ensures SqlNumber(Get(trip, TotalOrderValue)).Some? ==> v == Get(trip, TotalOrderValue).n
    ensures (SqlNumber(Get(trip, TotalOrderValue)).None? && SqlNumber(Get(trip, Amount)).Some?) ==>
              v == Get(trip, Amount).n
    ensures (SqlNumber(Get(trip, TotalOrderValue)).None? && SqlNumber(Get(trip, Amount)).None?) ==>
              v == 0
  {
    match SqlNumber(Get(trip, TotalOrderValue))
    case Some(n) => n
    case None => SqlNumber(Get(trip, Amount)).GetOr(0)
  }

  function PaymentsOf(payments: seq<Payment>, tripId: JsValue): seq<Payment> {
    Filter(payments, (p: Payment) => p.tripId == tripId)
  }

  /** `COALESCE(SUM(p.amount), 0)` over the trip's payments: 0 without
      any, and never negative when no payment is. */
  function AmountPaid(db: Db, tripId: JsValue): (paid: int)
    ensures (forall i :: 0 <= i < |db.payments| ==> db.payments[i].tripId != tripId) ==> paid == 0
    ensures (forall i :: 0 <= i < |db.payments| ==> db.payments[i].amount >= 0) ==> paid >= 0
  {
    var mine := PaymentsOf(db.payments, tripId);
    assert (forall i :: 0 <= i < |db.payments| ==> db.payments[i].tripId != tripId) ==> mine == [] by {
      if forall i :: 0 <= i < |db.payments| ==> db.payments[i].tripId != tripId {
        FilterNone(db.payments, (p: Payment) => p.tripId == tripId);
      }
    }
    assert (forall i :: 0 <= i < |db.payments| ==> db.payments[i].amount >= 0) ==>
           Sum(mine, (p: Payment) => p.amount) >= 0 by {
      if forall i :: 0 <= i < |db.payments| ==> db.payments[i].amount >= 0 {
        FilterMembers(db.payments, (p: Payment) => p.tripId == tripId);
        assert forall i :: 0 <= i < |mine| ==> mine[i] in db.payments;
        SumNonNegative(mine, (p: Payment) => p.amount);
      }
    }
    Sum(mine, (p: Payment) => p.amount)
  }

  /** The derived settlement status: received exactly when the payments
      cover the order value; a tie counts as received. */
  function DerivedStatus(db: Db, trip: Row): (s: string)
    ensures s == "received" <==> AmountPaid(db, Get(trip, Id)) >= OrderValue(trip)
    ensures s == "received" || s == "pending"
  {
    if AmountPaid(db, Get(trip, Id)) >= OrderValue(trip) then "received" else "pending"
  }

  lemma {:induction false} PaidAmountNoPayments(db: Db, tripId: JsValue)
    requires forall i :: 0 <= i < |db.payments| ==> db.payments[i].tripId != tripId
    ensures AmountPaid(db, tripId) == 0
  {
    FilterNone(db.payments, (p: Payment) => p.tripId == tripId);
  }

  /** A new payment row adds its amount to its own trip's total and leaves
      every other trip's total as it was. */
  lemma PaidAmountAppend(db: Db, p: Payment, tripId: JsValue)
    ensures AmountPaid(db.(payments := db.payments + [p]), tripId)
            == AmountPaid(db, tripId) + (if p.tripId == tripId then p.amount else 0)
  {
    var f := (q: Payment) => q.tripId == tripId;
    var ps := db.payments + [p];
    assert ps[..|ps| - 1] == db.payments;
    var kept := PaymentsOf(db.payments, tripId);
    SumAppend(kept, if f(p) then [p] else [], (q: Payment) => q.amount);
  }

  // ---------------------------------------------------------------------
  // GET /api/trips and GET /api/payments

  function TruckOf(trucks: seq<Truck>, truckId: JsValue): (r: Option<Truck>)
    ensures r.Some? ==> r.value in trucks && Str(r.value.id) == truckId
    ensures r.None? ==> forall i :: 0 <= i < |trucks| ==> Str(trucks[i].id) != truckId
  {
    if trucks == [] then None
    else if Str(trucks[0].id) == truckId then Some(trucks[0])
    else TruckOf(trucks[1..], truckId)
  }

  /** The trip joins a truck of the caller. */
  predicate OwnedTrip(db: Db, trip: Row, owner: string) {
    var tr := TruckOf(db.trucks, Get(trip, TruckId));
    tr.Some? && tr.value.ownerId == owner
  }

  function Copy(trip: Row, columns: set<Key>): Row {
    map c | c in columns :: Get(trip, c)
  }

  function TruckColumn(db: Db, trip: Row, number: bool): JsValue {
    var tr := TruckOf(db.trucks, Get(trip, TruckId));
    if tr.None? then Null else if number then tr.value.truckNumber else tr.value.model
  }

  /** One row of GET /api/trips. */
  function TripRow(db: Db, trip: Row): (r: Row)
    ensures Get(r, Id) == Get(trip, Id) && Get(r, TripDate) == Get(trip, TripDate)
    ensures Get(r, Amount) == Num(OrderValue(trip))
    ensures Get(r, PaidAmount) == Num(AmountPaid(db, Get(trip, Id)))
    ensures Get(r, Status) == Str("received") <==> AmountPaid(db, Get(trip, Id)) >= OrderValue(trip)
  {
    Copy(trip, {Id, TruckId, TripDate, Supplier, Client, Location, Material,
                MaterialPrice, TripsCount, TotalOrderValue, Profit, TotalExpense, Remark})
    [Amount := Num(OrderValue(trip))]
    [TruckNumber := TruckColumn(db, trip, true)]
    [TruckModel := TruckColumn(db, trip, false)]
    [PaidAmount := Num(AmountPaid(db, Get(trip, Id)))]
    [Status := Str(DerivedStatus(db, trip))]
  }

  /** One row of GET /api/payments: the trip's date is renamed `date`, and
      there is no `trip_id`, `truck_id` or `created_at` column. */
  function PaymentRow(db: Db, trip: Row): (r: Row)
    ensures TripId !in r && CreatedAt !in r && TruckId !in r
    ensures Get(r, Id) == Get(trip, Id) && Get(r, Date) == Get(trip, TripDate)
    ensures Get(r, Amount) == Num(OrderValue(trip))
    ensures Get(r, PaidAmount) == Num(AmountPaid(db, Get(trip, Id)))
    ensures Get(r, Status) == Str("received") <==> AmountPaid(db, Get(trip, Id)) >= OrderValue(trip)
  {
    Copy(trip, {Id, Client, Supplier, Material, MaterialPrice, TripsCount, Location,
                Profit, TotalExpense, Remark})
    [Date := Get(trip, TripDate)]
    [Amount := Num(OrderValue(trip))]
    [TruckNumber := TruckColumn(db, trip, true)]
    [TruckModel := TruckColumn(db, trip, false)]
    [PaidAmount := Num(AmountPaid(db, Get(trip, Id)))]
    [Status := Str(DerivedStatus(db, trip))]
  }

  function OwnedTrips(db: Db, owner: string): seq<Row> {
    Filter(db.trips, (t: Row) => OwnedTrip(db, t, owner))
  }

  /** GET /api/trips (rows in table order): one row per trip of the
      caller's trucks, with its paid amount and derived status. */
  function TripListing(db: Db, owner: string): (r: seq<Row>)
    ensures |r| == |OwnedTrips(db, owner)|
    ensures forall i :: 0 <= i < |r| ==>
      var t := OwnedTrips(db, owner)[i];
      t in db.trips && OwnedTrip(db, t, owner) &&
      Get(r[i], Id) == Get(t, Id) && Get(r[i], PaidAmount) == Num(AmountPaid(db, Get(t, Id))) &&
      (Get(r[i], Status) == Str("received") <==> AmountPaid(db, Get(t, Id)) >= OrderValue(t))
  {
    FilterMembers(db.trips, (t: Row) => OwnedTrip(db, t, owner));
    Map(OwnedTrips(db, owner), (t: Row) => TripRow(db, t))
  }

  /** GET /api/payments (rows in table order): the same trips, dated by
      `date`, with their paid amount and derived status. */
  function PaymentListing(db: Db, owner: string): (r: seq<Row>)
    ensures |r| == |OwnedTrips(db, owner)|
    ensures forall i :: 0 <= i < |r| ==>
      var t := OwnedTrips(db, owner)[i];
      t in db.trips && OwnedTrip(db, t, owner) &&
      Get(r[i], Id) == Get(t, Id) && Get(r[i], Date) == Get(t, TripDate) &&
      Get(r[i], PaidAmount) == Num(AmountPaid(db, Get(t, Id))) &&
      (Get(r[i], Status) == Str("received") <==> AmountPaid(db, Get(t, Id)) >= OrderValue(t))
  {
    FilterMembers(db.trips, (t: Row) => OwnedTrip(db, t, owner));
    Map(OwnedTrips(db, owner), (t: Row) => PaymentRow(db, t))
  }

  /** The two listings show the same trips with the same order value, paid
      amount and status, so the trip screens and the payment screens never
      disagree about whether a trip is settled. */
  lemma ListingsAgree(db: Db, owner: string)
    ensures |TripListing(db, owner)| == |PaymentListing(db, owner)|
    ensures forall i :: 0 <= i < |TripListing(db, owner)| ==>
      var t, p := TripListing(db, owner)[i], PaymentListing(db, owner)[i];
      Get(t, Id) == Get(p, Id) && Get(t, TripDate) == Get(p, Date) &&
      Get(t, Amount) == Get(p, Amount) && Get(t, PaidAmount) == Get(p, PaidAmount) &&
      Get(t, Status) == Get(p, Status)
  {
  }

  /** Every listed trip is the caller's, and every trip of the caller is listed. */
  lemma TripListingScope(db: Db, owner: string, trip: Row)
    ensures trip in OwnedTrips(db, owner) <==> trip in db.trips && OwnedTrip(db, trip, owner)
  {
    FilterMembers(db.trips, (t: Row) => OwnedTrip(db, t, owner));
  }

  /** No row of GET /api/payments carries `trip_id` or `created_at`. */
  lemma PaymentListingKeys(db: Db, owner: string)
    ensures forall r :: r in PaymentListing(db, owner) ==>
      Get(r, TripId) == Undefined && Get(r, CreatedAt) == Undefined && Get(r, TruckId) == Undefined
  {
  }

  // ---------------------------------------------------------------------
  // POST /api/trips

  function OwnedTruck(db: Db, truckId: JsValue, owner: string): bool {
    exists i :: 0 <= i < |db.trucks| && Str(db.trucks[i].id) == truckId && db.trucks[i].ownerId == owner
  }

  /** The row INSERT INTO trips stores; None when a numeric value cannot be
      cast. The status column is seeded from `payment_status`. */
  function NewTripRow(body: Row, id: string): (r: Option<Row>)
    ensures r.Some? ==> Get(r.value, Id) == Str(id) && Get(r.value, TruckId) == Param(Get(body, TruckId))
    ensures r.Some? ==> Get(r.value, TripDate) == Param(Get(body, TripDate))
    ensures r.Some? ==> Get(r.value, Status) == Str(if Get(body, PaymentStatus) == Str("received") then "received" else "pending")
    ensures r.Some? <==>
      NumericCell(Get(body, MaterialPrice)).Some? && NumericCell(Get(body, TripsCount)).Some? &&
      NumericCell(Get(body, TotalOrderValue)).Some? && NumericCell(Get(body, Profit)).Some? &&
      NumericCell(Get(body, TotalExpense)).Some?
  {
    var price := NumericCell(Get(body, MaterialPrice));
    var count := NumericCell(Get(body, TripsCount));
    var order := NumericCell(Get(body, TotalOrderValue));
    var profit := NumericCell(Get(body, Profit));
    var expense := NumericCell(Get(body, TotalExpense));
    if price.None? || count.None? || order.None? || profit.None? || expense.None? then None
    else Some(InsertedTrip(body, id, price.value, count.value, order.value, profit.value, expense.value))
  }

  /** The columns of an inserted trip, given its cast numeric values. */
  function InsertedTrip(body: Row, id: string, price: JsValue, count: JsValue, order: JsValue,
                        profit: JsValue, expense: JsValue): (r: Row)
    ensures Get(r, Id) == Str(id) && Get(r, TruckId) == Param(Get(body, TruckId))
    ensures Get(r, TripDate) == Param(Get(body, TripDate))
    ensures Get(r, Status) == Str(if Get(body, PaymentStatus) == Str("received") then "received" else "pending")
  {
    map[
      Id := Str(id),
      TruckId := Param(Get(body, TruckId)),
      TripDate := Param(Get(body, TripDate)),
      Supplier := Param(Get(body, Supplier)),
      Client := Param(Get(body, Client)),
      Location := Param(Get(body, Location)),
      Material := Param(Get(body, Material)),
      MaterialPrice := price,
      TripsCount := count,
      TotalOrderValue := order,
      Profit := profit,
      TotalExpense := expense,
      Remark := Param(Get(body, Remark)),
      Status := Str(if Get(body, PaymentStatus) == Str("received") then "received" else "pending")
    ]
  }

  /** POST /api/trips. The two inserts are separate statements: when the
      payment insert fails, the trip stays stored and the reply is 500. */
  function CreateTrip(db: Db, owner: string, body: Row, newId: string): (r: (Reply, Db))
    ensures r.0.code in {201, 403, 500}
    ensures r.0.code == 403 <==> !OwnedTruck(db, Get(body, TruckId), owner)
    ensures r.0.code == 403 || NewTripRow(body, newId).None? ==> r.1 == db
    ensures OwnedTruck(db, Get(body, TruckId), owner) && NewTripRow(body, newId).None? ==> r.0.code == 500
    ensures r.1.trucks == db.trucks && r.1.drivers == db.drivers
    ensures r.0.code != 403 && NewTripRow(body, newId).Some? ==>
      r.1.trips == db.trips + [NewTripRow(body, newId).value]
    ensures r.0.code == 201 ==> r.0.rows == [NewTripRow(body, newId).value]
    ensures r.0.code != 201 && r.0.code != 403 && NewTripRow(body, newId).Some? ==> r.1.payments == db.payments
  {
    if !OwnedTruck(db, Get(body, TruckId), owner) then (Fail(403, "Unauthorized truck"), db)
    else
      var row := NewTripRow(body, newId);
      if row.None? then (Fail(500, "Server error"), db)
      else
        var db1 := db.(trips := db.trips + [row.value]);
        if Get(body, PaymentStatus) != Str("received") then (Reply(201, [row.value], ""), db1)
        else
          var amount := Get(row.value, TotalOrderValue);
          var date := Get(row.value, TripDate);
          if !amount.Num? || date == Null then (Fail(500, "Server error"), db1)
          else (Reply(201, [row.value], ""), db1.(payments := db.payments + [Payment(Str(newId), amount.n, date, Str("cash"))]))
  }

  predicate FreshTripId(db: Db, id: string) {
    (forall i :: 0 <= i < |db.trips| ==> Get(db.trips[i], Id) != Str(id)) &&
    (forall i :: 0 <= i < |db.payments| ==> db.payments[i].tripId != Str(id))
  }

  /** A trip for a truck of someone else is refused and nothing is stored. */
  lemma CreateTripForeignTruck(db: Db, owner: string, body: Row, newId: string)
    requires !OwnedTruck(db, Get(body, TruckId), owner)
    ensures CreateTrip(db, owner, body, newId).0.code == 403
    ensures CreateTrip(db, owner, body, newId).1 == db
  {
  }

  /** A trip created as received is stored as received together with one cash
      payment of its full order value dated on the trip date, so its derived
      status is received from the start. */
  lemma CreateTripReceived(db: Db, owner: string, body: Row, newId: string)
    requires FreshTripId(db, newId)
    requires Get(body, PaymentStatus) == Str("received")
    requires CreateTrip(db, owner, body, newId).0.code == 201
    ensures var (reply, db2) := CreateTrip(db, owner, body, newId);
      var trip := reply.rows[0];
      db2.trips == db.trips + [trip] &&
      Get(trip, Status) == Str("received") &&
      db2.payments == db.payments + [Payment(Str(newId), OrderValue(trip), Get(body, TripDate), Str("cash"))] &&
      DerivedStatus(db2, trip) == "received"
  {
    var (reply, db2) := CreateTrip(db, owner, body, newId);
    var trip := reply.rows[0];
    var db1 := db.(trips := db.trips + [trip]);
    PaidAmountNoPayments(db1, Str(newId));
    PaidAmountAppend(db1, Payment(Str(newId), OrderValue(trip), Get(body, TripDate), Str("cash")), Str(newId));
  }

  /** Any other payment status stores a pending trip and no payment; its
      derived status is nevertheless received when its order value is 0 or
      less (nothing is owed). */
  lemma CreateTripPending(db: Db, owner: string, body: Row, newId: string)
    requires FreshTripId(db, newId)
    requires Get(body, PaymentStatus) != Str("received")
    requires CreateTrip(db, owner, body, newId).0.code == 201
    ensures var (reply, db2) := CreateTrip(db, owner, body, newId);
      var trip := reply.rows[0];
      db2.trips == db.trips + [trip] && db2.payments == db.payments &&
      Get(trip, Status) == Str("pending") &&
      (DerivedStatus(db2, trip) == "received" <==> OrderValue(trip) <= 0)
  {
    var (reply, db2) := CreateTrip(db, owner, body, newId);
    PaidAmountNoPayments(db2, Str(newId));
  }

  // ---------------------------------------------------------------------
  // POST /api/payments

  /** The trip the payment names, when it belongs to the caller. */
  function OwnedTripById(db: Db, tripId: JsValue, owner: string): (r: Option<Row>)
    ensures r.Some? ==> r.value in db.trips && Get(r.value, Id) == tripId && OwnedTrip(db, r.value, owner)
    ensures r.None? ==> forall t :: t in db.trips && Get(t, Id) == tripId ==> !OwnedTrip(db, t, owner)
  {
    FirstOwned(db, db.trips, tripId, owner)
  }

  function FirstOwned(db: Db, trips: seq<Row>, tripId: JsValue, owner: string): (r: Option<Row>)
    ensures r.Some? ==> r.value in trips && Get(r.value, Id) == tripId && OwnedTrip(db, r.value, owner)
    ensures r.None? ==> forall t :: t in trips && Get(t, Id) == tripId ==> !OwnedTrip(db, t, owner)
  {
    if trips == [] then None
    else if Get(trips[0], Id) == tripId && OwnedTrip(db, trips[0], owner) then Some(trips[0])
    else FirstOwned(db, trips[1..], tripId, owner)
  }

  /** POST /api/payments. The `mode` value is stored as sent, so a request
      without one stores NULL (the column default is not used). */
  function RecordPayment(db: Db, owner: string, body: Row): (r: (Reply, Db))
    ensures r.0.code in {201, 403, 500}
    ensures r.0.code == 403 <==> OwnedTripById(db, Get(body, TripId), owner).None?
    ensures r.0.code == 500 <==>
              OwnedTripById(db, Get(body, TripId), owner).Some? &&
              (NumericCell(Get(body, Amount)).None? || !NumericCell(Get(body, Amount)).value.Num? ||
               Param(Get(body, PaymentDate)) == Null)
    ensures r.0.code != 201 ==> r.1 == db
    ensures r.0.code == 201 ==>
      r.1.trucks == db.trucks && r.1.trips == db.trips && r.1.drivers == db.drivers &&
      |r.1.payments| == |db.payments| + 1 && r.1.payments[..|db.payments|] == db.payments &&
      r.1.payments[|db.payments|].tripId == Get(body, TripId) &&
      r.1.payments[|db.payments|].amount == NumericCell(Get(body, Amount)).value.n &&
      r.1.payments[|db.payments|].mode == Param(Get(body, Mode))
  {
    var trip := OwnedTripById(db, Get(body, TripId), owner);
    if trip.None? then (Fail(403, "Unauthorized trip"), db)
    else
      var amount := NumericCell(Get(body, Amount));
      var date := Param(Get(body, PaymentDate));
      if amount.None? || !amount.value.Num? || date == Null then (Fail(500, "Server error"), db)
      else
        var p := Payment(Get(body, TripId), amount.value.n, date, Param(Get(body, Mode)));
        var row := map[TripId := Get(body, TripId), Amount := Num(p.amount),
                       PaymentDate := date, Mode := p.mode];
        (Reply(201, [row], ""), db.(payments := db.payments + [p]))
  }

  /** A payment for a trip that is not the caller's is refused and nothing is stored. */
  lemma RecordPaymentForeignTrip(db: Db, owner: string, body: Row)
    requires forall t :: t in db.trips && Get(t, Id) == Get(body, TripId) ==> !OwnedTrip(db, t, owner)
    ensures RecordPayment(db, owner, body).0.code == 403
    ensures RecordPayment(db, owner, body).1 == db
  {
  }

  /** A recorded payment raises exactly its own trip's paid amount by the
      amount paid; a trip once received stays received under a payment that is
      not negative. */
  lemma RecordPaymentSettles(db: Db, owner: string, body: Row, trip: Row)
    requires RecordPayment(db, owner, body).0.code == 201
    requires trip in db.trips
    ensures var db2 := RecordPayment(db, owner, body).1;
      var amount := NumericCell(Get(body, Amount)).value.n;
      db2.trips == db.trips &&
      AmountPaid(db2, Get(trip, Id)) ==
        AmountPaid(db, Get(trip, Id)) + (if Get(trip, Id) == Get(body, TripId) then amount else 0) &&
      (amount >= 0 && DerivedStatus(db, trip) == "received" ==> DerivedStatus(db2, trip) == "received")
  {
    var t := OwnedTripById(db, Get(body, TripId), owner);
    var amount := NumericCell(Get(body, Amount)).value.n;
    var p := Payment(Get(body, TripId), amount, Param(Get(body, PaymentDate)), Param(Get(body, Mode)));
    assert Get(t.value, Id) == Get(body, TripId);
    PaidAmountAppend(db, p, Get(trip, Id));
  }

  // ---------------------------------------------------------------------
  // Update statements built field by field

  /** `column = $param` */
  datatype Assignment = Assignment(column: Key, param: nat)

  /** `UPDATE … SET sets WHERE whereParams` with its parameter list. */
  datatype UpdateStatement = UpdateStatement(sets: seq<Assignment>, whereParams: seq<Assignment>, values: seq<JsValue>)

  /** The statement assigns exactly `fields`, in order, then filters on
      `keys`; placeholder $k of each clause is the k-th value, and that value
      is the one the clause is meant to bind. */
  predicate Binds(u: UpdateStatement, fields: seq<(Key, JsValue)>, keys: seq<(Key, JsValue)>) {
    |u.sets| == |fields| && |u.whereParams| == |keys| && |u.values| == |fields| + |keys| &&
    (forall k :: 0 <= k < |fields| ==> u.sets[k] == Assignment(fields[k].0, k + 1) && u.values[k] == fields[k].1) &&
    (forall k :: 0 <= k < |keys| ==>
      u.whereParams[k] == Assignment(keys[k].0, |fields| + k + 1) && u.values[|fields| + k] == keys[k].1)
  }

  /** Each placeholder of a bound statement is in range and reads the value
      meant for its column. */
  lemma BindsPlaceholders(u: UpdateStatement, fields: seq<(Key, JsValue)>, keys: seq<(Key, JsValue)>)
    requires Binds(u, fields, keys)
    ensures forall k :: 0 <= k < |u.sets| ==> 1 <= u.sets[k].param <= |u.values| && u.values[u.sets[k].param - 1] == fields[k].1
    ensures forall k :: 0 <= k < |u.whereParams| ==>
      1 <= u.whereParams[k].param <= |u.values| && u.values[u.whereParams[k].param - 1] == keys[k].1
  {
  }

  datatype Built = Statement(u: UpdateStatement) | Rejected(code: int, message: string)

  /** The clause a request contributes for column `c`: one when `v` holds a
      value to set, none otherwise. */
  function Step(c: Key, v: Option<JsValue>): seq<(Key, JsValue)> {
    if v.Some? then [(c, v.value)] else []
  }

  /** No column is assigned twice. */
  predicate DistinctColumns(fields: seq<(Key, JsValue)>) {
    forall i, j :: 0 <= i < j < |fields| ==> fields[i].0 != fields[j].0
  }

  /** Adding a clause for a column not yet assigned keeps the columns
      distinct; `done` is the set of columns considered so far. */
  lemma StepExtends(fields: seq<(Key, JsValue)>, done: set<Key>, c: Key, v: Option<JsValue>)
    requires DistinctColumns(fields) && (forall k :: 0 <= k < |fields| ==> fields[k].0 in done)
    requires c !in done
    ensures DistinctColumns(fields + Step(c, v))
    ensures forall k :: 0 <= k < |fields + Step(c, v)| ==> (fields + Step(c, v))[k].0 in done + {c}
  {
  }

  /** The clauses so far assign `fields` with placeholders $1..$n. */
  predicate Prefix(updates: seq<Assignment>, values: seq<JsValue>, paramCount: nat, fields: seq<(Key, JsValue)>) {
    |updates| == |fields| && |values| == |fields| && paramCount == |fields| + 1 &&
    forall k :: 0 <= k < |fields| ==> updates[k] == Assignment(fields[k].0, k + 1) && values[k] == fields[k].1
  }

  /** One `if (...) { updates.push(`col = $${paramCount++}`); values.push(x); }`
      step: `v` is the value to set, if any. */
  method PushColumn(updates: seq<Assignment>, values: seq<JsValue>, paramCount: nat,
                    ghost fields: seq<(Key, JsValue)>, column: Key, v: Option<JsValue>)
    returns (updates2: seq<Assignment>, values2: seq<JsValue>, paramCount2: nat)
    requires Prefix(updates, values, paramCount, fields)
    ensures Prefix(updates2, values2, paramCount2, fields + Step(column, v))
  {
    updates2, values2, paramCount2 := updates, values, paramCount;
    if v.Some? {
      updates2 := updates + [Assignment(column, paramCount)];
      values2 := values + [v.value];
      paramCount2 := paramCount + 1;
    }
  }

  /** `values.push(...keys)` and the WHERE clause on $n+1, $n+2, ... */
  method Finish(updates: seq<Assignment>, values: seq<JsValue>, paramCount: nat, ghost fields: seq<(Key, JsValue)>,
                keys: seq<(Key, JsValue)>)
    returns (u: UpdateStatement)
    requires Prefix(updates, values, paramCount, fields)
    ensures Binds(u, fields, keys)
  {
    var where: seq<Assignment> := [];
    var vals := values;
    var i := 0;
    while i < |keys|
      invariant 0 <= i <= |keys|
      invariant |where| == i && |vals| == |fields| + i
      invariant forall k :: 0 <= k < |fields| ==> vals[k] == fields[k].1
      invariant forall k :: 0 <= k < i ==> where[k] == Assignment(keys[k].0, paramCount + k) && vals[|fields| + k] == keys[k].1
    {
      where := where + [Assignment(keys[i].0, paramCount + i)];
      vals := vals + [keys[i].1];
      i := i + 1;
    }
    u := UpdateStatement(updates, where, vals);
  }

  /** A field the request supplies, that is, one that is not undefined. */
  function Supplied(body: Row, c: Key): Option<JsValue> {
    if Get(body, c) != Undefined then Some(Get(body, c)) else None
  }

  // ---- PATCH /api/drivers/:id

  /** A driver request: its fields, and `mobiles` when the request has a
      (truthy) list. */
  datatype DriverBody = DriverBody(fields: Row, mobiles: Option<seq<JsValue>>)

  function Primary(mobiles: Option<seq<JsValue>>): JsValue {
    if mobiles.Some? && |mobiles.value| > 0 then mobiles.value[0] else Null
  }

  function Secondary(mobiles: Option<seq<JsValue>>): JsValue {
    if mobiles.Some? && |mobiles.value| > 1 then mobiles.value[1] else Null
  }

  const DriverColumns: set<Key> :=
    {Name, LicenseNumber, PhotoUrl, AadharUrl, MobilePrimary, MobileSecondary,
     BloodGroup, Salary, Advance, AssignedTruckId}

  /** The primary number a driver update sets: `mobiles[0]` when present. */
  function PrimaryValue(mobiles: Option<seq<JsValue>>): Option<JsValue> {
    if Primary(mobiles) != Null then Some(Primary(mobiles)) else None
  }

  /** The secondary number a driver update sets: `mobiles[1]` when present,
      an explicit NULL when the list has exactly one entry. */
  function SecondaryValue(mobiles: Option<seq<JsValue>>): Option<JsValue> {
    if Secondary(mobiles) != Null then Some(Secondary(mobiles))
    else if mobiles.Some? && |mobiles.value| == 1 then Some(Null)
    else None
  }

  function PersonalFields(body: DriverBody): seq<(Key, JsValue)> {
    Step(Name, Supplied(body.fields, Name)) + Step(LicenseNumber, Supplied(body.fields, LicenseNumber)) +
    Step(PhotoUrl, Supplied(body.fields, PhotoUrl)) + Step(AadharUrl, Supplied(body.fields, AadharUrl))
  }

  function MobileFields(body: DriverBody): seq<(Key, JsValue)> {
    Step(MobilePrimary, PrimaryValue(body.mobiles)) + Step(MobileSecondary, SecondaryValue(body.mobiles))
  }

  function EmploymentFields(body: DriverBody): seq<(Key, JsValue)> {
    Step(BloodGroup, Supplied(body.fields, BloodGroup)) + Step(Salary, Supplied(body.fields, Salary)) +
    Step(Advance, Supplied(body.fields, Advance)) + Step(AssignedTruckId, Supplied(body.fields, AssignedTruckId))
  }

  /** The columns a driver update sets, in the route's order. */
  function DriverFields(body: DriverBody): seq<(Key, JsValue)> {
    PersonalFields(body) + MobileFields(body) + EmploymentFields(body)
  }

  method PushPersonal(updates: seq<Assignment>, values: seq<JsValue>, paramCount: nat,
                      ghost fields: seq<(Key, JsValue)>, body: DriverBody)
    returns (updates2: seq<Assignment>, values2: seq<JsValue>, paramCount2: nat)
    requires Prefix(updates, values, paramCount, fields)
    ensures Prefix(updates2, values2, paramCount2, fields + PersonalFields(body))
  {
    ghost var f := fields;
    updates2, values2, paramCount2 := PushColumn(updates, values, paramCount, f, Name, Supplied(body.fields, Name));
    f := f + Step(Name, Supplied(body.fields, Name));
    updates2, values2, paramCount2 := PushColumn(updates2, values2, paramCount2, f, LicenseNumber, Supplied(body.fields, LicenseNumber));
    f := f + Step(LicenseNumber, Supplied(body.fields, LicenseNumber));
    updates2, values2, paramCount2 := PushColumn(updates2, values2, paramCount2, f, PhotoUrl, Supplied(body.fields, PhotoUrl));
    f := f + Step(PhotoUrl, Supplied(body.fields, PhotoUrl));
    updates2, values2, paramCount2 := PushColumn(updates2, values2, paramCount2, f, AadharUrl, Supplied(body.fields, AadharUrl));
    f := f + Step(AadharUrl, Supplied(body.fields, AadharUrl));
    assert f == fields + PersonalFields(body);
  }

  /** The mobile part of the route: the primary number when there is one; the
      secondary when there is one, else NULL for a one-entry list. */
  method PushMobiles(updates: seq<Assignment>, values: seq<JsValue>, paramCount: nat,
                     ghost fields: seq<(Key, JsValue)>, body: DriverBody)
    returns (updates2: seq<Assignment>, values2: seq<JsValue>, paramCount2: nat)
    requires Prefix(updates, values, paramCount, fields)
    ensures Prefix(updates2, values2, paramCount2, fields + MobileFields(body))
  {
    var primary := Primary(body.mobiles);
    var secondary := Secondary(body.mobiles);
    updates2, values2, paramCount2 := updates, values, paramCount;
    if primary != Null {
      updates2, values2, paramCount2 := updates2 + [Assignment(MobilePrimary, paramCount2)], values2 + [primary], paramCount2 + 1;
    }
    ghost var f := fields + Step(MobilePrimary, PrimaryValue(body.mobiles));
    if secondary != Null {
      updates2, values2, paramCount2 := updates2 + [Assignment(MobileSecondary, paramCount2)], values2 + [secondary], paramCount2 + 1;
    } else if body.mobiles.Some? && |body.mobiles.value| == 1 {
      updates2, values2, paramCount2 := updates2 + [Assignment(MobileSecondary, paramCount2)], values2 + [Null], paramCount2 + 1;
    }
    f := f + Step(MobileSecondary, SecondaryValue(body.mobiles));
    assert f == fields + MobileFields(body);
  }

  method PushEmployment(updates: seq<Assignment>, values: seq<JsValue>, paramCount: nat,
                        ghost fields: seq<(Key, JsValue)>, body: DriverBody)
    returns (updates2: seq<Assignment>, values2: seq<JsValue>, paramCount2: nat)
    requires Prefix(updates, values, paramCount, fields)
    ensures Prefix(updates2, values2, paramCount2, fields + EmploymentFields(body))
  {
    ghost var f := fields;
    updates2, values2, paramCount2 := PushColumn(updates, values, paramCount, f, BloodGroup, Supplied(body.fields, BloodGroup));
    f := f + Step(BloodGroup, Supplied(body.fields, BloodGroup));
    updates2, values2, paramCount2 := PushColumn(updates2, values2, paramCount2, f, Salary, Supplied(body.fields, Salary));
    f := f + Step(Salary, Supplied(body.fields, Salary));
    updates2, values2, paramCount2 := PushColumn(updates2, values2, paramCount2, f, Advance, Supplied(body.fields, Advance));
    f := f + Step(Advance, Supplied(body.fields, Advance));
    updates2, values2, paramCount2 := PushColumn(updates2, values2, paramCount2, f, AssignedTruckId, Supplied(body.fields, AssignedTruckId));
    f := f + Step(AssignedTruckId, Supplied(body.fields, AssignedTruckId));
    assert f == fields + EmploymentFields(body);
  }

  /** Builds PATCH /api/drivers/:id's statement: one clause per supplied
      column, numbered $1..$n, then `id = $n+1 AND owner_id = $n+2`; an update
      with nothing to set is refused with 400. */
  method BuildDriverUpdate(body: DriverBody, id: string, owner: string) returns (r: Built)
    ensures r.Rejected? <==> DriverFields(body) == []
    ensures r.Rejected? ==> r.code == 400
    ensures r.Statement? ==> Binds(r.u, DriverFields(body), [(Id, Str(id)), (OwnerId, Str(owner))])
  {
    var updates: seq<Assignment> := [];
    var values: seq<JsValue> := [];
    var paramCount: nat := 1;
    updates, values, paramCount := PushPersonal(updates, values, paramCount, [], body);
    updates, values, paramCount := PushMobiles(updates, values, paramCount, [] + PersonalFields(body), body);
    updates, values, paramCount := PushEmployment(updates, values, paramCount, [] + PersonalFields(body) + MobileFields(body), body);
    ghost var fields := [] + PersonalFields(body) + MobileFields(body) + EmploymentFields(body);
    assert fields == DriverFields(body);
    if |updates| == 0 {
      return Rejected(400, "No fields to update");
    }
    var u := Finish(updates, values, paramCount, fields, [(Id, Str(id)), (OwnerId, Str(owner))]);
    r := Statement(u);
  }

  /** Joining clause lists over disjoint column sets keeps columns distinct. */
  lemma AppendDistinct(a: seq<(Key, JsValue)>, b: seq<(Key, JsValue)>, ca: set<Key>, cb: set<Key>)
    requires DistinctColumns(a) && DistinctColumns(b) && ca !! cb
    requires forall k :: 0 <= k < |a| ==> a[k].0 in ca
    requires forall k :: 0 <= k < |b| ==> b[k].0 in cb
    ensures DistinctColumns(a + b)
    ensures forall k :: 0 <= k < |a + b| ==> (a + b)[k].0 in ca + cb
  {
    forall i, j | 0 <= i < j < |a + b| ensures (a + b)[i].0 != (a + b)[j].0 {
      if j < |a| {
      } else if i >= |a| {
        assert (a + b)[i] == b[i - |a|] && (a + b)[j] == b[j - |a|];
      } else {
        assert (a + b)[i].0 in ca && (a + b)[j] == b[j - |a|];
      }
    }
  }

  lemma PersonalDistinct(body: DriverBody)
    ensures DistinctColumns(PersonalFields(body))
    ensures forall k :: 0 <= k < |PersonalFields(body)| ==> PersonalFields(body)[k].0 in {Name, LicenseNumber, PhotoUrl, AadharUrl}
  {
    StepExtends([], {}, Name, Supplied(body.fields, Name));
    var s1 := Step(Name, Supplied(body.fields, Name));
    StepExtends(s1, {Name}, LicenseNumber, Supplied(body.fields, LicenseNumber));
    var s2 := s1 + Step(LicenseNumber, Supplied(body.fields, LicenseNumber));
    StepExtends(s2, {Name, LicenseNumber}, PhotoUrl, Supplied(body.fields, PhotoUrl));
    var s3 := s2 + Step(PhotoUrl, Supplied(body.fields, PhotoUrl));
    StepExtends(s3, {Name, LicenseNumber, PhotoUrl}, AadharUrl, Supplied(body.fields, AadharUrl));
  }

  lemma EmploymentDistinct(body: DriverBody)
    ensures DistinctColumns(EmploymentFields(body))
    ensures forall k :: 0 <= k < |EmploymentFields(body)| ==> EmploymentFields(body)[k].0 in {BloodGroup, Salary, Advance, AssignedTruckId}
  {
    StepExtends([], {}, BloodGroup, Supplied(body.fields, BloodGroup));
    var s1 := Step(BloodGroup, Supplied(body.fields, BloodGroup));
    StepExtends(s1, {BloodGroup}, Salary, Supplied(body.fields, Salary));
    var s2 := s1 + Step(Salary, Supplied(body.fields, Salary));
    StepExtends(s2, {BloodGroup, Salary}, Advance, Supplied(body.fields, Advance));
    var s3 := s2 + Step(Advance, Supplied(body.fields, Advance));
    StepExtends(s3, {BloodGroup, Salary, Advance}, AssignedTruckId, Supplied(body.fields, AssignedTruckId));
  }

  /** A driver update never sets a column twice, and sets only driver columns. */
  lemma DriverFieldsDistinct(body: DriverBody)
    ensures DistinctColumns(DriverFields(body))
    ensures forall k :: 0 <= k < |DriverFields(body)| ==> DriverFields(body)[k].0 in DriverColumns
  {
    PersonalDistinct(body);
    EmploymentDistinct(body);
    var mobiles := MobileFields(body);
    StepExtends([], {}, MobilePrimary, PrimaryValue(body.mobiles));
    StepExtends(Step(MobilePrimary, PrimaryValue(body.mobiles)), {MobilePrimary}, MobileSecondary, SecondaryValue(body.mobiles));
    AppendDistinct(PersonalFields(body), mobiles, {Name, LicenseNumber, PhotoUrl, AadharUrl}, {MobilePrimary, MobileSecondary});
    AppendDistinct(PersonalFields(body) + mobiles, EmploymentFields(body),
                   {Name, LicenseNumber, PhotoUrl, AadharUrl, MobilePrimary, MobileSecondary},
                   {BloodGroup, Salary, Advance, AssignedTruckId});
  }

  /** A one-entry `mobiles` list clears the secondary number explicitly. */
  lemma SingleMobileClearsSecondary(body: DriverBody, m: JsValue)
    requires body.mobiles == Some([m])
    ensures (MobileSecondary, Null) in DriverFields(body)
    ensures m != Null ==> (MobilePrimary, m) in DriverFields(body)
  {
  }

  /** The row PATCH /api/drivers/:id changes: the caller's driver with that id. */
  function FindDriver(drivers: seq<Row>, id: string, owner: string): (r: Option<nat>)
    ensures r.Some? ==> r.value < |drivers| && Get(drivers[r.value], Id) == Str(id) &&
                        Get(drivers[r.value], OwnerId) == Str(owner)
    ensures r.None? ==> forall i :: 0 <= i < |drivers| ==>
                          !(Get(drivers[i], Id) == Str(id) && Get(drivers[i], OwnerId) == Str(owner))
  {
    if drivers == [] then None
    else if Get(drivers[0], Id) == Str(id) && Get(drivers[0], OwnerId) == Str(owner) then Some(0)
    else
      var r := FindDriver(drivers[1..], id, owner);
      if r.Some? then Some(r.value + 1) else None
  }

  function Apply(row: Row, fields: seq<(Key, JsValue)>): Row
    decreases |fields|
  {
    if fields == [] then row else Apply(row[fields[0].0 := fields[0].1], fields[1..])
  }

  lemma {:induction false} ApplyGet(row: Row, fields: seq<(Key, JsValue)>, c: Key)
    requires DistinctColumns(fields)
    ensures forall k :: 0 <= k < |fields| && fields[k].0 == c ==> Get(Apply(row, fields), c) == fields[k].1
    ensures (forall k :: 0 <= k < |fields| ==> fields[k].0 != c) ==> Get(Apply(row, fields), c) == Get(row, c)
    decreases |fields|
  {
    if fields != [] {
      ApplyGet(row[fields[0].0 := fields[0].1], fields[1..], c);
    }
  }

  /** PATCH /api/drivers/:id on the database. */
  function PatchDriver(db: Db, owner: string, id: string, body: DriverBody): (r: (Reply, Db))
    ensures r.0.code in {200, 400, 404}
    ensures r.0.code == 400 <==> DriverFields(body) == []
    ensures r.0.code == 404 <==> DriverFields(body) != [] && FindDriver(db.drivers, id, owner).None?
    ensures r.0.code != 200 ==> r.1 == db
    ensures r.0.code == 200 ==>
      r.1.trucks == db.trucks && r.1.trips == db.trips && r.1.payments == db.payments &&
      |r.1.drivers| == |db.drivers| &&
      r.0.rows == [r.1.drivers[FindDriver(db.drivers, id, owner).value]] &&
      r.1.drivers[FindDriver(db.drivers, id, owner).value] ==
        Apply(db.drivers[FindDriver(db.drivers, id, owner).value], DriverFields(body))
  {
    var fields := DriverFields(body);
    if fields == [] then (Fail(400, "No fields to update"), db)
    else
      var i := FindDriver(db.drivers, id, owner);
      if i.None? then (Fail(404, "Driver not found"), db)
      else
        var row := Apply(db.drivers[i.value], fields);
        (Reply(200, [row], ""), db.(drivers := db.drivers[i.value := row]))
  }

  /** A successful driver update sets each supplied column to its value,
      leaves the driver's other columns and every other row as they were. */
  lemma PatchDriverEffect(db: Db, owner: string, id: string, body: DriverBody, c: Key)
    requires PatchDriver(db, owner, id, body).0.code == 200
    ensures var (reply, db2) := PatchDriver(db, owner, id, body);
      var i := FindDriver(db.drivers, id, owner).value;
      |db2.drivers| == |db.drivers| && db2.trips == db.trips && db2.payments == db.payments &&
      (forall j :: 0 <= j < |db.drivers| && j != i ==> db2.drivers[j] == db.drivers[j]) &&
      (forall k :: 0 <= k < |DriverFields(body)| && DriverFields(body)[k].0 == c ==>
         Get(db2.drivers[i], c) == DriverFields(body)[k].1) &&
      ((forall k :: 0 <= k < |DriverFields(body)| ==> DriverFields(body)[k].0 != c) ==>
         Get(db2.drivers[i], c) == Get(db.drivers[i], c))
  {
    var i := FindDriver(db.drivers, id, owner).value;
    DriverFieldsDistinct(body);
    ApplyGet(db.drivers[i], DriverFields(body), c);
  }

  // ---- POST /api/drivers

  /** POST /api/drivers: `mobiles[0]` and `mobiles[1]` become the primary and
      secondary numbers (NULL when absent); no truthy primary is a 400. */
  function CreateDriver(db: Db, owner: string, body: DriverBody, newId: string): (r: (Reply, Db))
    ensures r.0.code == 400 <==> !Truthy(Primary(body.mobiles))
    ensures r.0.code == 400 ==> r.1 == db
    ensures r.0.code != 400 ==>
      r.0.code == 201 && |r.0.rows| == 1 && r.1.drivers == db.drivers + r.0.rows &&
      r.1.trucks == db.trucks && r.1.trips == db.trips && r.1.payments == db.payments &&
      Get(r.0.rows[0], Id) == Str(newId) && Get(r.0.rows[0], OwnerId) == Str(owner)
  {
    var primary := Primary(body.mobiles);
    var secondary := Secondary(body.mobiles);
    if !Truthy(primary) then (Fail(400, "Primary mobile number is required"), db)
    else
      var f := body.fields;
      var row := map[
        Id := Str(newId), OwnerId := Str(owner),
        Name := Param(Get(f, Name)), LicenseNumber := Param(Get(f, LicenseNumber)),
        PhotoUrl := Param(Get(f, PhotoUrl)), AadharUrl := Param(Get(f, AadharUrl)),
        MobilePrimary := primary, MobileSecondary := secondary,
        BloodGroup := Param(Get(f, BloodGroup)), Salary := Param(Get(f, Salary)),
        Advance := Param(Get(f, Advance)), AssignedTruckId := Param(Get(f, AssignedTruckId))];
      (Reply(201, [row], ""), db.(drivers := db.drivers + [row]))
  }

  lemma CreateDriverMobiles(db: Db, owner: string, body: DriverBody, newId: string)
    ensures var (reply, db2) := CreateDriver(db, owner, body, newId);
      (reply.code == 400 <==> !(body.mobiles.Some? && |body.mobiles.value| > 0 && Truthy(body.mobiles.value[0]))) &&
      (reply.code == 400 ==> db2 == db) &&
      (reply.code != 400 ==>
        reply.code == 201 && db2.drivers == db.drivers + [reply.rows[0]] &&
        Get(reply.rows[0], MobilePrimary) == body.mobiles.value[0] &&
        Get(reply.rows[0], MobileSecondary) == (if |body.mobiles.value| > 1 then body.mobiles.value[1] else Null))
  {
  }

  // ---- PATCH /api/auth/profile

  /** The profile columns the request sets, before the password. */
  function ProfileFields(body: Row): seq<(Key, JsValue)> {
    Step(FullName, Supplied(body, FullName)) + Step(Mobile, Supplied(body, Mobile)) +
    Step(MobileSecondary, Supplied(body, MobileSecondary)) + Step(CountryCode, Supplied(body, CountryCode)) +
    Step(ProfilePicture, Supplied(body, ProfilePicture))
  }

  method PushProfileColumns(updates: seq<Assignment>, values: seq<JsValue>, paramCount: nat,
                            ghost fields: seq<(Key, JsValue)>, body: Row)
    returns (updates2: seq<Assignment>, values2: seq<JsValue>, paramCount2: nat)
    requires Prefix(updates, values, paramCount, fields)
    ensures Prefix(updates2, values2, paramCount2, fields + ProfileFields(body))
  {
    ghost var f := fields;
    updates2, values2, paramCount2 := PushColumn(updates, values, paramCount, f, FullName, Supplied(body, FullName));
    f := f + Step(FullName, Supplied(body, FullName));
    updates2, values2, paramCount2 := PushColumn(updates2, values2, paramCount2, f, Mobile, Supplied(body, Mobile));
    f := f + Step(Mobile, Supplied(body, Mobile));
    updates2, values2, paramCount2 := PushColumn(updates2, values2, paramCount2, f, MobileSecondary, Supplied(body, MobileSecondary));
    f := f + Step(MobileSecondary, Supplied(body, MobileSecondary));
    updates2, values2, paramCount2 := PushColumn(updates2, values2, paramCount2, f, CountryCode, Supplied(body, CountryCode));
    f := f + Step(CountryCode, Supplied(body, CountryCode));
    updates2, values2, paramCount2 := PushColumn(updates2, values2, paramCount2, f, ProfilePicture, Supplied(body, ProfilePicture));
    f := f + Step(ProfilePicture, Supplied(body, ProfilePicture));
    assert f == fields + ProfileFields(body);
  }

  /** The outcome of the password part: None when no new password is asked
      for; otherwise the rejection, or the new hash to store. `storedHash` is
      the profile's current hash, `currentMatches` whether the supplied current
      password matches it, `newHash` the new password's hash. */
  function PasswordStep(body: Row, storedHash: JsValue, currentMatches: bool, newHash: string): (r: Option<Built>)
    ensures r.None? <==> !Truthy(Get(body, NewPassword))
    ensures r.Some? && r.value.Rejected? <==>
      Truthy(Get(body, NewPassword)) && Truthy(storedHash) && !(Truthy(Get(body, CurrentPassword)) && currentMatches)
    ensures r.Some? && r.value.Statement? ==> Binds(r.value.u, [(PasswordHash, Str(newHash))], [])
  {
    if !Truthy(Get(body, NewPassword)) then None
    else if Truthy(storedHash) && !Truthy(Get(body, CurrentPassword)) then
      Some(Rejected(400, "Current password is required to set a new one"))
    else if Truthy(storedHash) && !currentMatches then Some(Rejected(401, "Incorrect current password"))
    else Some(Statement(UpdateStatement([Assignment(PasswordHash, 1)], [], [Str(newHash)])))
  }

  /** Builds PATCH /api/auth/profile's statement: the supplied profile columns
      and the new hash, numbered $1..$n, then `id = $n+1`. */
  method BuildProfileUpdate(body: Row, storedHash: JsValue, currentMatches: bool, newHash: string, userId: string)
    returns (r: Built)
    ensures var pw := PasswordStep(body, storedHash, currentMatches, newHash);
      pw.Some? && pw.value.Rejected? ==> r == pw.value
    ensures var pw := PasswordStep(body, storedHash, currentMatches, newHash);
      var fields := ProfileFields(body) + (if pw.Some? && pw.value.Statement? then [(PasswordHash, Str(newHash))] else []);
      !(pw.Some? && pw.value.Rejected?) ==> (r.Rejected? <==> fields == []) && (r.Rejected? ==> r.code == 400)
    ensures var pw := PasswordStep(body, storedHash, currentMatches, newHash);
      var fields := ProfileFields(body) + (if pw.Some? && pw.value.Statement? then [(PasswordHash, Str(newHash))] else []);
      !(pw.Some? && pw.value.Rejected?) && r.Statement? ==> Binds(r.u, fields, [(Id, Str(userId))])
  {
    ghost var pw := PasswordStep(body, storedHash, currentMatches, newHash);
    var updates: seq<Assignment> := [];
    var values: seq<JsValue> := [];
    var paramCount: nat := 1;
    updates, values, paramCount := PushProfileColumns(updates, values, paramCount, [], body);
    ghost var fields := [] + ProfileFields(body);
    assert fields == ProfileFields(body);
    if Truthy(Get(body, NewPassword)) {
      if Truthy(storedHash) {
        if !Truthy(Get(body, CurrentPassword)) {
          return Rejected(400, "Current password is required to set a new one");
        }
        if !currentMatches {
          return Rejected(401, "Incorrect current password");
        }
      }
      assert pw.Some? && pw.value.Statement?;
      updates, values, paramCount := PushColumn(updates, values, paramCount, fields, PasswordHash, Some(Str(newHash)));
      fields := fields + Step(PasswordHash, Some(Str(newHash)));
    } else {
      assert pw.None?;
    }
    assert fields == ProfileFields(body) + (if pw.Some? && pw.value.Statement? then [(PasswordHash, Str(newHash))] else []);
    if |updates| == 0 {
      return Rejected(400, "No fields to update");
    }
    var u := Finish(updates, values, paramCount, fields, [(Id, Str(userId))]);
    r := Statement(u);
  }

  /** The current password is demanded and checked only when the profile
      already has a (non-empty) password hash; a profile without one may set a
      password directly. */
  lemma PasswordCheckOnlyWithHash(body: Row, storedHash: JsValue, currentMatches: bool, newHash: string)
    requires Truthy(Get(body, NewPassword))
    ensures var pw := PasswordStep(body, storedHash, currentMatches, newHash);
      pw.Some? &&
      (!Truthy(storedHash) ==> pw.value.Statement?) &&
      (Truthy(storedHash) ==> (pw.value.Statement? <==> Truthy(Get(body, CurrentPassword)) && currentMatches))
  {
  }

  // ---- PATCH /api/trips/:id

  /** A JSON object with its keys in insertion order. */
  type Props = seq<(Key, JsValue)>

  function IndexOf(o: Props, k: Key): (r: Option<nat>)
    ensures r.Some? ==> r.value < |o| && o[r.value].0 == k
    ensures r.None? ==> forall i :: 0 <= i < |o| ==> o[i].0 != k
  {
    if o == [] then None
    else if o[0].0 == k then Some(0)
    else
      var r := IndexOf(o[1..], k);
      if r.Some? then Some(r.value + 1) else None
  }

  /** `o[k] = v`: an existing key keeps its place, a new key goes last. */
  function SetProp(o: Props, k: Key, v: JsValue): Props {
    var i := IndexOf(o, k);
    if i.Some? then o[i.value := (k, v)] else o + [(k, v)]
  }

  /** `delete o[k]` */
  function DeleteProp(o: Props, k: Key): (r: Props)
    ensures forall i :: 0 <= i < |r| ==> r[i].0 != k
    ensures forall p :: p in r <==> p in o && p.0 != k
  {
    if o == [] then []
    else if o[0].0 == k then DeleteProp(o[1..], k)
    else [o[0]] + DeleteProp(o[1..], k)
  }

  /** The request after `actual_income` is renamed `total_order_value`. */
  function TripPatchFields(body: Props): Props {
    var i := IndexOf(body, ActualIncome);
    if i.Some? && body[i.value].1 != Undefined then
      DeleteProp(SetProp(body, TotalOrderValue, body[i.value].1), ActualIncome)
    else body
  }

  /** The statement of PATCH /api/trips/:id: `SET k_i = $i` for each
      remaining key, then `id = $n+1` and the owner check on `$n+2`. */
  function TripUpdate(body: Props, id: string, owner: string): (u: UpdateStatement)
    ensures Binds(u, TripPatchFields(body), [(Id, Str(id)), (OwnerId, Str(owner))])
  {
    var fields := TripPatchFields(body);
    UpdateStatement(
      seq(|fields|, i requires 0 <= i < |fields| => Assignment(fields[i].0, i + 1)),
      [Assignment(Id, |fields| + 1), Assignment(OwnerId, |fields| + 2)],
      Map(fields, (f: (Key, JsValue)) => f.1) + [Str(id), Str(owner)])
  }

  /** The rename: the update never names `actual_income`; when the request
      carried it, `total_order_value` is set to its value (whatever the
      request said for `total_order_value` itself); every other key passes
      through with its value. */
  lemma TripPatchRename(body: Props, c: Key, v: JsValue)
    ensures var fields := TripPatchFields(body);
      var income := IndexOf(body, ActualIncome);
      var renamed := income.Some? && body[income.value].1 != Undefined;
      (renamed ==> forall i :: 0 <= i < |fields| ==> fields[i].0 != ActualIncome) &&
      (renamed ==> (TotalOrderValue, body[income.value].1) in fields) &&
      (c != ActualIncome && c != TotalOrderValue ==> ((c, v) in fields <==> (c, v) in body)) &&
      (!renamed ==> fields == body)
  {
    var income := IndexOf(body, ActualIncome);
    if income.Some? && body[income.value].1 != Undefined {
      var w := body[income.value].1;
      var set1 := SetProp(body, TotalOrderValue, w);
      var j := IndexOf(body, TotalOrderValue);
      if j.Some? {
        assert set1[j.value] == (TotalOrderValue, w);
        assert forall p :: p in set1 && p.0 != TotalOrderValue ==> p in body;
        assert forall p :: p in body && p.0 != TotalOrderValue ==> p in set1 by {
          forall p | p in body && p.0 != TotalOrderValue ensures p in set1 {
            var k :| 0 <= k < |body| && body[k] == p;
            assert set1[k] == p;
          }
        }
      } else {
        assert set1[|body|] == (TotalOrderValue, w);
      }
    }
  }

  /** PATCH /api/trips/:id on the database: an empty request makes the SQL
      invalid (500); a trip that is not the caller's is 404. */
  function PatchTrip(db: Db, owner: string, id: string, body: Props): (r: (Reply, Db))
    ensures r.0.code in {200, 404, 500}
    ensures r.0.code == 500 <==> TripPatchFields(body) == []
    ensures r.0.code == 404 <==> TripPatchFields(body) != [] && FindOwnedTrip(db, db.trips, id, owner).None?
    ensures r.0.code != 200 ==> r.1 == db
    ensures r.0.code == 200 ==>
      var i := FindOwnedTrip(db, db.trips, id, owner).value;
      r.1.trucks == db.trucks && r.1.payments == db.payments && r.1.drivers == db.drivers &&
      |r.1.trips| == |db.trips| && r.0.rows == [r.1.trips[i]] &&
      r.1.trips[i] == Apply(db.trips[i], TripPatchFields(body)) &&
      forall j :: 0 <= j < |db.trips| && j != i ==> r.1.trips[j] == db.trips[j]
  {
    var fields := TripPatchFields(body);
    if fields == [] then (Fail(500, "Server error"), db)
    else
      var i := FindOwnedTrip(db, db.trips, id, owner);
      if i.None? then (Fail(404, "Trip not found"), db)
      else
        var row := Apply(db.trips[i.value], fields);
        (Reply(200, [row], ""), db.(trips := db.trips[i.value := row]))
  }

  function FindOwnedTrip(db: Db, trips: seq<Row>, id: string, owner: string): (r: Option<nat>)
    ensures r.Some? ==> r.value < |trips| && Get(trips[r.value], Id) == Str(id) && OwnedTrip(db, trips[r.value], owner)
    ensures r.None? ==> forall i :: 0 <= i < |trips| ==> !(Get(trips[i], Id) == Str(id) && OwnedTrip(db, trips[i], owner))
  {
    if trips == [] then None
    else if Get(trips[0], Id) == Str(id) && OwnedTrip(db, trips[0], owner) then Some(0)
    else
      var r := FindOwnedTrip(db, trips[1..], id, owner);
      if r.Some? then Some(r.value + 1) else None
  }

  /** Setting a property of an object with distinct keys keeps them distinct. */
  lemma SetPropDistinct(o: Props, k: Key, v: JsValue)
    requires DistinctColumns(o)
    ensures DistinctColumns(SetProp(o, k, v))
  {
    var i := IndexOf(o, k);
    if i.None? {
      var r := o + [(k, v)];
      assert forall j :: 0 <= j < |o| ==> r[j] == o[j];
    }
  }

  /** Dropping the first property keeps the keys distinct. */
  lemma TailDistinct(o: Props)
    requires o != [] && DistinctColumns(o)
    ensures DistinctColumns(o[1..])
  {
    forall i, j | 0 <= i < j < |o[1..]| ensures o[1..][i].0 != o[1..][j].0 {
      assert o[1..][i] == o[i + 1] && o[1..][j] == o[j + 1];
    }
  }

  /** A property whose key the rest does not use can go in front. */
  lemma ConsDistinct(p: (Key, JsValue), rest: Props)
    requires DistinctColumns(rest)
    requires forall j :: 0 <= j < |rest| ==> rest[j].0 != p.0
    ensures DistinctColumns([p] + rest)
  {
    var r := [p] + rest;
    forall a, b | 0 <= a < b < |r| ensures r[a].0 != r[b].0 {
      assert r[b] == rest[b - 1];
      if a > 0 {
        assert r[a] == rest[a - 1];
      }
    }
  }

  /** Deleting a property keeps the remaining keys distinct. */
  lemma {:induction false} DeletePropDistinct(o: Props, k: Key)
    requires DistinctColumns(o)
    ensures DistinctColumns(DeleteProp(o, k))
  {
    if o != [] {
      TailDistinct(o);
      DeletePropDistinct(o[1..], k);
      if o[0].0 != k {
        var rest := DeleteProp(o[1..], k);
        forall j | 0 <= j < |rest| ensures rest[j].0 != o[0].0 {
          assert rest[j] in o[1..];
          var m :| 0 <= m < |o[1..]| && o[1..][m] == rest[j];
          assert o[m + 1] == rest[j];
        }
        ConsDistinct(o[0], rest);
      }
    }
  }

  /** The renamed request still names each column at most once, as the
      keys of the request object do. */
  lemma TripPatchFieldsDistinct(body: Props)
    requires DistinctColumns(body)
    ensures DistinctColumns(TripPatchFields(body))
  {
    var i := IndexOf(body, ActualIncome);
    if i.Some? && body[i.value].1 != Undefined {
      SetPropDistinct(body, TotalOrderValue, body[i.value].1);
      DeletePropDistinct(SetProp(body, TotalOrderValue, body[i.value].1), ActualIncome);
    }
  }

  /** A successful trip update sets each key of the renamed request on the
      trip, leaves the trip's other columns and every other row as they
      were. `body` is a request object, so its keys are distinct. */
  lemma PatchTripEffect(db: Db, owner: string, id: string, body: Props, c: Key)
    requires DistinctColumns(body)
    requires PatchTrip(db, owner, id, body).0.code == 200
    ensures var (reply, db2) := PatchTrip(db, owner, id, body);
      var i := FindOwnedTrip(db, db.trips, id, owner).value;
      var fields := TripPatchFields(body);
      |db2.trips| == |db.trips| && db2.trucks == db.trucks && db2.payments == db.payments &&
      db2.drivers == db.drivers &&
      (forall j :: 0 <= j < |db.trips| && j != i ==> db2.trips[j] == db.trips[j]) &&
      (forall k :: 0 <= k < |fields| && fields[k].0 == c ==> Get(db2.trips[i], c) == fields[k].1) &&
      ((forall k :: 0 <= k < |fields| ==> fields[k].0 != c) ==> Get(db2.trips[i], c) == Get(db.trips[i], c))
  {
    var i := FindOwnedTrip(db, db.trips, id, owner).value;
    TripPatchFieldsDistinct(body);
    ApplyGet(db.trips[i], TripPatchFields(body), c);
  }

  /** An update of another owner's trip changes nothing, and neither does an
      empty one. */
  lemma PatchTripRefused(db: Db, owner: string, id: string, body: Props)
    requires TripPatchFields(body) == [] ||
             forall t :: t in db.trips && Get(t, Id) == Str(id) ==> !OwnedTrip(db, t, owner)
    ensures PatchTrip(db, owner, id, body).1 == db
    ensures PatchTrip(db, owner, id, body).0.code == (if TripPatchFields(body) == [] then 500 else 404)
  {
    var i := FindOwnedTrip(db, db.trips, id, owner);
    assert i.Some? ==> db.trips[i.value] in db.trips;
  }
}

=== FILE: settings.dfy ===
/** The settings page's profile card: the avatar initials, the name caption
    and the mobile caption. */
module Settings {
  import opened Js
  import Identity

  /** `n[0]` as `join('')` writes it: the first character, and '' for an
      empty piece, whose undefined `join` writes as ''. */
  function FirstLetter(w: string): (r: string)
    ensures |r| <= 1
  {
    if w == "" then "" else [w[0]]
  }

  /** `getInitials(name)`: 'U' for a missing or empty name; else the first
      letters of the pieces between spaces, joined, upper-cased and cut to
      two characters. That is the upper-cased corrected initials, or '' for
      a name of spaces only. */
  function GetInitials(name: JsValue): (r: string)
    requires Identity.IsNameValue(name)
    ensures |r| <= 2
    ensures !Truthy(name) ==> r == "U"
    ensures Truthy(name) && Identity.Words(name.s) != [] ==> r == ToUpper(Identity.CorrectedInitials(name, "U"))
    ensures Truthy(name) && Identity.Words(name.s) == [] ==> r == ""
  {
    if !Truthy(name) then "U"
    else
      InitialsOfWords(name.s);
      Take(ToUpper(Join(Map(Split(name.s, ' '), FirstLetter), "")), 2)
  }

  /** The joined first letters, upper-cased and cut to two, are the
      upper-cased corrected initials. */
  lemma InitialsOfWords(s: string)
    requires s != ""
    ensures var r := Take(ToUpper(Join(Map(Split(s, ' '), FirstLetter), "")), 2);
      r == if Identity.Words(s) == [] then "" else ToUpper(Identity.CorrectedInitials(Str(s), "U"))
  {
    var ws := Identity.Words(s);
    var joined := Join(Map(Split(s, ' '), FirstLetter), "");
    JoinSkipsBlanks(Split(s, ' '));
    assert joined == Join(Map(ws, FirstLetter), "");
    if ws == [] {
      assert Map(ws, FirstLetter) == [];
    } else {
      LeadingLetters(ws);
      UpperTake(joined);
    }
  }

  /** An accented initial is upper-cased too: "\U{00E9}mile" shows
      "\U{00C9}". */
  lemma AccentedInitial()
    ensures GetInitials(Str("\U{00E9}mile")) == "\U{00C9}"
  {
    var name := "\U{00E9}mile";
    SplitWithoutSeparator(name, ' ');
    assert Identity.Words(name) == [name] by {
      FilterCons([name], Identity.IsWord);
    }
  }

  /** Empty pieces add nothing to the joined first letters. */
  lemma {:induction false} JoinSkipsBlanks(pieces: seq<string>)
    ensures Join(Map(pieces, FirstLetter), "") == Join(Map(Filter(pieces, Identity.IsWord), FirstLetter), "")
  {
    if pieces != [] {
      var rest := Filter(pieces[1..], Identity.IsWord);
      JoinSkipsBlanks(pieces[1..]);
      FilterCons(pieces, Identity.IsWord);
      JoinUnseparated(Map(pieces, FirstLetter));
      assert Map(pieces, FirstLetter)[1..] == Map(pieces[1..], FirstLetter);
      var tail := Join(Map(rest, FirstLetter), "");
      assert Join(Map(pieces, FirstLetter), "") == FirstLetter(pieces[0]) + tail;
      if pieces[0] != "" {
        var kept := [pieces[0]] + rest;
        assert Filter(pieces, Identity.IsWord) == kept;
        JoinUnseparated(Map(kept, FirstLetter));
        assert Map(kept, FirstLetter)[1..] == Map(rest, FirstLetter);
        assert Join(Map(kept, FirstLetter), "") == FirstLetter(pieces[0]) + tail;
      } else {
        assert Filter(pieces, Identity.IsWord) == rest;
      }
    }
  }

  /** The joined first letters of words start with the first characters of
      the first two words. */
  lemma LeadingLetters(ws: seq<string>)
    requires ws != [] && forall i :: 0 <= i < |ws| ==> ws[i] != ""
    ensures var joined := Join(Map(ws, FirstLetter), "");
      Take(joined, 2) == if |ws| >= 2 then [ws[0][0], ws[1][0]] else [ws[0][0]]
  {
    var m := Map(ws, FirstLetter);
    JoinUnseparated(m);
    assert m[1..] == Map(ws[1..], FirstLetter);
    if |ws| >= 2 {
      JoinUnseparated(m[1..]);
      assert Join(m, "") == [ws[0][0]] + [ws[1][0]] + Join(m[2..], "");
    } else {
      assert m[1..] == [];
    }
  }

  /** Cutting and upper-casing can be done in either order. */
  lemma UpperTake(s: string)
    ensures Take(ToUpper(s), 2) == ToUpper(Take(s, 2))
  {
  }

  /** The name caption: the 'loading' message while the profile loads, then
      the full name, or the 'user' message when it is missing or empty. */
  function NameCaption(loading: bool, profile: Option<JsObject>): (c: Caption)
    ensures loading ==> c == Message("loading")
    ensures !loading && Truthy(GetOpt(profile, FullName)) ==> c == Plain(JsString(GetOpt(profile, FullName)))
    ensures !loading && !Truthy(GetOpt(profile, FullName)) ==> c == Message("user")
  {
    if loading then Message("loading")
    else if Truthy(GetOpt(profile, FullName)) then Plain(JsString(GetOpt(profile, FullName)))
    else Message("user")
  }

  /** The mobile caption: '...' while the profile loads, then the phone
      text, or the 'no_mobile_added' message when there is no mobile. */
  function MobileCaption(loading: bool, profile: Option<JsObject>): (c: Caption)
    ensures loading ==> c == Plain("...")
    ensures !loading && !Truthy(GetOpt(profile, Mobile)) ==> c == Message("no_mobile_added")
    ensures !loading && Truthy(GetOpt(profile, Mobile)) ==> c == Plain(Identity.PhoneText(profile.value))
  {
    if loading then Plain("...")
    else if Truthy(GetOpt(profile, Mobile)) then Plain(Identity.PhoneText(profile.value))
    else Message("no_mobile_added")
  }
}

=== FILE: sidebar.dfy ===
/** The sidebar's user card: initials avatar, name, and a subtitle showing
    the phone number or, without one, the email. */
module Sidebar {
  import opened Js
  import Identity
  import Settings

  /** `getUserInitials()`: 'U' without a full name, else the two-word
      initials shared with the driver list (no case change). */
  function UserInitials(user: Option<JsObject>): (r: JsValue)
    requires Identity.IsNameValue(GetOpt(user, FullName))
    ensures !Truthy(GetOpt(user, FullName)) ==> r == Str("U")
    ensures var name := GetOpt(user, FullName);
            name.Str? && name.s != "" && Split(name.s, ' ')[0] != "" &&
            (|Split(name.s, ' ')| >= 2 ==> Split(name.s, ' ')[1] != "") ==>
              r == Str(Identity.CorrectedInitials(name, "U"))
  {
    var name := GetOpt(user, FullName);
    assert name.Str? && name.s != "" && Split(name.s, ' ')[0] != "" &&
           (|Split(name.s, ' ')| >= 2 ==> Split(name.s, ' ')[1] != "") ==>
             Identity.TwoWordInitials(name, "U") == Str(Identity.CorrectedInitials(name, "U")) by {
      if name.Str? && name.s != "" && Split(name.s, ' ')[0] != "" &&
         (|Split(name.s, ' ')| >= 2 ==> Split(name.s, ' ')[1] != "") {
        Identity.WellSpacedNamesAgree(name.s, "U");
      }
    }
    Identity.TwoWordInitials(name, "U")
  }

  /** A user named "John " (a trailing space) sees "Jundefined" where "J"
      was meant. */
  lemma SpacedNameShowsUndefined(user: JsObject)
    requires Get(user, FullName) == Str("John ")
    ensures Rendered(UserInitials(Some(user))) == "Jundefined"
    ensures Identity.CorrectedInitials(Get(user, FullName), "U") == "J"
  {
    Identity.TrailingSpaceShowsUndefined("U");
  }

  /** For a well-spaced name the sidebar's initials are the settings page's,
      up to case. */
  lemma InitialsMatchSettings(user: JsObject)
    requires Get(user, FullName).Str? && Get(user, FullName).s != ""
    requires var pieces := Split(Get(user, FullName).s, ' ');
      pieces[0] != "" && (|pieces| >= 2 ==> pieces[1] != "")
    ensures ToUpper(Rendered(UserInitials(Some(user)))) == Settings.GetInitials(Get(user, FullName))
  {
    var name := Get(user, FullName).s;
    Identity.WellSpacedNamesAgree(name, "U");
    var ws := Identity.Words(name);
    FilterCons(Split(name, ' '), Identity.IsWord);
    assert ws != [];
  }

  /** `getFormattedPhone()`: '' without a mobile, else the phone text. */
  function FormattedPhone(user: Option<JsObject>): (t: string)
    ensures t == "" <==> !Truthy(GetOpt(user, Mobile))
    ensures Truthy(GetOpt(user, Mobile)) ==> t == Identity.PhoneText(user.value)
  {
    if !Truthy(GetOpt(user, Mobile)) then "" else Identity.PhoneText(user.value)
  }

  /** The subtitle `getFormattedPhone() || user?.email`: the phone text when
      there is a mobile, else the email. */
  function Subtitle(user: Option<JsObject>): (v: JsValue)
    ensures Truthy(GetOpt(user, Mobile)) ==> v == Str(FormattedPhone(user))
    ensures !Truthy(GetOpt(user, Mobile)) ==> v == GetOpt(user, Email)
  {
    Or(Str(FormattedPhone(user)), GetOpt(user, Email))
  }

  /** The name line `user?.full_name || 'User'`: never empty. */
  function DisplayName(user: Option<JsObject>): (v: JsValue)
    ensures Truthy(v)
    ensures Truthy(GetOpt(user, FullName)) ==> v == GetOpt(user, FullName)
    ensures !Truthy(GetOpt(user, FullName)) ==> v == Str("User")
  {
    Or(GetOpt(user, FullName), Str("User"))
  }

  /** The sidebar and the settings page show the same phone text for the
      same profile, and both show none without a mobile. */
  lemma SamePhoneAsSettings(profile: JsObject)
    ensures Truthy(Get(profile, Mobile)) ==>
      Settings.MobileCaption(false, Some(profile)) == Plain(FormattedPhone(Some(profile)))
    ensures !Truthy(Get(profile, Mobile)) ==>
      Settings.MobileCaption(false, Some(profile)) == Message("no_mobile_added") && FormattedPhone(Some(profile)) == ""
  {
  }
}

=== FILE: subscriptionguard.dfy ===
/** The paywall guard: nothing while loading, the subscription screen for a
    lapsed trial (admins included), the page otherwise. */
module SubscriptionGuard {
  import opened Js
  import Auth
  import ProtectedRoute

  datatype View = Nothing | Paywall | Page

  function Guard(loading: bool, profile: Auth.User, now: int): (v: View)
    ensures loading ==> v == Nothing
    ensures v == Paywall <==> !loading && profile.Some? && Auth.IsTrialExpired(profile, now)
    ensures !loading && profile.None? ==> v == Page
  {
    if loading then Nothing
    else if profile.Some? && Auth.IsTrialExpired(profile, now) then Paywall
    else Page
  }

  /** The two guards disagree on an admin whose trial has lapsed: the route
      guard lets them through and the paywall stops them. */
  lemma AdminLapsedTrial(user: JsObject, location: string, now: int)
    requires Auth.IsAdmin(Some(user)) && !Auth.IsBlocked(Some(user)) && Auth.IsTrialExpired(Some(user), now)
    ensures ProtectedRoute.Decide(false, Some(user), location, now) == ProtectedRoute.Children
    ensures Guard(false, Some(user), now) == Paywall
  {
  }

  /** Past loading with a signed-in user, the paywall shows exactly when the
      route guard would have shown the expired screen or let an admin in on
      a lapsed trial. */
  lemma PaywallCoversExpiredScreen(user: JsObject, location: string, now: int)
    requires !Auth.IsBlocked(Some(user))
    ensures ProtectedRoute.Decide(false, Some(user), location, now) == ProtectedRoute.ExpiredScreen ==>
      Guard(false, Some(user), now) == Paywall
  {
  }
}

=== FILE: tripform.dfy ===
/** The add-trip form: its defaults, the keystroke handler that clamps
    negative numbers and keeps the order value and the expense derived, and
    the save handler that checks the required fields and converts the
    numbers. */
module TripForm {
  import opened Js

  type Form = JsObject

  /** The fields that may not hold a negative number. */
  const NumericFields: set<Key> := {MaterialPrice, TripsCount, TotalOrderValue, Profit, TotalExpense}

  /** The form a new trip starts with; `today` is the current UTC date as
      `YYYY-MM-DD`. */
  function InitialForm(today: string): (f: Form)
    ensures Get(f, TripsCount) == Str("1") && Get(f, PaymentStatus) == Str("pending")
    ensures Get(f, TruckId) == Str("") && Get(f, TripDate) == Str(today)
    ensures f.Keys == {TruckId, TripDate, Supplier, Client, Location, Material, MaterialPrice, TripsCount,
                       TotalOrderValue, Profit, TotalExpense, Remark, PaymentStatus}
    ensures forall k :: k in f ==> k == TripsCount || k == PaymentStatus || k == TripDate || Get(f, k) == Str("")
  {
    map[TruckId := Str(""), TripDate := Str(today), Supplier := Str(""), Client := Str(""),
        Location := Str(""), Material := Str(""), MaterialPrice := Str(""), TripsCount := Str("1"),
        TotalOrderValue := Str(""), Profit := Str(""), TotalExpense := Str(""), Remark := Str(""),
        PaymentStatus := Str("pending")]
  }

  /** Once the trucks are loaded the first one is selected, if there is one. */
  function WithTrucks(f: Form, trucks: seq<JsObject>): (r: Form)
    ensures trucks != [] ==> Get(r, TruckId) == Get(trucks[0], Id)
    ensures trucks == [] ==> r == f
    ensures forall k :: k != TruckId ==> Get(r, k) == Get(f, k)
  {
    if |trucks| > 0 then f[TruckId := Get(trucks[0], Id)] else f
  }

  /** `parseFloat(v) < 0`, decided on the exact value, fraction included
      ("-0.5" is below 0; NaN and "-0" are not). */
  predicate IsNegative(v: JsValue) {
    ParseFloatSignOf(v) == Some(-1)
  }

  /** A negative fraction is clamped although it reads as 0; negative zero
      is not. */
  lemma NegativeFractionClamped()
    ensures IsNegative(Str("-0.5")) && ParseFloatOf(Str("-0.5")) == Some(0)
    ensures !IsNegative(Str("-0")) && !IsNegative(Str("0.5"))
  {
    FractionSigns();
  }

  /** What a keystroke does: leave for another page, or store a new form. */
  datatype Change = Navigate(path: string) | Update(form: Form)

  /** `handleChange`: clamps a negative number to '0'; the 'new_supplier' and
      'new_material' choices leave for their pages; a changed count or price
      sets the order value to count × price; every stored change sets the
      expense to order value − profit. */
  method HandleChange(prev: Form, name: Key, typed: JsValue) returns (c: Change)
    ensures name == Supplier && typed == Str("new_supplier") ==> c == Navigate("/add-supplier")
    ensures name == Material && typed == Str("new_material") ==> c == Navigate("/add-material")
    ensures c.Update? <==> !(name == Supplier && typed == Str("new_supplier")) && !(name == Material && typed == Str("new_material"))
    ensures c.Update? && name != TotalExpense ==>
      Get(c.form, name) == (if name in NumericFields && IsNegative(typed) then Str("0") else typed)
    ensures c.Update? && (name == TripsCount || name == MaterialPrice) ==> OrderValueDerived(c.form)
    ensures c.Update? ==> ExpenseDerived(c.form) && KeptOthers(c.form, prev, name)
  {
    var value := typed;
    if name in NumericFields {
      if IsNegative(value) {
        value := Str("0");
      }
    }
    assert Supplier !in NumericFields && Material !in NumericFields;
    if name == Supplier && value == Str("new_supplier") {
      return Navigate("/add-supplier");
    }
    if name == Material && value == Str("new_material") {
      return Navigate("/add-material");
    }
    assert value == if name in NumericFields && IsNegative(typed) then Str("0") else typed;
    var updated := UpdateForm(prev, name, value);
    c := Update(updated);
  }

  /** The order value holds the text of count × price, each read with
      `parseFloat(x) || 0`. */
  predicate OrderValueDerived(f: Form) {
    Get(f, TotalOrderValue) == Str(IntToString(ParseFloatOr0(Get(f, TripsCount)) * ParseFloatOr0(Get(f, MaterialPrice))))
  }

  /** The expense holds the text of order value − profit, each read with
      `parseFloat(x) || 0`. */
  predicate ExpenseDerived(f: Form) {
    Get(f, TotalExpense) == Str(IntToString(ParseFloatOr0(Get(f, TotalOrderValue)) - ParseFloatOr0(Get(f, Profit))))
  }

  /** Read back as numbers, a derived form satisfies
      order value = count × price and expense = order value − profit. */
  lemma DerivedReadsBack(f: Form)
    ensures OrderValueDerived(f) ==>
      ParseFloatOr0(Get(f, TotalOrderValue)) == ParseFloatOr0(Get(f, TripsCount)) * ParseFloatOr0(Get(f, MaterialPrice))
    ensures ExpenseDerived(f) ==>
      ParseFloatOr0(Get(f, TotalExpense)) == ParseFloatOr0(Get(f, TotalOrderValue)) - ParseFloatOr0(Get(f, Profit))
  {
    ParseFloatOfText(ParseFloatOr0(Get(f, TripsCount)) * ParseFloatOr0(Get(f, MaterialPrice)));
    ParseFloatOfText(ParseFloatOr0(Get(f, TotalOrderValue)) - ParseFloatOr0(Get(f, Profit)));
  }

  /** A keystroke on `name` leaves every other field as it was, except the
      expense and, for the count and the price, the order value. */
  ghost predicate KeptOthers(f: Form, prev: Form, name: Key) {
    forall k :: k != name && k != TotalExpense && (k == TotalOrderValue ==> name != TripsCount && name != MaterialPrice) ==>
      Get(f, k) == Get(prev, k)
  }

  /** The state update of `handleChange`: stores `value` under `name` and
      recomputes the derived fields. */
  method UpdateForm(prev: Form, name: Key, value: JsValue) returns (f: Form)
    ensures name != TotalExpense ==> Get(f, name) == value
    ensures name == TripsCount || name == MaterialPrice ==> OrderValueDerived(f)
    ensures ExpenseDerived(f)
    ensures KeptOthers(f, prev, name)
  {
    if name == TripsCount || name == MaterialPrice {
      var stored := StoreCountOrPrice(prev, name, value);
      f := RecomputeExpense(stored, name, value);
      assert Get(f, TripsCount) == Get(stored, TripsCount) && Get(f, MaterialPrice) == Get(stored, MaterialPrice);
      assert Get(f, TotalOrderValue) == Get(stored, TotalOrderValue);
    } else {
      f := RecomputeExpense(prev[name := value], name, value);
    }
  }

  /** Stores a new count or price and sets the order value to count × price,
      each read with `parseFloat(x) || 0`. */
  method StoreCountOrPrice(prev: Form, name: Key, value: JsValue) returns (updated: Form)
    requires name == TripsCount || name == MaterialPrice
    ensures Get(updated, name) == value
    ensures OrderValueDerived(updated)
    ensures forall k :: k != name && k != TotalOrderValue ==> Get(updated, k) == Get(prev, k)
  {
    updated := prev[name := value];
    var count := ParseFloatOr0(if name == TripsCount then value else Get(prev, TripsCount));
    var price := ParseFloatOr0(if name == MaterialPrice then value else Get(prev, MaterialPrice));
    assert count == ParseFloatOr0(Get(updated, TripsCount));
    assert price == ParseFloatOr0(Get(updated, MaterialPrice));
    updated := updated[TotalOrderValue := Str(IntToString(count * price))];
  }

  /** Sets the expense to order value − profit, each read with
      `parseFloat(x) || 0`; `value` is what was just stored under `name`. */
  method RecomputeExpense(updated: Form, name: Key, value: JsValue) returns (r: Form)
    requires Get(updated, name) == value
    ensures ExpenseDerived(r)
    ensures forall k :: k != TotalExpense ==> Get(r, k) == Get(updated, k)
  {
    var orderValue := ParseFloatOr0(if name == TotalOrderValue then value else Get(updated, TotalOrderValue));
    var profitValue := ParseFloatOr0(if name == Profit then value else Get(updated, Profit));
    assert orderValue == ParseFloatOr0(Get(updated, TotalOrderValue));
    assert profitValue == ParseFloatOr0(Get(updated, Profit));
    r := updated[TotalExpense := Str(IntToString(orderValue - profitValue))];
    assert Get(r, TotalOrderValue) == Get(updated, TotalOrderValue) && Get(r, Profit) == Get(updated, Profit);
  }

  /** What the save button does. */
  datatype Save = Refused | Submit(payload: JsObject)

  /** `parseInt(v) || 1`: a count that is 0 or not a number becomes 1. */
  function CountOr1(v: JsValue): (n: int)
    ensures n != 0
    ensures ParseFloatOf(v).Some? && ParseFloatOf(v).value != 0 ==> n == ParseFloatOf(v).value
  {
    var p := ParseFloatOf(v);
    if p.Some? && p.value != 0 then p.value else 1
  }

  /** `handleSave`: refused without a truck or an order value; otherwise the
      form is sent with its count and money fields as numbers. */
  function HandleSave(f: Form): (s: Save)
    ensures s.Refused? <==> !Truthy(Get(f, TruckId)) || !Truthy(Get(f, TotalOrderValue))
    ensures s.Submit? ==>
      Get(s.payload, TripsCount) == Num(CountOr1(Get(f, TripsCount))) &&
      Get(s.payload, MaterialPrice) == Num(ParseFloatOr0(Get(f, MaterialPrice))) &&
      Get(s.payload, TotalOrderValue) == Num(ParseFloatOr0(Get(f, TotalOrderValue))) &&
      Get(s.payload, Profit) == Num(ParseFloatOr0(Get(f, Profit))) &&
      Get(s.payload, TotalExpense) == Num(ParseFloatOr0(Get(f, TotalExpense))) &&
      forall k :: k !in NumericFields ==> Get(s.payload, k) == Get(f, k)
  {
    if !Truthy(Get(f, TruckId)) || !Truthy(Get(f, TotalOrderValue)) then Refused
    else
      Submit(f[TripsCount := Num(CountOr1(Get(f, TripsCount)))]
              [MaterialPrice := Num(ParseFloatOr0(Get(f, MaterialPrice)))]
              [TotalOrderValue := Num(ParseFloatOr0(Get(f, TotalOrderValue)))]
              [Profit := Num(ParseFloatOr0(Get(f, Profit)))]
              [TotalExpense := Num(ParseFloatOr0(Get(f, TotalExpense)))])
  }

  /** A count typed as 0 is saved as 1. */
  lemma ZeroCountSavedAsOne(f: Form)
    requires Truthy(Get(f, TruckId)) && Truthy(Get(f, TotalOrderValue)) && Get(f, TripsCount) == Str("0")
    ensures HandleSave(f).Submit? && Get(HandleSave(f).payload, TripsCount) == Num(1)
  {
    assert LeadingDigits("0") == "0";
    assert DigitsValue("0") == 0 by {
      assert "0"[..0] == "";
    }
  }
}

=== FILE: triplist.dfy ===
/** The trip list page: the truck filter (a strict-equality match, unlike
    the dashboard's text match), the status badge and the money shown on each
    card. */
module TripList {
  import opened Js
  import Dashboard
  import Select

  type Row = JsObject

  /** The page's `filters` state. */
  datatype Filters = Filters(format: string, dateRange: string, truck: JsValue, client: JsValue,
                             supplier: JsValue, startDate: string, endDate: string)

  /** The filters a visit starts with: every truck, client and supplier, the
      weekly range, no format and no dates. */
  function InitialFilters(): (f: Filters)
    ensures f.truck == Str("all") && f.client == Str("all") && f.supplier == Str("all")
    ensures f.dateRange == "weekly" && f.format == "" && f.startDate == "" && f.endDate == ""
  {
    Filters("", "weekly", Str("all"), Str("all"), Str("all"), "", "")
  }

  /** The truck select's change: only the truck entry changes. */
  function ChooseTruck(f: Filters, value: JsValue): (r: Filters)
    ensures r.truck == value
    ensures r.format == f.format && r.dateRange == f.dateRange && r.client == f.client &&
      r.supplier == f.supplier && r.startDate == f.startDate && r.endDate == f.endDate
  {
    f.(truck := value)
  }

  /** `t.truck_id === filters.truck` */
  predicate OnTruck(trip: Row, selection: JsValue) {
    StrictEquals(Get(trip, TruckId), selection)
  }

  /** `filteredTrips`: every trip for 'all', else the trips whose truck id
      is strictly equal to the selection, in their order. */
  function FilteredTrips(trips: seq<Row>, f: Filters): (r: seq<Row>)
    ensures f.truck == Str("all") ==> r == trips
    ensures f.truck != Str("all") ==> forall x :: x in r <==> x in trips && OnTruck(x, f.truck)
  {
    if f.truck == Str("all") then trips
    else
      FilterMembers(trips, x => OnTruck(x, f.truck));
      Filter(trips, x => OnTruck(x, f.truck))
  }

  /** The filtered trips keep their order, and filtering them again changes
      nothing. */
  lemma FilteredTripsShape(trips: seq<Row>, f: Filters)
    ensures IsSubsequence(FilteredTrips(trips, f), trips)
    ensures FilteredTrips(FilteredTrips(trips, f), f) == FilteredTrips(trips, f)
  {
    if f.truck == Str("all") {
      FilterAll(trips, x => true);
      FilterSubsequence(trips, x => true);
    } else {
      FilterSubsequence(trips, x => OnTruck(x, f.truck));
      FilterIdempotent(trips, x => OnTruck(x, f.truck));
    }
  }

  /** Every trip this page shows for a truck the dashboard counts for the
      same selection. */
  lemma ShownTripsOnDashboard(trips: seq<Row>, f: Filters)
    ensures forall x :: x in FilteredTrips(trips, f) ==> x in Dashboard.ScopeToTruck(trips, f.truck)
  {
  }

  /** The converse fails: a trip whose truck id is the number 3 is counted by
      the dashboard for the selection '3' but not shown here. */
  lemma NumericIdHiddenHere(trip: Row)
    requires Get(trip, TruckId) == Num(3)
    ensures FilteredTrips([trip], ChooseTruck(InitialFilters(), Str("3"))) == []
    ensures Dashboard.ScopeToTruck([trip], Str("3")) == [trip]
  {
    var f := ChooseTruck(InitialFilters(), Str("3"));
    assert !OnTruck(trip, f.truck);
    assert [trip][..0] == [];
    assert Dashboard.OnTruck(trip, TruckId, Str("3")) by {
      assert JsString(Num(3)) == "3";
    }
  }

  /** The truck select's options: 'all' first (labelled with the
      'all_trucks' message key), then each truck's id labelled with its
      number. */
  function TruckOptions(trucks: seq<Row>): (options: seq<Select.Choice>)
    ensures |options| == |trucks| + 1
    ensures options[0] == Select.Choice(Str("all"), Str("all_trucks"))
    ensures forall i :: 0 <= i < |trucks| ==> options[i + 1] == Select.Choice(Get(trucks[i], Id), Get(trucks[i], TruckNumber))
  {
    [Select.Choice(Str("all"), Str("all_trucks"))] + Map(trucks, (t: Row) => Select.Choice(Get(t, Id), Get(t, TruckNumber)))
  }

  /** Picking a truck in the select shows exactly that truck's trips
      (its id being strictly equal to itself), and picking 'all' shows every
      trip. */
  lemma PickingTruckShowsItsTrips(trips: seq<Row>, trucks: seq<Row>, f: Filters, i: nat)
    requires i < |trucks| + 1
    ensures var value := Select.HandleSelect(Str("truck"), TruckOptions(trucks)[i].value).event.value;
      var shown := FilteredTrips(trips, ChooseTruck(f, value));
      (i == 0 ==> shown == trips) &&
      (i > 0 && value != Str("all") ==> forall x :: x in shown <==> x in trips && OnTruck(x, Get(trucks[i - 1], Id)))
  {
  }

  /** The status badge. */
  datatype Badge = ReceivedBadge | PendingBadge

  /** Received exactly when `status === 'received'`, pending otherwise. */
  function StatusBadge(trip: Row): (b: Badge)
    ensures b == ReceivedBadge <==> Get(trip, Status) == Str("received")
    ensures b == PendingBadge <==> Get(trip, Status) != Str("received")
  {
    if StrictEquals(Get(trip, Status), Str("received")) then ReceivedBadge else PendingBadge
  }

  /** `Number(x) || 0`: the number, or 0 when it does not read as one. */
  function Shown(v: JsValue): (n: int)
    ensures ToNumber(v).Some? ==> n == ToNumber(v).value
    ensures ToNumber(v).None? ==> n == 0
  {
    NumberOr0(v)
  }

  /** The profit and the expense on a card. */
  function CardMoney(trip: Row): (m: (int, int))
    ensures m.0 == Shown(Get(trip, Profit)) && m.1 == Shown(Get(trip, TotalExpense))
  {
    (Shown(Get(trip, Profit)), Shown(Get(trip, TotalExpense)))
  }

  /** A trip saved by the add-trip form shows the profit and the expense it
      was saved with. */
  lemma SavedMoneyShows(trip: Row, profit: int, expense: int)
    requires Get(trip, Profit) == Num(profit) && Get(trip, TotalExpense) == Num(expense)
    ensures CardMoney(trip) == (profit, expense)
  {
  }

  /** Profit and expense come back from the database as decimal text such
      as "250.00"; a card shows those amounts. */
  lemma DecimalMoneyShows(trip: Row, profit: nat, expense: nat)
    requires Get(trip, Profit) == Str(NatToString(profit) + ".00")
    requires Get(trip, TotalExpense) == Str(NatToString(expense) + ".00")
    ensures CardMoney(trip) == (profit, expense)
  {
    WholeDecimalText(profit);
    WholeDecimalText(expense);
  }
}

=== FILE: trucksetup.dfy ===
/** The first-run truck setup: a list of editable truck entries, edited in
    place, of which the named ones are saved. */
module TruckSetup {
  import opened Js

  /** One entry of the list; `handleChange` writes its fields in place. */
  class TruckEntry {
    const id: int
    var name: string
    var truckType: string

    constructor(id: int)
      ensures this.id == id && name == "" && truckType == "Diesel"
    {
      this.id := id;
      name := "";
      truckType := "Diesel";
    }
  }

  /** The entry fields an input can change. */
  datatype Field = NameField | TypeField

  /** An entry's contents at one moment. */
  datatype Draft = Draft(id: int, name: string, truckType: string)

  /** `location.state?.truckCount || 1`: a missing count (0) means one. */
  function EntryCount(stateCount: nat): (n: nat)
    ensures n >= 1
    ensures stateCount > 0 ==> n == stateCount
  {
    if stateCount == 0 then 1 else stateCount
  }

  class TruckSetupPage {
    var trucks: seq<TruckEntry>

    /** Every entry is its own object. */
    ghost predicate Valid()
      reads this
    {
      forall i, j :: 0 <= i < j < |trucks| ==> trucks[i] != trucks[j]
    }

    /** The list starts with `EntryCount(stateCount)` blank diesel entries
        numbered 0, 1, ... */
    constructor(stateCount: nat)
      ensures Valid() && |trucks| == EntryCount(stateCount)
      ensures forall i :: 0 <= i < |trucks| ==>
        fresh(trucks[i]) && trucks[i].id == i && trucks[i].name == "" && trucks[i].truckType == "Diesel"
    {
      var n := EntryCount(stateCount);
      var list: seq<TruckEntry> := [];
      var i := 0;
      while i < n
        invariant 0 <= i <= n && |list| == i
        invariant forall k :: 0 <= k < i ==>
          fresh(list[k]) && list[k].id == k && list[k].name == "" && list[k].truckType == "Diesel"
        invariant forall k, j :: 0 <= k < j < i ==> list[k] != list[j]
      {
        var entry := new TruckEntry(i);
        list := list + [entry];
        i := i + 1;
      }
      trucks := list;
    }

    /** The entries' current contents. */
    function Snapshot(): (drafts: seq<Draft>)
      reads this, trucks
      ensures |drafts| == |trucks|
      ensures forall i :: 0 <= i < |trucks| ==>
        drafts[i] == Draft(trucks[i].id, trucks[i].name, trucks[i].truckType)
    {
      seq(|trucks|, i reads this, trucks requires 0 <= i < |trucks| =>
        Draft(trucks[i].id, trucks[i].name, trucks[i].truckType))
    }

    /** `handleChange(index, field, value)`: the spread copy holds the same
        entry objects, so the write lands in the entry the old list holds
        too; the list itself keeps its entries and length. */
    method HandleChange(index: int, field: Field, value: string)
      requires Valid() && 0 <= index < |trucks|
      modifies this, trucks[index]
      ensures trucks == old(trucks) && Valid()
      ensures field == NameField ==> trucks[index].name == value && trucks[index].truckType == old(trucks[index].truckType)
      ensures field == TypeField ==> trucks[index].truckType == value && trucks[index].name == old(trucks[index].name)
      ensures forall i :: 0 <= i < |trucks| && i != index ==>
        trucks[i].name == old(trucks[i].name) && trucks[i].truckType == old(trucks[i].truckType)
    {
      var newTrucks := trucks;
      if field == NameField {
        newTrucks[index].name := value;
      } else {
        newTrucks[index].truckType := value;
      }
      trucks := newTrucks;
    }
  }

  predicate IsNamed(d: Draft) {
    Trim(d.name) != ""
  }

  /** A name of white space only, no-break spaces included, is not a name,
      so the entry is not sent. */
  lemma BlankNameUnnamed(d: Draft)
    requires forall i :: 0 <= i < |d.name| ==> IsSpace(d.name[i])
    ensures !IsNamed(d)
    ensures !IsNamed(Draft(d.id, "\U{00A0}\U{00A0}", d.truckType))
  {
    TrimBlank(d.name);
    TrimBlank("\U{00A0}\U{00A0}");
  }

  /** The body sent for one entry. */
  function Request(d: Draft): (r: JsObject)
    ensures r.Keys == {TruckNumber, Model}
    ensures r[TruckNumber] == Str(d.name) && r[Model] == Str(d.truckType)
  {
    map[TruckNumber := Str(d.name), Model := Str(d.truckType)]
  }

  datatype Save = NothingNamed | Sent(requests: seq<JsObject>, next: Option<string>)

  /** `handleSave`: the named entries are sent, one request each, in list
      order; with none named nothing is sent and an error shows. Once all
      are accepted the page moves on, to the profile editor when opened
      from the settings and to the dashboard otherwise. */
  function HandleSave(drafts: seq<Draft>, fromSettings: bool, accepted: bool): (s: Save)
    ensures s.NothingNamed? <==> forall i :: 0 <= i < |drafts| ==> !IsNamed(drafts[i])
    ensures s.Sent? ==>
      var named := Filter(drafts, IsNamed);
      |s.requests| == |named| && (forall i :: 0 <= i < |named| ==> s.requests[i] == Request(named[i]))
    ensures s.Sent? && accepted ==> s.next == Some(if fromSettings then "/edit-profile" else "/dashboard")
    ensures s.Sent? && !accepted ==> s.next.None?
  {
    var named := Filter(drafts, IsNamed);
    FilterMembers(drafts, IsNamed);
    if |named| == 0 then
      assert forall i :: 0 <= i < |drafts| ==> drafts[i] in drafts;
      NothingNamed
    else
      assert named[0] in named;
      Sent(Map(named, Request), if accepted then Some(if fromSettings then "/edit-profile" else "/dashboard") else None)
  }

  /** The names sent are exactly the entries' non-blank names. */
  lemma SentNames(drafts: seq<Draft>, fromSettings: bool, accepted: bool, d: Draft)
    requires HandleSave(drafts, fromSettings, accepted).Sent?
    ensures Request(d) in HandleSave(drafts, fromSettings, accepted).requests <==>
      exists e :: e in drafts && IsNamed(e) && Request(e) == Request(d)
  {
    var named := Filter(drafts, IsNamed);
    var requests := HandleSave(drafts, fromSettings, accepted).requests;
    FilterMembers(drafts, IsNamed);
    if Request(d) in requests {
      var i :| 0 <= i < |requests| && requests[i] == Request(d);
      assert named[i] in named;
    }
    if e :| e in drafts && IsNamed(e) && Request(e) == Request(d) {
      assert e in named;
      var i :| 0 <= i < |named| && named[i] == e;
      assert requests[i] == Request(d);
    }
  }

  /** A list left blank saves nothing. */
  lemma BlankListSavesNothing(n: nat, fromSettings: bool, accepted: bool)
    ensures HandleSave(seq(n, i => Draft(i, "", "Diesel")), fromSettings, accepted) == NothingNamed
  {
    var drafts := seq(n, i => Draft(i, "", "Diesel"));
    assert forall i :: 0 <= i < |drafts| ==> !IsNamed(drafts[i]);
  }
}

=== FILE: verifyotp.dfy ===
/** The code-entry page after sign-up: six one-character slots, the check
    that six characters were entered, and where the email and a mailed code
    come from. */
module VerifyOtp {
  import opened Js

  /** The slots start empty. */
  function InitialSlots(): (otp: seq<string>)
    ensures |otp| == 6 && forall i :: 0 <= i < 6 ==> otp[i] == ""
  {
    ["", "", "", "", "", ""]
  }

  /** `isNaN(text)`: `Number(text)` is NaN. Blank text reads as 0. */
  predicate NotANumber(text: string) {
    ToNumber(Str(text)).None?
  }

  /** `handleChange(element, index)`: a value that is not a number is
      ignored; otherwise the slots are copied and slot `index` takes the
      value. */
  method HandleChange(otp: seq<string>, index: int, value: string) returns (r: seq<string>)
    requires 0 <= index < |otp|
    ensures NotANumber(value) ==> r == otp
    ensures !NotANumber(value) ==>
      |r| == |otp| && r[index] == value &&
      forall i :: 0 <= i < |otp| && i != index ==> r[i] == otp[i]
  {
    if NotANumber(value) {
      return otp;
    }
    var newOtp := new string[|otp|](i requires 0 <= i < |otp| => otp[i]);
    newOtp[index] := value;
    r := newOtp[..];
  }

  /** A letter is refused, a digit and a blank are taken. */
  lemma DigitsAndBlanksAccepted()
    ensures NotANumber("a") && !NotANumber("7") && !NotANumber(" ")
  {
    assert Trim("a") == "a";
    assert Trim(" ") == "" by {
      assert TrimStart(" ") == "";
    }
    assert Trim("7") == "7";
    assert DigitsValue("7") == 7 by {
      assert "7"[..0] == "";
    }
  }

  /** What the verify button does. */
  datatype Verify = Submit(email: JsValue, code: string) | WrongLength

  /** `handleVerify`: the slots joined; a code of six characters is
      submitted, anything else is refused. */
  function HandleVerify(otp: seq<string>, email: JsValue): (v: Verify)
    ensures v.Submit? <==> |Join(otp, "")| == 6
    ensures v.Submit? ==> v.email == email && v.code == Join(otp, "")
  {
    var code := Join(otp, "");
    if |code| == 6 then Submit(email, code) else WrongLength
  }

  /** The joined code is as long as the slots together. */
  function TotalLength(otp: seq<string>): nat {
    if otp == [] then 0 else |otp[0]| + TotalLength(otp[1..])
  }

  lemma {:induction false} JoinLength(otp: seq<string>)
    ensures |Join(otp, "")| == TotalLength(otp)
  {
    if |otp| > 1 {
      JoinLength(otp[1..]);
    }
  }

  /** Slots of one character at most fill up to their number of
      characters exactly when none is empty. */
  lemma {:induction false} FullWhenNoneEmpty(otp: seq<string>)
    requires forall i :: 0 <= i < |otp| ==> |otp[i]| <= 1
    ensures TotalLength(otp) <= |otp|
    ensures TotalLength(otp) == |otp| <==> forall i :: 0 <= i < |otp| ==> otp[i] != ""
  {
    if otp != [] {
      var rest := otp[1..];
      assert forall i :: 0 <= i < |rest| ==> rest[i] == otp[i + 1];
      FullWhenNoneEmpty(rest);
      if forall i :: 0 <= i < |otp| ==> otp[i] != "" {
        assert forall i :: 0 <= i < |rest| ==> rest[i] != "" by {
          forall i | 0 <= i < |rest| ensures rest[i] != "" {
            assert otp[i + 1] != "";
          }
        }
      }
      if forall i :: 0 <= i < |rest| ==> rest[i] != "" {
        if otp[0] != "" {
          forall i | 0 <= i < |otp| ensures otp[i] != "" {
            if i > 0 {
              assert otp[i] == rest[i - 1];
            }
          }
        }
      }
    }
  }

  /** With one character at most per slot, as the inputs allow, six slots
      make a six-character code exactly when none is empty. */
  lemma SixFilledSlots(otp: seq<string>, email: JsValue)
    requires |otp| == 6 && forall i :: 0 <= i < 6 ==> |otp[i]| <= 1
    ensures HandleVerify(otp, email).Submit? <==> forall i :: 0 <= i < 6 ==> otp[i] != ""
  {
    JoinLength(otp);
    FullWhenNoneEmpty(otp);
  }

  /** `location.state?.email || queryParams.get('email')`: the navigation
      state wins; `query` is Null when the address has no `email`. */
  function Email(stateEmail: JsValue, query: JsValue): (e: JsValue)
    ensures Truthy(stateEmail) ==> e == stateEmail
    ensures !Truthy(stateEmail) ==> e == query
  {
    Or(stateEmail, query)
  }

  /** A mailed code in the address is verified at once, but only with an
      email to go with it. */
  function DirectVerify(directCode: JsValue, email: JsValue): (v: Option<Verify>)
    ensures v.Some? <==> Truthy(directCode) && Truthy(email)
    ensures v.Some? ==> v.value == Submit(email, JsString(directCode))
  {
    if Truthy(directCode) && Truthy(email) then Some(Submit(email, JsString(directCode))) else None
  }

  datatype Screen = InvalidRequest | CodeEntry

  function PageScreen(email: JsValue): (s: Screen)
    ensures s == InvalidRequest <==> !Truthy(email)
  {
    if Truthy(email) then CodeEntry else InvalidRequest
  }
}
